=== FILE: README.md ===
# Trajectory gamification and analytics core in Dafny

Trajectory is a wellness-habit tracker. Users keep habits in eight wellness
pillars, complete them once a day, earn XP, climb levels, keep streaks and
unlock achievements. An analytics engine turns their history into pillar
scores, a time-of-day profile, recommendations and per-pillar XP
multipliers.

This project models the deterministic rules behind all of that as pure
Dafny functions over immutable datatypes, with a few methods where the
source runs a loop. It proves properties of those rules:

- `Leveling`: the XP curve `floor(100 * 1.5^(level-1))` in exact integer
  arithmetic, and level lookup. The accumulating loop of the gamification
  library, its copy in the shared helpers and the subtracting loop of the
  user store give the same level.
- `Streak`: the server streak engine (a set of completion dates, a 365-day
  scan with a grace day for today), the record update, the
  first-completion-of-the-day check and the milestone bonus.
- `Gamification`: XP values, the achievement catalogue, per-pillar totals,
  the client-side streak count, daily statistics and the motivational
  message.
- `HabitCompletion`: the `POST /api/habits/complete` endpoint as a
  transition over the habits, completions and profiles tables.
- `Insights`: pillar scores, time-of-day shares, streak statistics,
  recommendation synthesis and ordering, the assembled insights and the XP
  multipliers.
- `UserStore`: the client store reducers (`addXP`, `incrementStreak`,
  `resetStreak`, habit and achievement list updates).
- `Utils`: the older no-grace streak count, the second copy of the level
  curve and the greeting.
- `Avatar`: avatar tier bands, image paths and tier progress.
- `Chat`: the free-tier daily message limit of the coach chat and the
  conversation log it saves.
- `Common` and `Domain`: shared helpers (options, rounding, digits) and
  the shared entities (pillars, habits, completions, instants).

Modelling conventions:

- Time is a day number plus a second of the day (`Domain.Instant`). A
  date key such as `2024-05-01` is a `Day`. `Hour` is `second / 3600`.
- `Math.round(a / b)` for `b > 0` is `Common.RoundDiv`, which rounds halves
  up as JavaScript does.
- Fractional XP multipliers are written in tenths (1.5 is 15).
  Correlation confidences are in hundredths.
- Database reads are function inputs and database writes are function
  outputs. A `.single()` query yields a row only when exactly one row
  matches (`HabitCompletion.Single`).

Where the code and its documentation disagree, the model follows the code:

- A user who completed yesterday and the day before, but not yet today,
  has a current streak of 2, not 3. The engine skips an empty today and
  counts back from yesterday (`Streak.GraceDayExamples`).
- The reported pillar `completionRate` is rounded but not capped at 100,
  while the score is capped (`Insights.ScoreOf`).
- The "already completed today" window is `[00:00:00, 23:59:59)`. A
  completion stamped in the final second of a day is outside it. It
  neither blocks a repeat completion nor counts as the day's first
  (`HabitCompletion.FinalSecondAllowsRepeat`,
  `Streak.FinalSecondNotCounted`).
- The duplicate check uses `.single()`. If two completions of the habit
  already lie in today's window, the check finds no row and the request
  goes through (`HabitCompletion.Post`: refused exactly when the window
  count is 1).
- The gamification library reads a completion's stamp from the snake-case
  `completed_at` field, while the declared type names it `completedAt`.
  The model uses one optional stamp field (`Completion.completedAt`). A
  completion whose stamp the code cannot read is a `None` stamp.
- The avatar fallback band for levels below 1 still reports progress
  against the Novice band, which then comes out negative
  (`Avatar.BelowFirstLevel`).

## Model

| member | source | states |
|---|---|---|
| Domain.AllPillarsListsEachOnce | src/types/index.ts:4-12 | every wellness pillar occurs in the pillar list, and no pillar occurs twice |
| Leveling.CurveStep | src/lib/gamification/index.ts:15-18 | one step of the exact 1.5x curve grows the floored value by at least half of it |
| Leveling.CurveStepExact | src/lib/gamification/index.ts:15-18 | the curve point keeps `q * d + r == 100 * 3^k` with denominator `2^k` and remainder below it, so `q` is the exact floor |
| Leveling.CurveIterateExact | src/lib/gamification/index.ts:15-18 | after n steps the point represents exactly `100 * 3^(k+n) / 2^(k+n)`, the remainder staying below the denominator |
| Leveling.XPForLevel | src/lib/gamification/index.ts:15-18 | the XP a level needs is at least 100 |
| Leveling.XPForLevelFormula | src/lib/gamification/index.ts:15-18 | the XP for a level is exactly `floor(100 * 3^(level-1) / 2^(level-1))`, i.e. `floor(100 * 1.5^(level-1))` |
| Leveling.XPForLevelGrows | src/lib/gamification/index.ts:15-18 | each level needs at least 50 XP more than the one before |
| Leveling.XPForLevelFirstTwo | src/lib/gamification/index.ts:15-18 | level 1 needs 100 XP and level 2 needs 150 |
| Leveling.XPForLevelStrictlyIncreasing | src/lib/gamification/index.ts:15-18 | a higher level always needs strictly more XP |
| Leveling.CumulativeXPGrows | src/lib/gamification/index.ts:26-41 | the XP accumulated before a higher level covers the lower level's band in full |
| Leveling.LevelFrom | src/lib/gamification/index.ts:26-42 | the loop stops at a level at or above its start, with total = accumulated XP before the level + currentXP and currentXP below that level's requirement |
| Leveling.LevelFromXP | src/lib/gamification/index.ts:20-43 | `getLevelFromXP`: level at least 1, total = XP before the level + currentXP, currentXP in [0, nextLevelXP) for non-negative totals, nextLevelXP the level's requirement; negative totals stay at level 1 |
| Leveling.GetLevelFromXP | src/lib/gamification/index.ts:20-43 | the while loop computes the same result, and its currentXP lies within the level's band |
| Leveling.LevelFromStopsInBand | src/lib/gamification/index.ts:29-42 | when the total lies in a level's band, the loop from any earlier level stops exactly at that level |
| Leveling.LevelFromCumulativeXP | src/lib/gamification/index.ts:20-43 | a total inside level L's band, `[XP before L, XP before L + requirement(L))`, maps to level L |
| Leveling.LevelMonotone | src/lib/gamification/index.ts:20-43 | more XP never gives a lower level |
| Leveling.LevelBySubtraction | src/stores/userStore.ts:112-119 | the store's loop that subtracts each level's cost while it is affordable; `Leveling.StoreCurveAgrees` states its result |
| Leveling.SubtractionMatchesAccumulation | src/stores/userStore.ts:112-119 | the subtracting loop, started anywhere on the curve, ends at the same level as the accumulating loop |
| Leveling.StoreCurveAgrees | src/stores/userStore.ts:108-120 | the store's level for any XP equals the gamification library's `getLevelFromXP` level |
| Streak.DateKeys | src/lib/streak/index.ts:24-30 | a day is a completion date exactly when some stamp carries it; missing stamps contribute nothing |
| Streak.CountBack | src/lib/streak/index.ts:37-51 | counting back from a day stops at the first absent day or at the budget, and every counted day is present |
| Streak.CurrentStreak | src/lib/streak/index.ts:32-53 | the streak is at most 365 and at most the scan budget; it counts consecutive present days ending today, or ending yesterday when today is absent; the day before the run is absent unless the budget ran out |
| Streak.CollectDays | src/lib/streak/index.ts:23-30 | the loop collects exactly the set of stamped days |
| Streak.CalculateCurrentStreak | src/lib/streak/index.ts:8-54 | `calculateCurrentStreak`: no completions give 0; otherwise the value is the current streak of the stamped days, never above 365 |
| Streak.RepeatedDayCountsOnce | src/lib/streak/index.ts:24-30 | a second completion on a day already present leaves the streak unchanged |
| Streak.MissingStampIgnored | src/lib/streak/index.ts:26-29 | a completion without a stamp leaves the streak unchanged |
| Streak.GapEndsStreak | src/lib/streak/index.ts:37-51 | an absent day before yesterday bounds the streak by the distance to it |
| Streak.GraceDayExamples | src/lib/streak/index.ts:37-51 | completions only yesterday and the day before give a streak of 2 while today is open, and 3 once today is completed |
| Streak.RecordStreak | src/lib/streak/index.ts:73-75 | the reported current streak is the computed one; longest is the max of it and the stored record (0 without a profile); it is a new record exactly when it exceeds the stored record |
| Streak.StoredRow | src/lib/streak/index.ts:78-85 | the profile row is rewritten with both streak fields exactly when a profile exists |
| Streak.UpdateUserStreak | src/lib/streak/index.ts:59-92 | `updateUserStreak`: the result is the record update of the current streak, and the stored row is that update written to the profile |
| Streak.LongestNeverDecreases | src/lib/streak/index.ts:73-75 | the stored longest streak never goes down |
| Streak.RecalculationIsStable | src/lib/streak/index.ts:59-92 | running the update twice on the same completions stores the same row, and the second run reports no new record |
| Streak.WindowCount | src/lib/streak/index.ts:104-109 | the count of completions in the day's window is zero exactly when none lies in it |
| Streak.WindowCountIsCardinality | src/lib/streak/index.ts:104-112 | the window count equals the number of positions whose stamp lies in the day's `[00:00:00, 23:59:59)` window, the exact count the query returns |
| Streak.IsFirstCompletionToday | src/lib/streak/index.ts:98-113 | `isFirstCompletionToday`: exactly one of the user's completions lies in today's window; its behaviour is stated by `Streak.FirstThenNotFirst` and `Streak.FinalSecondNotCounted` |
| Streak.FirstThenNotFirst | src/lib/streak/index.ts:98-113 | the first completion in the window makes `isFirstCompletionToday` true, and a second one makes it false |
| Streak.FinalSecondNotCounted | src/lib/streak/index.ts:108-112 | a completion at 23:59:59 is outside the window, so it never counts as the day's first |
| Streak.MilestonesAscending | src/lib/streak/index.ts:123-132 | the milestone days strictly increase along the list |
| Streak.FirstCrossed | src/lib/streak/index.ts:134-141 | the scan returns the first milestone crossed from index i on, or no bonus exactly when none is crossed |
| Streak.GetStreakBonusXP | src/lib/streak/index.ts:119-142 | `getStreakBonusXP`: a bonus exactly when some milestone lies in (old, new]; it is the first such milestone, with its XP and label; otherwise 0 XP and no label |
| Streak.BonusLabelledIffXP | src/lib/streak/index.ts:119-142 | a bonus carries a milestone label exactly when it carries XP |
| Streak.NoBonusWithoutGrowth | src/lib/streak/index.ts:134-141 | a streak that did not grow earns no bonus |
| Streak.BonusExampleFirstMilestone | src/lib/streak/index.ts:119-142 | going from 2 to 3 days earns 25 XP for the 3-day streak |
| Streak.BonusExampleBetweenMilestones | src/lib/streak/index.ts:119-142 | going from 3 to 4 days earns nothing |
| Streak.BonusExampleSkippedDay | src/lib/streak/index.ts:119-142 | jumping from 6 to 8 days still earns the 1-week bonus |
| Gamification.CatalogueIndex | src/lib/gamification/index.ts:53-99 | every achievement key has a position in the order the checks push it |
| Gamification.KeyNamesDistinct | src/lib/gamification/index.ts:53-99 | distinct keys have distinct key strings |
| Gamification.TotalCompletions | src/lib/gamification/index.ts:104-108 | a pillar totals 0 exactly when none of its habits has a completion, and the total is at least the completion count of each of its habits |
| Gamification.TotalCompletionsConcat | src/lib/gamification/index.ts:104-108 | the total over two habit lists joined is the sum of their totals, so every habit of the pillar adds its completions exactly once |
| Gamification.OrderedHead | src/lib/gamification/index.ts:53-99 | in a list in check order, the head comes before every later key |
| Gamification.EarnedAmong | src/lib/gamification/index.ts:53-99 | filtering a key list keeps exactly the earned keys, and keeps check order |
| Gamification.CatalogueIndexOfEntry | src/lib/gamification/index.ts:53-99 | each catalogue entry's position is its index |
| Gamification.CatalogueInOrder | src/lib/gamification/index.ts:53-99 | the catalogue is in check order and lists every key |
| Gamification.Unlocked | src/lib/gamification/index.ts:53-101 | a key is listed exactly when its threshold is met, in check order |
| Gamification.CheckAchievements | src/lib/gamification/index.ts:46-102 | `checkAchievements`: a key is returned exactly when its threshold holds for the profile, the pillar totals, the reading count and today's balance, in the order of the checks |
| Gamification.Stats | src/lib/gamification/index.ts:54-99 | the figures the thresholds read: profile streak and level, the physical, mental and fiscal completion totals, the reading count and today's balance; its meaning is stated by `Gamification.CheckAchievements`, `Gamification.BalancedIff` and `Gamification.OtherPillarsIgnored` |
| Gamification.Earned | src/lib/gamification/index.ts:54-99 | the threshold of each achievement (3/7/30/100 days, levels 5/10/25, 1/10/50 completions per original pillar, 1/5 readings, balance); used by the contracts of `Gamification.Unlocked` and `Gamification.CheckAchievements` |
| Gamification.UnlockedUnique | src/lib/gamification/index.ts:46-102 | no key is returned twice |
| Gamification.StreakThresholdsNest | src/lib/gamification/index.ts:54-57 | a longer streak achievement implies every shorter one |
| Gamification.LevelThresholdsNest | src/lib/gamification/index.ts:60-62 | a higher level achievement implies every lower one |
| Gamification.PillarThresholdsNest | src/lib/gamification/index.ts:65-79 | in each original pillar, 50 completions implies 10, which implies the first |
| Gamification.ReaderThresholdsNest | src/lib/gamification/index.ts:82-83 | five readings implies the first reading |
| Gamification.BalancedIff | src/lib/gamification/index.ts:85-99 | `checkAchievements` returns `balanced` exactly when physical, mental and fiscal each have a habit with a completion dated today |
| Gamification.OtherPillarsIgnored | src/lib/gamification/index.ts:64-99 | adding a habit of one of the five newer pillars changes no achievement |
| Gamification.CompletionStamps | src/lib/gamification/index.ts:115-118 | each completion maps, in order, to its stamped day or to a missing day |
| Gamification.AllStamps | src/lib/gamification/index.ts:115-118 | a day is among the stamps exactly when some habit was completed on it |
| Gamification.CalculateStreak | src/lib/gamification/index.ts:111-139 | the client-side count, with no habits giving 0, always equals the server engine's current streak over all habits' completion days |
| Gamification.ActiveHabits | src/lib/gamification/index.ts:143-146 | exactly the non-archived habits are kept |
| Gamification.CompletedHabits | src/lib/gamification/index.ts:148-150 | exactly the habits with a completion dated that day are kept |
| Gamification.ActiveHabitsConcat | src/lib/gamification/index.ts:143-146 | dropping archived habits distributes over joined lists, so the filter keeps every active habit once and in order |
| Gamification.CompletedHabitsConcat | src/lib/gamification/index.ts:148-150 | keeping the habits completed on a day distributes over joined lists, so each kept habit appears once and in order |
| Gamification.ActiveCountIsCardinality | src/lib/gamification/index.ts:143-154 | `dayHabits.length` equals the number of positions holding a non-archived habit |
| Gamification.DoneCountIsCardinality | src/lib/gamification/index.ts:148-153 | `completed.length` equals the number of positions holding a non-archived habit with a completion dated that day |
| Gamification.CalculateDailyStats | src/lib/gamification/index.ts:142-161 | `calculateDailyStats`: total is the number of non-archived habits and completed the number of non-archived habits with a completion dated that day (counted by position); XP is the sum over those habits; rate is `completed / total * 100` exactly (as a fraction) and 0 without active habits |
| Gamification.FullDay | src/lib/gamification/index.ts:142-161 | when every active habit is done, completed equals total and the rate is 100 |
| Gamification.AllCompleted | src/lib/gamification/index.ts:148-150 | when every habit is done that day, the completed list is the whole list |
| Gamification.MotivationalMessage | src/lib/gamification/index.ts:164-191 | `getMotivationalMessage`: streak 0 starts the day; at 100% progress Legendary from 30 days, Perfect day from 7 to 29, All done below 7; otherwise Over halfway from 50%, the chain message (carrying the streak) from 7 days, and Make today count below that |
| HabitCompletion.Status | src/app/api/habits/complete/route.ts:11-73 | each answer maps to its HTTP status: 200 success, 400 missing id or already completed, 401, 404, 500 |
| HabitCompletion.OwnedMatches | src/app/api/habits/complete/route.ts:22-27 | the habit query selects exactly the caller's habits with that id |
| HabitCompletion.Single | src/app/api/habits/complete/route.ts:22-31 | a `.single()` read yields the row exactly when one row matches |
| HabitCompletion.HabitWindowCount | src/app/api/habits/complete/route.ts:35-42 | the count of this user's completions of this habit stamped inside today's `[00:00:00, 23:59:59)` window is 0 exactly when no such row exists |
| HabitCompletion.HabitWindowCountIsCardinality | src/app/api/habits/complete/route.ts:35-42 | the count equals the number of rows of this habit and user stamped inside today's window, the exact count the duplicate check reads |
| HabitCompletion.UserDays | src/lib/streak/index.ts:13-30 | a date appears in the list exactly when some completion of the user is stamped on that day, and a missing stamp appears exactly when some completion of the user has none |
| HabitCompletion.UserInstants | src/lib/streak/index.ts:104-109 | an instant appears in the list exactly when some completion of the user carries that stamp |
| HabitCompletion.StreakFields | src/app/api/habits/complete/route.ts:52-58 | the streak fields exist exactly when the profile does |
| HabitCompletion.BonusXP | src/app/api/habits/complete/route.ts:80-97 | the bonus includes the milestone's XP |
| HabitCompletion.Post | src/app/api/habits/complete/route.ts:6-118 | no user gives 401; a missing or empty id gives 400; not found exactly when the owned match count is not 1; already completed exactly when one completion lies in today's window; a failed insert after the checks gives the 500 answer; success exactly when all checks pass and the insert succeeds; every refusal leaves the tables unchanged |
| HabitCompletion.AwardedArithmetic | src/app/api/habits/complete/route.ts:80-104 | on success: earned is the habit's reward, total = earned + bonus, bonus = milestone XP + 5 exactly on the first completion of the day, and the profile's XP grows by the total |
| HabitCompletion.AwardedMilestone | src/app/api/habits/complete/route.ts:81-112 | on success the reported milestone is the label of the streak bonus from the stored streak to the new one, and a label is reported exactly when that bonus has XP |
| HabitCompletion.AwardedFrame | src/app/api/habits/complete/route.ts:61-104 | a success appends exactly the new stamped completion and touches no habit and no other user's profile |
| HabitCompletion.AwardedStreak | src/app/api/habits/complete/route.ts:76-117 | after a success the reported streak is `updateUserStreak`'s result over the user's completions including the new row and the stored profile; it is at least 1 and at most the record, and the profile stores both |
| HabitCompletion.SecondCallSameDayRejected | src/app/api/habits/complete/route.ts:33-49 | after a success on a day, a second request for the habit that day is refused and changes nothing |
| HabitCompletion.FirstOfDayEarnsLoginBonus | src/app/api/habits/complete/route.ts:91-95 | the first completion of the day earns the daily-login bonus |
| HabitCompletion.FinalSecondAllowsRepeat | src/app/api/habits/complete/route.ts:34-44 | a completion stamped at 23:59:59 does not block another completion that day |
| Insights.PillarHabits | src/lib/analytics/insights.ts:103 | exactly the habits of the pillar are kept |
| Insights.CountFor | src/lib/analytics/insights.ts:104-111 | the pillar's completion count never exceeds the completions; the exact count is stated by `Insights.CountForAppend` and `Insights.NoneCounted` |
| Insights.CountForAppend | src/lib/analytics/insights.ts:104-111 | a completion appended to the list is counted exactly when its habit id belongs to one of the pillar's habits |
| Insights.ScoreOf | src/lib/analytics/insights.ts:109-125 | the rate is `100 * actual / expected` rounded half up (0 when nothing is expected); the score is `0.8 * rate + 20` (the 20 only with a habit) rounded half up, capped at 100, and reaches the cap exactly when that value rounds to 100 or more; with nothing expected the score is 20 with a habit and 0 without |
| Insights.ScoreFor | src/lib/analytics/insights.ts:102-126 | each pillar's entry names the pillar and counts its habits; with `expected = habits * days` and `actual` the completions of those habits, the rate and the capped score are the rounded values stated for `Insights.ScoreOf` |
| Insights.CalculatePillarScores | src/lib/analytics/insights.ts:69-129 | `calculatePillarScores`: one entry per pillar in pillar order, each the pillar's score; all-zero entries without habits |
| Insights.EarlyReturnAgrees | src/lib/analytics/insights.ts:84-91 | the early return for a user without habits equals the general formula |
| Insights.ParticipationFloor | src/lib/analytics/insights.ts:118 | a single habit with no completions still scores 20 |
| Insights.NoneCounted | src/lib/analytics/insights.ts:105-111 | completions of other habits are not counted |
| Insights.ScoreMonotone | src/lib/analytics/insights.ts:109-125 | more completions never lower the score or the rate |
| Insights.FullMarks | src/lib/analytics/insights.ts:109-125 | meeting every expected completion gives score 100 at rate 100 |
| Insights.SlotOf | src/lib/analytics/insights.ts:151-154 | hours in [5, 12) are morning, [12, 17) afternoon, and every other hour evening |
| Insights.CountSlots | src/lib/analytics/insights.ts:148-155 | the three slot counts add up to the number of completions; `Insights.CountSlotsBySlot` states each count |
| Insights.SlotCount | src/lib/analytics/insights.ts:150-155 | the number of completions whose hour falls in one slot, counted from the end of the list, never exceeds the completions |
| Insights.SlotCountCons | src/lib/analytics/insights.ts:150-155 | a completion in front of the list adds one to its own slot's count and nothing to the others |
| Insights.CountSlotsBySlot | src/lib/analytics/insights.ts:148-155 | the tally counts every completion in the slot of its hour and nowhere else |
| Insights.AnalyzeBestTimeOfDay | src/lib/analytics/insights.ts:134-164 | `analyzeBestTimeOfDay`: 33/33/34 without completions; otherwise each share is `round(100 * count in slot / completions)`, in [0, 100], and the shares add to between 99 and 101 |
| Insights.SharesRound | src/lib/analytics/insights.ts:157-163 | three rounded percentages of one total each lie in [0, 100] and sum to 100 within one point |
| Insights.AllMorning | src/lib/analytics/insights.ts:150-163 | when every completion is in the morning, the morning share is 100 |
| Insights.AllMorningCount | src/lib/analytics/insights.ts:150-155 | when every completion is in the morning, all are counted as morning |
| Insights.BestSlot | src/lib/analytics/insights.ts:288-290 | the `reduce` picks morning only when it beats both others strictly, afternoon when it beats evening strictly and ties or beats morning, else evening |
| Insights.BestSlotIsMaximal | src/lib/analytics/insights.ts:288-290 | the chosen slot's share is the largest |
| Insights.TieGoesToLater | src/lib/analytics/insights.ts:288-290 | on ties the later slot wins |
| Insights.AnalyzeStreakPatterns | src/lib/analytics/insights.ts:169-187 | `analyzeStreakPatterns`: the average is `round((current + longest) / 2)`; recovery is in [0, 100], 0 without a profile or record, 100 when the current run reaches the record, and `round(100 * current / longest)` whenever the current run is below a positive record (so 0 for a broken run) |
| Insights.FirstMinIndex | src/lib/analytics/insights.ts:251-252 | the stable ascending sort puts first the earliest of the lowest scores |
| Insights.LastMaxIndex | src/lib/analytics/insights.ts:251-253 | the stable ascending sort puts last the latest of the highest scores |
| Insights.FirstMaxIndex | src/lib/analytics/insights.ts:340-341 | the stable descending sort puts first the earliest of the highest scores |
| Insights.LastMinIndex | src/lib/analytics/insights.ts:340-344 | the stable descending sort puts last the latest of the lowest scores |
| Insights.FindCorrelation | src/lib/analytics/insights.ts:269-272 | `find` returns the first correlation linking the two pillars in either orientation, and nothing exactly when none does |
| Insights.FocusRecommendation | src/lib/analytics/insights.ts:255-265 | the focus item for the first of the lowest scores when it is below 50, priority 100; its emission condition is stated by `Insights.FocusIff` |
| Insights.CorrelationRecommendation | src/lib/analytics/insights.ts:267-285 | the connection item for the first correlation linking the strongest and weakest pillars in either orientation, priority 90; placed by `Insights.RecommendationOrder` |
| Insights.TimeRecommendation | src/lib/analytics/insights.ts:287-298 | the always-present time item for the slot the reduce picks, priority 70; placed last by `Insights.RecommendationShape` |
| Insights.StackRecommendation | src/lib/analytics/insights.ts:300-312 | the item for the first habit stack when there is one, priority 80; placed by `Insights.RecommendationOrder` |
| Insights.OptionToSeq | src/lib/analytics/insights.ts:256-312 | an optional recommendation becomes a list holding exactly it |
| Insights.Insert | src/lib/analytics/insights.ts:315 | insertion adds one element |
| Insights.InsertPermutes | src/lib/analytics/insights.ts:315 | insertion adds exactly the new element |
| Insights.InsertSorted | src/lib/analytics/insights.ts:315 | insertion keeps priorities descending |
| Insights.SortByPriority | src/lib/analytics/insights.ts:315 | the sort by descending priority returns a permutation with descending priorities |
| Insights.MultisetTail | src/lib/analytics/insights.ts:315 | dropping the head removes exactly one copy of it |
| Insights.SortedPermutationHead | src/lib/analytics/insights.ts:315 | a descending and a strictly descending list with the same elements start alike |
| Insights.SortedPermutationUnique | src/lib/analytics/insights.ts:315 | a descending and a strictly descending list with the same elements are equal |
| Insights.GenerateRecommendations | src/lib/analytics/insights.ts:242-316 | the recommendations are the pushed ones, reordered with descending priority |
| Insights.RecommendationOrder | src/lib/analytics/insights.ts:242-316 | the result is exactly focus (if the weakest scores below 50), correlation (if one links strongest and weakest), top stack (if any), then time |
| Insights.RecommendationShape | src/lib/analytics/insights.ts:287-298 | there are one to four recommendations, and the time recommendation is always last |
| Insights.FocusIff | src/lib/analytics/insights.ts:255-265 | a focus recommendation appears exactly when the weakest pillar scores below 50 |
| Insights.OnlyHeadFocuses | src/lib/analytics/insights.ts:256-315 | when the list is the optional focus item followed by items of other kinds, a focus item occurs exactly when the optional one is present |
| Insights.SumScoresBounds | src/lib/analytics/insights.ts:335-337 | the score sum lies in [0, 100 * n] and is 0 only when every score is 0 |
| Insights.OverallScore | src/lib/analytics/insights.ts:335-337 | the overall score is the mean of the pillar scores rounded to nearest, in [0, 100] |
| Insights.Strongest | src/lib/analytics/insights.ts:340-341 | the strongest pillar is the first of the top scores, as a stable descending sort puts it first; it is absent exactly when every score is 0 |
| Insights.Weakest | src/lib/analytics/insights.ts:340-344 | the weakest pillar is the last of the lowest scores, as a stable descending sort puts it last, and is reported exactly when that entry has an active habit |
| Insights.BestTime | src/lib/analytics/insights.ts:347-351 | the best time is the slot the reduce picks, ties going to the later slot; it is reported exactly when some share exceeds 40, and holds the largest share |
| Insights.GetUserInsights | src/lib/analytics/insights.ts:321-371 | `getUserInsights` assembles the 30-day scores, overall score, strongest and weakest pillars, best time, streak statistics and recommendations, with no best day of week |
| Insights.NoHabitsInsights | src/lib/analytics/insights.ts:321-371 | a user without active habits gets overall score 0 and no strongest or weakest pillar |
| Insights.NoScoresNoPillars | src/lib/analytics/insights.ts:335-344 | all-zero entries without habits give overall score 0 and neither a strongest nor a weakest pillar |
| Insights.ZeroSum | src/lib/analytics/insights.ts:336 | all-zero scores sum to 0 |
| Insights.MultiplierTier | src/lib/analytics/insights.ts:406-409 | the multiplier is 1.5 exactly below 30, 1.2 exactly from 30 to below 60, and 1.0 exactly from 60 |
| Insights.MultiplierNonIncreasing | src/lib/analytics/insights.ts:404-410 | a weaker pillar never gets a smaller multiplier |
| Insights.AssignTiers | src/lib/analytics/insights.ts:402-412 | the map holds exactly the pillars that have an entry |
| Insights.AssignTiersLast | src/lib/analytics/insights.ts:405-410 | an entry that no later entry for the same pillar overwrites decides that pillar's multiplier |
| Insights.GetXPMultipliers | src/lib/analytics/insights.ts:376-413 | `getXPMultipliers`: a stored custom table is returned as is; otherwise the tiers of the current pillar scores |
| Insights.PillarScoresCover | src/lib/analytics/insights.ts:102-128 | every pillar has an entry holding its own score, with no later entry for it |
| Insights.DynamicMultipliers | src/lib/analytics/insights.ts:400-412 | without a custom table, every pillar gets the tier of its own score |
| UserStore.AddXP | src/stores/userStore.ts:104-129 | `addXP`: without a profile nothing changes; otherwise XP grows by the amount, the level is the curve's level for the new XP, and nothing else changes |
| UserStore.AddXPComposes | src/stores/userStore.ts:104-129 | two additions equal one addition of their sum |
| UserStore.AddXPNeverLowersLevel | src/stores/userStore.ts:104-129 | adding non-negative XP to a consistent profile never lowers its level |
| UserStore.IncrementStreak | src/stores/userStore.ts:131-142 | `incrementStreak` raises the run by one and sets the record to the max of the new run and the old record, touching nothing else |
| UserStore.ResetStreak | src/stores/userStore.ts:144-149 | `resetStreak` zeroes the run and keeps the record and everything else |
| UserStore.StreakReducersKeepRecord | src/stores/userStore.ts:131-149 | both streak reducers keep the record at or above the run |
| UserStore.AddHabit | src/stores/userStore.ts:62-65 | `addHabit` appends the habit and keeps the others in order |
| UserStore.Patch | src/stores/userStore.ts:67-72 | an empty patch leaves a habit as it is |
| UserStore.PatchIdempotent | src/stores/userStore.ts:67-72 | applying the same patch twice equals applying it once |
| UserStore.UpdateHabit | src/stores/userStore.ts:67-72 | `updateHabit` patches exactly the habits with that id and keeps the list's length and order |
| UserStore.UpdateHabitIdempotent | src/stores/userStore.ts:67-72 | repeating an update that keeps the id changes nothing more |
| UserStore.WithoutId | src/stores/userStore.ts:74-77 | the filter keeps exactly the habits with another id |
| UserStore.WithoutIdConcat | src/stores/userStore.ts:74-77 | filtering distributes over concatenation |
| UserStore.WithoutIdAbsent | src/stores/userStore.ts:74-77 | filtering out an absent id changes nothing |
| UserStore.RemoveHabit | src/stores/userStore.ts:74-77 | `removeHabit` keeps exactly the habits with another id |
| UserStore.AddThenRemove | src/stores/userStore.ts:62-77 | adding a habit and then removing its id equals just removing that id |
| UserStore.FindHabit | src/stores/userStore.ts:80 | `find` returns the first habit with the id, and nothing exactly when none has it |
| UserStore.CompleteHabit | src/stores/userStore.ts:79-84 | `completeHabit` adds the first matching habit's reward as XP, or changes nothing when no habit matches |
| UserStore.CompleteHabitAwardsReward | src/stores/userStore.ts:79-84 | completing a listed habit raises the XP by its reward |
| UserStore.UnlockAchievement | src/stores/userStore.ts:95-102 | `unlockAchievement` marks exactly the achievements with that id unlocked at the given time and keeps the rest |
| UserStore.UnlockTwice | src/stores/userStore.ts:95-102 | unlocking twice equals unlocking once at the later time |
| Utils.InsertByDatePermutes | src/lib/utils.ts:21-23 | inserting by date adds exactly the new entry |
| Utils.InsertByDateSorted | src/lib/utils.ts:21-23 | inserting by date keeps dates descending |
| Utils.InsertByDateStable | src/lib/utils.ts:21-23 | inserting puts the new entry in front of the entries of its own date and leaves the other dates' entries as they were |
| Utils.InsertByDateStableAll | src/lib/utils.ts:21-23 | the same, for every date at once |
| Utils.SortByDateDesc | src/lib/utils.ts:21-23 | the sort returns a permutation of the entries, newest first, keeping the entries of each date in input order as the stable `Array.prototype.sort` does |
| Utils.RunFrom | src/lib/utils.ts:29-41 | the run from an index is the longest stretch where entry i is the completed entry of `today - i` |
| Utils.NoGraceStreak | src/lib/utils.ts:18-44 | the no-grace streak never exceeds the number of entries |
| Utils.CalculateStreak | src/lib/utils.ts:18-44 | the loop computes the no-grace streak of the sorted entries, and 0 for an empty list |
| Utils.NoEntryTodayGivesZero | src/lib/utils.ts:29-41 | without a completed entry dated today the streak is 0 |
| Utils.NoGraceDaysCompleted | src/lib/utils.ts:29-41 | every day the no-grace streak counts has a completed entry |
| Utils.CountBackAtLeast | src/lib/streak/index.ts:37-51 | a run of n present days ending at a day makes the engine count at least n, up to its budget |
| Utils.CompletedDays | src/lib/utils.ts:18-44 | a day is a completed day exactly when a completed entry carries it |
| Utils.NoGraceAtMostEngine | src/lib/utils.ts:18-44 | the server engine never counts fewer days than the no-grace count, up to its 365-day scan |
| Utils.GraceDayDiffers | src/lib/utils.ts:18-44 | with only yesterday completed, the no-grace count is 0 while the engine counts 1 |
| Utils.CountStopsAt | src/lib/utils.ts:36-40 | an incomplete entry, or a second entry on the same date, ends the count at that position |
| Utils.EqualDatesKeepInputOrder | src/lib/utils.ts:21-40 | an incomplete entry listed before a completed entry of the same day stays first and gives 0; in the other order the count is 1 |
| Utils.XPForLevel | src/lib/utils.ts:46-49 | the helpers' `getXPForLevel` in closed form equals the gamification library's curve at every level |
| Utils.GetLevelFromXP | src/lib/utils.ts:51-67 | the helpers' own `while (true)` loop returns the same level, currentXP and nextLevelXP as the gamification library's `getLevelFromXP` for every XP; currentXP is within the level's band |
| Utils.GetGreeting | src/lib/utils.ts:78-83 | morning before 12, afternoon from 12 to before 17, evening from 17 |
| Avatar.FirstContaining | src/components/UserAvatar.tsx:15-21 | the loop returns a band from position `i` on that contains the level, or none exactly when no such band exists; that it is the first such band is `Avatar.FirstContainingIsFirst` |
| Avatar.FirstContainingIsFirst | src/components/UserAvatar.tsx:15-21 | the returned band sits at some position from `i` with no containing band before it, so the loop stops at the first match |
| Avatar.GetAvatarTier | src/components/UserAvatar.tsx:15-22 | tier 1 (Novice) up to level 5, including the fallback below 1; 2 (Apprentice) for 6-15; 3 (Warrior) for 16-30; 4 (Legend) from 31 |
| Avatar.TierMonotone | src/components/UserAvatar.tsx:8-22 | a higher level never has a lower tier |
| Avatar.ShownLevel | src/components/UserAvatar.tsx:62 | a level of 0 is shown as 1, and any other level as itself |
| Avatar.GenderPrefix | src/components/UserAvatar.tsx:25 | the prefix is `m` exactly for a missing, empty or male gender, and `f` otherwise |
| Avatar.GetAvatarPath | src/components/UserAvatar.tsx:24-27 | the path starts with `/avatars/`, then the prefix, and ends with `.png` |
| Avatar.PathRoundTrip | src/components/UserAvatar.tsx:24-27 | reading the tier back from a path gives the tier it was built from |
| Avatar.PathsDistinct | src/components/UserAvatar.tsx:24-27 | different prefixes or tiers give different paths |
| Avatar.ProfileAvatarPath | src/components/UserAvatar.tsx:60-64 | the profile's image path encodes its tier (1 to 4) and its gender prefix |
| Avatar.FindTier | src/components/UserAvatar.tsx:67-68 | `find` returns a band of the tier from position `i` on, or none exactly when there is none; that it is the first such band is `Avatar.FindTierIsFirst` |
| Avatar.FindTierIsFirst | src/components/UserAvatar.tsx:67-68 | the returned band sits at some position from `i` with no band of that tier before it, as `find` returns the first match |
| Avatar.GetTierProgress | src/components/UserAvatar.tsx:67-78 | the top tier shows 100% with no levels to go |
| Avatar.ProgressWithinTier | src/components/UserAvatar.tsx:67-78 | for levels 1-30 progress is in [0, 100) and at least one level remains; climbing exactly that many levels reaches the next tier, and one fewer does not |
| Avatar.BelowFirstLevel | src/components/UserAvatar.tsx:15-22 | level -1 falls back to tier 1, with progress -40% and 7 levels to go |
| Chat.Status | src/app/api/chat/route.ts:12-51 | 200 exactly for a reply, and 429 exactly for the limit |
| Chat.TodayCount | src/app/api/chat/route.ts:34-38 | today's count never exceeds the log, and is 0 exactly when no user message carries today's date |
| Chat.TodayCountIsCardinality | src/app/api/chat/route.ts:34-38 | today's count equals the number of the user's messages dated today in the log |
| Chat.Stamp | src/app/api/chat/route.ts:71-74 | stamping keeps each message's role and content, keeps a non-empty timestamp and fills a missing or empty one with now |
| Chat.StampIdempotent | src/app/api/chat/route.ts:71-74 | stamping an already stamped log changes nothing |
| Chat.Post | src/app/api/chat/route.ts:7-102 | no user gives 401; refused with 429 exactly when a free-tier user's count today plus this message exceeds 10; failed generation changes nothing; a reply saves the stamped log plus the assistant's message under the stored id, or under a new id when there is none |
| Chat.PremiumUnlimited | src/app/api/chat/route.ts:32 | a premium user is never refused |
| Chat.EleventhMessageRefused | src/app/api/chat/route.ts:41-43 | with ten messages today the next is refused, and with nine it is accepted |
| Chat.SavedLogReplacesOld | src/app/api/chat/route.ts:83-99 | the saved log is the sent log plus one reply, and its count for today is that of the stamped sent log |

## Left out

- Supabase reads and writes, authentication and session handling are not
  modelled as I/O. Query results are function inputs, and the rows written
  are function outputs.
- Time zones are not modelled. The engines mix local midnight with UTC
  date keys; the model uses one day numbering throughout.
- The clock, `new Date()`, is a parameter (`today`, `now`).
- The exception catch-all responses (500 with the error message) are not
  modelled. Query errors other than the completion insert are not
  modelled either.
- Concurrency is not modelled. The completion endpoint reads and then
  writes the profile in separate round trips, so concurrent requests can
  lose an XP update.
- The language-model call and the coach context built from the profile
  and habits are left out. The reply is a parameter, `None` when
  generation fails.
- Floating point is not modelled. Ratios are exact rationals: the daily
  completion rate is a numerator and denominator, and rounded percentages
  use `Common.RoundDiv`.
- The `progress` field of `getLevelFromXP` is left out. It is the float
  `currentXP / nextLevelXP * 100`, and `Leveling.LevelInfo` keeps both of
  its operands.
- Recommendation titles and descriptions are left out. They are display
  text, and `capitalize` exists only to build them.
- `getCorrelations` and `getHabitStacks` are left out as database queries.
  Their ordered results are inputs to `Insights.GenerateRecommendations`.
- The `/api/insights` and `/api/streak/recalculate` route dispatchers are
  left out. They only call the modelled functions and return their
  results.
- `formatNumber`, `formatDate` and `cn` are left out as presentation
  helpers.
- React components, JSX rendering and the chat page are left out.
- The store's setters (`setProfile`, `updateProfile`, `setHabits`,
  `setGoals`, `addGoal`, `setAchievements`, `setDailyStats`, `setLoading`,
  `setError`, `reset`) are left out as plain field assignments. Its
  persistence to local storage is left out too.
- Insights.ScoreOf: the 0.8 weighting is applied to the exact ratio
  (`(80 * actual + 20 * expected) / expected`, rounded), while the source
  multiplies a rounded-to-double rate by 0.8. The two can differ only when
  floating-point error moves a value across a rounding boundary.
- Insights.OverallScore: with no pillar scores the source divides by zero
  and yields `NaN`. The model returns 0 there; the engine always passes
  all eight pillars, so the case does not arise.
- Avatar.GetTierProgress: its own contract states only the top-tier case.
  The other tiers are stated by `Avatar.ProgressWithinTier` and
  `Avatar.BelowFirstLevel`.

=== FILE: avatar.dfy ===
/** Avatar tiers: the band of levels each avatar image covers, the image
    path, and how far a level has progressed towards the next tier. */
module Avatar {
  import opened Common

  /** A band of levels; a missing upper bound stands for `Infinity`. */
  datatype Band = Band(minLevel: int, maxLevel: Option<int>, tier: nat, title: string)

  const AvatarTiers: seq<Band> := [
    Band(1, Some(5), 1, "Novice"),
    Band(6, Some(15), 2, "Apprentice"),
    Band(16, Some(30), 3, "Warrior"),
    Band(31, None, 4, "Legend")
  ]

  predicate Contains(b: Band, level: int)
  {
    level >= b.minLevel && (b.maxLevel.None? || level <= b.maxLevel.value)
  }

  /** The tier and title shown for a level. */
  datatype AvatarTier = AvatarTier(tier: nat, title: string)

  /** The first band of `bands`, from index `i` on, that contains `level`. */
  function FirstContaining(bands: seq<Band>, level: int, i: nat): (r: Option<Band>)
    requires i <= |bands|
    ensures r.None? <==> forall j :: i <= j < |bands| ==> !Contains(bands[j], level)
    ensures r.Some? ==> r.value in bands[i..] && Contains(r.value, level)
    decreases |bands| - i
  {
    if i == |bands| then None
    else if Contains(bands[i], level) then Some(bands[i])
    else FirstContaining(bands, level, i + 1)
  }

  /** The band found is the first one from `i` on that contains the level:
      every band before it misses the level. */
  lemma {:induction false} FirstContainingIsFirst(bands: seq<Band>, level: int, i: nat)
    requires i <= |bands|
    ensures var r := FirstContaining(bands, level, i);
      r.Some? ==> exists j :: (i <= j < |bands| && bands[j] == r.value && Contains(bands[j], level) &&
        forall k :: i <= k < j ==> !Contains(bands[k], level))
    decreases |bands| - i
  {
    if i < |bands| && !Contains(bands[i], level) {
      FirstContainingIsFirst(bands, level, i + 1);
    }
  }

  /** `getAvatarTier`: the first band containing the level, or Novice when
      none does. */
  function GetAvatarTier(level: int): (t: AvatarTier)
    ensures t.tier == 1 <==> level <= 5
    ensures t.tier == 2 <==> 6 <= level <= 15
    ensures t.tier == 3 <==> 16 <= level <= 30
    ensures t.tier == 4 <==> 31 <= level
    ensures t.title == (if t.tier == 1 then "Novice" else if t.tier == 2 then "Apprentice"
      else if t.tier == 3 then "Warrior" else "Legend")
  {
    match FirstContaining(AvatarTiers, level, 0)
    case None => AvatarTier(1, "Novice")
    case Some(b) => AvatarTier(b.tier, b.title)
  }

  /** Tiers never go down as the level rises. */
  lemma TierMonotone(l1: int, l2: int)
    requires l1 <= l2
    ensures GetAvatarTier(l1).tier <= GetAvatarTier(l2).tier
  {
  }

  /** The level the avatar is drawn for: `profile.level || 1`. */
  function ShownLevel(level: int): (l: int)
    ensures l != 0 && (level != 0 ==> l == level)
  {
    if level == 0 then 1 else level
  }

  /** `gender === "male" ? "m" : "f"`, with a missing or empty gender read
      as male. */
  function GenderPrefix(gender: Option<string>): (c: char)
    ensures c == 'm' <==> gender.None? || gender == Some("") || gender == Some("male")
    ensures c == 'm' || c == 'f'
  {
    if gender.None? || gender.value == "" || gender.value == "male" then 'm' else 'f'
  }

  const PathStart: string := "/avatars/"
  const PathEnd: string := ".png"

  /** `getAvatarPath`: `/avatars/` + prefix + tier + `.png`. */
  function GetAvatarPath(prefix: char, tier: nat): (path: string)
    ensures |path| > |PathStart| + 1 + |PathEnd|
    ensures path[..|PathStart|] == PathStart && path[|PathStart|] == prefix
    ensures path[|path| - |PathEnd|..] == PathEnd
  {
    PathStart + [prefix] + NatToString(tier) + PathEnd
  }

  /** The tier written into a path. */
  function PathTier(path: string): Option<nat>
  {
    if |path| > |PathStart| + 1 + |PathEnd| && IsDigits(path[|PathStart| + 1..|path| - |PathEnd|]) then
      Some(ParseDigits(path[|PathStart| + 1..|path| - |PathEnd|]))
    else None
  }

  /** Reading the tier back from a path gives the tier it was built from. */
  lemma PathRoundTrip(prefix: char, tier: nat)
    ensures PathTier(GetAvatarPath(prefix, tier)) == Some(tier)
  {
    var path := GetAvatarPath(prefix, tier);
    assert path[|PathStart| + 1..|path| - |PathEnd|] == NatToString(tier);
    ParseNatToString(tier);
  }

  /** Distinct tiers or prefixes give distinct paths. */
  lemma PathsDistinct(p1: char, t1: nat, p2: char, t2: nat)
    requires p1 != p2 || t1 != t2
    ensures GetAvatarPath(p1, t1) != GetAvatarPath(p2, t2)
  {
    if GetAvatarPath(p1, t1) == GetAvatarPath(p2, t2) {
      PathRoundTrip(p1, t1);
      PathRoundTrip(p2, t2);
    }
  }

  /** The image shown for a profile: its level (0 read as 1) picks the
      tier, its gender the prefix; the tier read back from the path is that
      tier, always between 1 and 4. */
  function ProfileAvatarPath(level: int, gender: Option<string>): (path: string)
    ensures PathTier(path) == Some(GetAvatarTier(ShownLevel(level)).tier)
    ensures 1 <= GetAvatarTier(ShownLevel(level)).tier <= 4
    ensures path[|PathStart|] == 'm' <==> gender.None? || gender == Some("") || gender == Some("male")
  {
    var tier := GetAvatarTier(ShownLevel(level)).tier;
    PathRoundTrip(GenderPrefix(gender), tier);
    GetAvatarPath(GenderPrefix(gender), tier)
  }

  /** The first band whose tier is `tier` (`AVATAR_TIERS.find`). */
  function FindTier(bands: seq<Band>, tier: int, i: nat): (r: Option<Band>)
    requires i <= |bands|
    ensures r.None? <==> forall j :: i <= j < |bands| ==> bands[j].tier != tier
    ensures r.Some? ==> r.value in bands[i..] && r.value.tier == tier
    decreases |bands| - i
  {
    if i == |bands| then None
    else if bands[i].tier == tier then Some(bands[i])
    else FindTier(bands, tier, i + 1)
  }

  /** The band found is the first one from `i` on with the tier: every band
      before it has another tier. */
  lemma {:induction false} FindTierIsFirst(bands: seq<Band>, tier: int, i: nat)
    requires i <= |bands|
    ensures var r := FindTier(bands, tier, i);
      r.Some? ==> exists j :: (i <= j < |bands| && bands[j] == r.value && bands[j].tier == tier &&
        forall k :: i <= k < j ==> bands[k].tier != tier)
    decreases |bands| - i
  {
    if i < |bands| && bands[i].tier != tier {
      FindTierIsFirst(bands, tier, i + 1);
    }
  }

  /** Progress towards the next tier in percent, and the levels still to go. */
  datatype TierProgress = TierProgress(percent: int, levelsToNext: int)

  /** The progress arithmetic: with both this tier's band and the next one,
      the share of the band already climbed, rounded, and the levels left
      in the band; otherwise 100% and none left. */
  function GetTierProgress(level: int): (p: TierProgress)
    ensures GetAvatarTier(level).tier == 4 ==> p == TierProgress(100, 0)
  {
    var tier := GetAvatarTier(level).tier;
    var current := FindTier(AvatarTiers, tier, 0);
    var next := FindTier(AvatarTiers, tier + 1, 0);
    if next.Some? && current.Some? && current.value.maxLevel.Some? then
      var b := current.value;
      var size := b.maxLevel.value - b.minLevel + 1;
      if size > 0 then TierProgress(RoundDiv(100 * (level - b.minLevel), size), b.maxLevel.value - level + 1)
      else TierProgress(100, 0)
    else TierProgress(100, 0)
  }

  /** Inside tiers 1 to 3 the progress lies in [0, 100), at least one level
      remains, and climbing exactly that many levels reaches the next tier. */
  predicate ProgressesWithinTier(level: int)
  {
    var p := GetTierProgress(level);
    0 <= p.percent < 100 && p.levelsToNext >= 1 &&
    GetAvatarTier(level + p.levelsToNext).tier == GetAvatarTier(level).tier + 1 &&
    GetAvatarTier(level + p.levelsToNext - 1).tier == GetAvatarTier(level).tier
  }

  lemma ProgressWithinTier(level: int)
    requires 1 <= level <= 30
    ensures ProgressesWithinTier(level)
  {
    if level <= 5 {
      NoviceProgress(level);
    } else if level <= 15 {
      ApprenticeProgress(level);
    } else {
      WarriorProgress(level);
    }
  }

  lemma NoviceProgress(level: int)
    requires 1 <= level <= 5
    ensures ProgressesWithinTier(level)
  {
    assert GetAvatarTier(level).tier == 1;
    assert FindTier(AvatarTiers, 1, 0) == Some(AvatarTiers[0]);
    RoundDivWithin(100 * (level - 1), 5, 0, 99);
    assert GetTierProgress(level).levelsToNext == 6 - level;
    assert GetAvatarTier(6).tier == 2 && GetAvatarTier(5).tier == 1;
  }

  lemma ApprenticeProgress(level: int)
    requires 6 <= level <= 15
    ensures ProgressesWithinTier(level)
  {
    assert GetAvatarTier(level).tier == 2;
    assert FindTier(AvatarTiers, 2, 0) == Some(AvatarTiers[1]);
    RoundDivWithin(100 * (level - 6), 10, 0, 99);
    assert GetTierProgress(level).levelsToNext == 16 - level;
    assert GetAvatarTier(16).tier == 3 && GetAvatarTier(15).tier == 2;
  }

  lemma WarriorProgress(level: int)
    requires 16 <= level <= 30
    ensures ProgressesWithinTier(level)
  {
    assert GetAvatarTier(level).tier == 3;
    assert FindTier(AvatarTiers, 3, 0) == Some(AvatarTiers[2]);
    RoundDivWithin(100 * (level - 16), 15, 0, 99);
    assert GetTierProgress(level).levelsToNext == 31 - level;
    assert GetAvatarTier(31).tier == 4 && GetAvatarTier(30).tier == 3;
  }

  /** The fallback band for levels below 1 still reports progress against
      the Novice band, which is then negative. */
  lemma BelowFirstLevel()
    ensures GetAvatarTier(-1).tier == 1
    ensures GetTierProgress(-1) == TierProgress(-40, 7)
  {
    assert FindTier(AvatarTiers, 1, 0) == Some(AvatarTiers[0]);
  }
}

=== FILE: chat.dfy ===
/** The coach chat endpoint, reduced to its free-tier daily message limit
    and the conversation log it saves. The signed-in user, the clock (as a
    date key and a full timestamp), the stored profile tier and conversation
    and the reply of the language model are parameters. */
module Chat {
  import opened Common

  /** Messages a free-tier user may send per day. */
  const FreeTierDailyLimit: nat := 10

  datatype Role = User | Assistant | System

  /** A chat message; the timestamp is an ISO string and may be missing. */
  datatype Message = Message(role: Role, content: string, timestamp: Option<string>)

  /** The stored conversation of a user: its row id and its message log. */
  datatype Conversation = Conversation(id: string, messages: seq<Message>)

  datatype Response =
    | Unauthorized
    | LimitReached
    | GenerationFailed
    | Reply(message: string)

  function Status(r: Response): (code: int)
    ensures code == 200 <==> r.Reply?
    ensures code == 429 <==> r.LimitReached?
  {
    match r
    case Unauthorized => 401
    case LimitReached => 429
    case GenerationFailed => 500
    case Reply(_) => 200
  }

  /** `profile?.tier === "free" || !profile?.tier`: a missing profile, a
      missing or empty tier, or the free tier. */
  predicate RateLimited(tier: Option<string>)
  {
    tier.None? || tier.value == "" || tier.value == "free"
  }

  predicate StartsWith(s: string, prefix: string)
  {
    |prefix| <= |s| && s[..|prefix|] == prefix
  }

  /** The message is the user's and its timestamp carries today's date key. */
  predicate SentToday(m: Message, today: string)
  {
    m.role == User && m.timestamp.Some? && StartsWith(m.timestamp.value, today)
  }

  /** The user's messages of today in a log. */
  function TodayCount(ms: seq<Message>, today: string): (n: nat)
    ensures n <= |ms|
    ensures n == 0 <==> forall i :: 0 <= i < |ms| ==> !SentToday(ms[i], today)
  {
    if |ms| == 0 then 0
    else TodayCount(ms[..|ms| - 1], today) + (if SentToday(ms[|ms| - 1], today) then 1 else 0)
  }

  /** The positions of the user's messages of today in a log. */
  function SentTodayPositions(ms: seq<Message>, today: string): set<nat>
  {
    set i: nat | i < |ms| && SentToday(ms[i], today)
  }

  /** Removing the last message removes at most its own position. */
  lemma SentTodayPositionsSnoc(ms: seq<Message>, today: string)
    requires |ms| > 0
    ensures var last := |ms| - 1;
      var before := SentTodayPositions(ms[..last], today);
      last !in before &&
      SentTodayPositions(ms, today) == before + (if SentToday(ms[last], today) then {last} else {})
  {
    var last := |ms| - 1;
    var init := ms[..last];
    var before := SentTodayPositions(init, today);
    var added: set<nat> := if SentToday(ms[last], today) then {last} else {};
    forall i | i in SentTodayPositions(ms, today)
      ensures i in before + added
    {
      if i < last { assert init[i] == ms[i]; }
    }
    forall i | i in before + added
      ensures i in SentTodayPositions(ms, today)
    {
      if i < last { assert init[i] == ms[i]; }
    }
  }

  /** Today's count is exactly the number of the user's messages that carry
      today's date key. */
  lemma {:induction false} TodayCountIsCardinality(ms: seq<Message>, today: string)
    ensures TodayCount(ms, today) == |SentTodayPositions(ms, today)|
  {
    if |ms| > 0 {
      TodayCountIsCardinality(ms[..|ms| - 1], today);
      SentTodayPositionsSnoc(ms, today);
    }
  }

  /** Unfolds the count over an appended message. */
  lemma TodayCountAppend(ms: seq<Message>, m: Message, today: string)
    ensures TodayCount(ms + [m], today) == TodayCount(ms, today) + (if SentToday(m, today) then 1 else 0)
  {
    assert (ms + [m])[..|ms|] == ms;
  }

  /** The request is refused when the prior count plus this message exceeds
      the limit. */
  predicate OverLimit(tier: Option<string>, existing: Option<Conversation>, today: string)
  {
    var prior := if existing.Some? then existing.value.messages else [];
    RateLimited(tier) && TodayCount(prior, today) + 1 > FreeTierDailyLimit
  }

  /** Give every message without a (non-empty) timestamp the time `now`. */
  function Stamp(ms: seq<Message>, now: string): (r: seq<Message>)
    ensures |r| == |ms|
    ensures forall i :: 0 <= i < |ms| ==> r[i].role == ms[i].role && r[i].content == ms[i].content
    ensures forall i :: 0 <= i < |ms| ==>
      r[i].timestamp == (if ms[i].timestamp.Some? && ms[i].timestamp.value != "" then ms[i].timestamp else Some(now))
  {
    seq(|ms|, i requires 0 <= i < |ms| =>
      ms[i].(timestamp := if ms[i].timestamp.Some? && ms[i].timestamp.value != "" then ms[i].timestamp else Some(now)))
  }

  /** Stamping keeps existing timestamps, so stamping again changes nothing
      when `now` itself is not empty. */
  lemma StampIdempotent(ms: seq<Message>, now: string, later: string)
    requires now != ""
    ensures Stamp(Stamp(ms, now), later) == Stamp(ms, now)
  {
    var once := Stamp(ms, now);
    assert forall i :: 0 <= i < |ms| ==> once[i].timestamp.Some? && once[i].timestamp.value != "";
    var twice := Stamp(once, later);
    assert forall i :: 0 <= i < |ms| ==> twice[i] == once[i];
  }

  /** `POST /api/chat`: the response and the stored conversation afterwards.
      `reply` is the model's answer, `None` when generation fails; `newId`
      names the row inserted when there is no stored conversation with a
      (non-empty) id. */
  function Post(user: Option<string>, messages: seq<Message>, tier: Option<string>,
    existing: Option<Conversation>, today: string, now: string, reply: Option<string>, newId: string)
    : (result: (Response, Option<Conversation>))
    ensures user.None? ==> result.0 == Unauthorized
    ensures user.Some? ==> (result.0 == LimitReached <==> OverLimit(tier, existing, today))
    ensures !result.0.Reply? ==> result.1 == existing
    ensures result.0.Reply? <==> (user.Some? && !OverLimit(tier, existing, today) && reply.Some?)
    ensures result.0.Reply? ==> (result.0.message == reply.value && result.1.Some? &&
      result.1.value.id == (if existing.Some? && existing.value.id != "" then existing.value.id else newId) &&
      result.1.value.messages == Stamp(messages, now) + [Message(Assistant, reply.value, Some(now))])
  {
    if user.None? then (Unauthorized, existing)
    else if OverLimit(tier, existing, today) then (LimitReached, existing)
    else match reply
      case None => (GenerationFailed, existing)
      case Some(text) =>
        var log := Stamp(messages, now) + [Message(Assistant, text, Some(now))];
        var id := if existing.Some? && existing.value.id != "" then existing.value.id else newId;
        (Reply(text), Some(Conversation(id, log)))
  }

  /** Premium users are never refused, whatever they sent today. */
  lemma PremiumUnlimited(messages: seq<Message>, existing: Option<Conversation>,
    today: string, now: string, reply: string, user: string, newId: string)
    ensures Post(Some(user), messages, Some("premium"), existing, today, now, Some(reply), newId).0 == Reply(reply)
  {
  }

  /** With ten of the user's messages already logged today the next one is
      refused; with nine it goes through. */
  lemma EleventhMessageRefused(log: seq<Message>, tier: Option<string>, today: string)
    requires RateLimited(tier)
    ensures TodayCount(log, today) == 10 ==> OverLimit(tier, Some(Conversation("c", log)), today)
    ensures TodayCount(log, today) == 9 ==> !OverLimit(tier, Some(Conversation("c", log)), today)
  {
  }

  /** The saved log is the incoming conversation, stamped, plus the reply:
      an old log that the client did not send back is gone, and the next
      request counts today's messages from the stamped ones. */
  lemma SavedLogReplacesOld(user: string, messages: seq<Message>, tier: Option<string>,
    existing: Option<Conversation>, today: string, now: string, reply: string, newId: string)
    requires Post(Some(user), messages, tier, existing, today, now, Some(reply), newId).0.Reply?
    ensures var saved := Post(Some(user), messages, tier, existing, today, now, Some(reply), newId).1.value;
      |saved.messages| == |messages| + 1 &&
      TodayCount(saved.messages, today) == TodayCount(Stamp(messages, now), today)
  {
    TodayCountAppend(Stamp(messages, now), Message(Assistant, reply, Some(now)), today);
  }
}

=== FILE: common.dfy ===
/** Small shared vocabulary: optional values, integer powers and the exact
    integer form of JavaScript's `Math.round` applied to a quotient. */
module Common {

  /** A value that may be missing (`null` / `undefined` in the source). */
  datatype Option<+T> = None | Some(value: T)

  function Max(a: int, b: int): int { if a >= b then a else b }

  function Min(a: int, b: int): int { if a <= b then a else b }

  /** base^n on naturals. */
  function Pow(base: nat, n: nat): nat
  {
    if n == 0 then 1 else base * Pow(base, n - 1)
  }

  /** `Math.round(a / b)` for an exact quotient with b > 0: the integer nearest
      to a / b, halves rounded up (towards +infinity, as JavaScript does). */
  function RoundDiv(a: int, b: int): (r: int)
    requires b > 0
    ensures b * (2 * r - 1) <= 2 * a < b * (2 * r + 1)
  {
    (2 * a + b) / (2 * b)
  }

  /** If k * y <= x then the floor of x / y is at least k. */
  lemma DivAtLeast(x: int, y: int, k: int)
    requires y > 0 && k * y <= x
    ensures k <= x / y
  {
    var q := x / y;
    assert x == q * y + x % y;
    if q < k {
      assert q + 1 <= k;
      MulMonotone(q + 1, k, y);
      assert false;
    }
  }

  /** The floor of x / y times y never exceeds x. */
  lemma DivTimes(x: int, y: int)
    requires y > 0
    ensures (x / y) * y <= x
  {
    assert x == (x / y) * y + x % y;
  }

  /** A quotient and remainder pair determines the floor division. */
  lemma DivUnique(x: int, y: int, q: int, r: int)
    requires y > 0 && 0 <= r < y && q * y + r == x
    ensures x / y == q
  {
    var q' := x / y;
    assert x == q' * y + x % y;
    if q' < q {
      MulMonotone(q' + 1, q, y);
      assert false;
    }
    if q < q' {
      MulMonotone(q + 1, q', y);
      assert false;
    }
  }

  lemma MulDistrib(a: int, b: int, c: int)
    ensures (a + b) * c == a * c + b * c
  {
  }

  lemma MulAssoc(a: int, b: int, c: int)
    ensures (a * b) * c == a * (b * c)
  {
  }

  lemma MulMonotone(a: int, b: int, c: int)
    requires a <= b && c >= 0
    ensures a * c <= b * c
  {
  }

  /** Rounding a quotient respects integer bounds on the quotient. */
  lemma RoundDivWithin(a: int, b: int, lo: int, hi: int)
    requires b > 0
    requires lo * b <= a <= hi * b
    ensures lo <= RoundDiv(a, b) <= hi
  {
    var r := RoundDiv(a, b);
    if r > hi {
      MulMonotone(2 * hi + 1, 2 * r - 1, b);
      assert false;
    }
    if r < lo {
      MulMonotone(2 * r + 1, 2 * lo - 1, b);
      assert false;
    }
  }

  /** A lower bound on a quotient carries over to its rounding. */
  lemma RoundDivAtLeast(a: int, b: int, lo: int)
    requires b > 0 && lo * b <= a
    ensures lo <= RoundDiv(a, b)
  {
    var r := RoundDiv(a, b);
    if r < lo {
      MulMonotone(2 * r + 1, 2 * lo - 1, b);
      assert false;
    }
  }

  /** A rounded quotient reaches `k` exactly when `a / b` is at least
      `k - 1/2`. */
  lemma RoundDivAtLeastIff(a: int, b: int, k: int)
    requires b > 0
    ensures RoundDiv(a, b) >= k <==> 2 * a >= (2 * k - 1) * b
  {
    var r := RoundDiv(a, b);
    if r >= k {
      MulMonotone(2 * k - 1, 2 * r - 1, b);
    } else {
      MulMonotone(2 * r + 1, 2 * k - 1, b);
    }
  }

  /** A positive factor can be cancelled from both sides of <=. */
  lemma MulCancelLe(b: int, x: int, y: int)
    requires b > 0 && b * x <= b * y
    ensures x <= y
  {
    if x > y {
      MulMonotone(y + 1, x, b);
      assert false;
    }
  }

  /** A positive factor can be cancelled from both sides of <. */
  lemma MulCancelLt(b: int, x: int, y: int)
    requires b > 0 && b * x < b * y
    ensures x < y
  {
    if x >= y {
      MulMonotone(y, x, b);
      assert false;
    }
  }

  lemma MulSum3(b: int, u: int, v: int, w: int)
    ensures b * u + b * v + b * w == b * (u + v + w)
  {
  }

  /** Rounding a quotient is monotone in the numerator. */
  lemma RoundDivMonotone(a1: int, a2: int, b: int)
    requires b > 0 && a1 <= a2
    ensures RoundDiv(a1, b) <= RoundDiv(a2, b)
  {
    var r1, r2 := RoundDiv(a1, b), RoundDiv(a2, b);
    if r1 > r2 {
      MulMonotone(2 * r2 + 1, 2 * r1 - 1, b);
      assert false;
    }
  }

  /** The decimal digit character for d < 10. */
  function DigitChar(d: nat): (c: char)
    requires d < 10
    ensures '0' <= c <= '9' && c as int - '0' as int == d
  {
    (d + '0' as int) as char
  }

  predicate IsDigits(s: string)
  {
    forall i :: 0 <= i < |s| ==> '0' <= s[i] <= '9'
  }

  /** Decimal rendering of a natural number, without leading zeros. */
  function NatToString(n: nat): (s: string)
    ensures |s| >= 1 && IsDigits(s)
    ensures |s| > 1 ==> s[0] != '0'
    decreases n
  {
    if n < 10 then [DigitChar(n)] else NatToString(n / 10) + [DigitChar(n % 10)]
  }

  /** Decimal rendering of an integer, as JavaScript's template strings do. */
  function IntToString(i: int): (s: string)
    ensures |s| >= 1
  {
    if i < 0 then "-" + NatToString(-i) else NatToString(i)
  }

  /** The value of a string of decimal digits. */
  function ParseDigits(s: string): nat
    requires IsDigits(s)
  {
    if |s| == 0 then 0
    else 10 * ParseDigits(s[..|s| - 1]) + (s[|s| - 1] as int - '0' as int)
  }

  /** Parsing undoes rendering. */
  lemma {:induction false} ParseNatToString(n: nat)
    ensures ParseDigits(NatToString(n)) == n
    decreases n
  {
    if n >= 10 {
      ParseNatToString(n / 10);
      var s := NatToString(n);
      assert s[..|s| - 1] == NatToString(n / 10);
    }
  }
}

=== FILE: domain.dfy ===
/** The shared entities of the application: wellness pillars, points in time
    reduced to a day number and a second of that day, and the client-side
    habit record with its completions. */
module Domain {
  import opened Common

  /** The eight wellness dimensions (`WellnessPillar`). */
  datatype Pillar =
    | Physical | Mental | Fiscal | Social
    | Spiritual | Intellectual | Occupational | Environmental

  /** Every pillar, in the order the insights engine reports them. */
  const AllPillars: seq<Pillar> :=
    [Physical, Mental, Fiscal, Social, Spiritual, Intellectual, Occupational, Environmental]

  /** The three pillars of the original data model (`Pillar` of the
      database types), the only ones the "balanced" achievement consults. */
  const OriginalPillars: seq<Pillar> := [Physical, Mental, Fiscal]

  lemma AllPillarsListsEachOnce(p: Pillar)
    ensures p in AllPillars
    ensures forall i, j :: 0 <= i < j < |AllPillars| ==> AllPillars[i] != AllPillars[j]
  {
  }

  /** Calendar days are consecutive integers; a timestamp is a day and the
      second of that day (0 .. 86399). The date key `YYYY-MM-DD` of a
      timestamp is its day. */
  type Day = int

  const SecondsPerDay: nat := 86400

  datatype Instant = Instant(day: Day, second: nat)

  /** The hour of the day an instant falls in (`getHours`). */
  function Hour(t: Instant): int
  {
    t.second / 3600
  }

  /** A timestamp query window `[D T00:00:00, D T23:59:59)`: the half-open
      upper bound leaves the final second of the day out. */
  predicate InDayWindow(t: Instant, d: Day)
  {
    t.day == d && t.second < SecondsPerDay - 1
  }

  /** One recorded completion of a habit (`HabitCompletion`). The rule
      engine reads the row field `completed_at` through optional chaining,
      so a completion may carry no timestamp. */
  datatype Completion = Completion(id: string, habitId: string, completedAt: Option<Instant>)

  /** A habit as the client sees it (`Habit`), with its completions attached. */
  datatype Habit = Habit(
    id: string,
    pillar: Pillar,
    name: string,
    xpReward: int,
    completions: seq<Completion>,
    archived: bool)

  /** The date key of a completion, when it has a timestamp. */
  function CompletionDay(c: Completion): Option<Day>
  {
    if c.completedAt.Some? then Some(c.completedAt.value.day) else None
  }

  /** True when some completion of the habit carries the given date key. */
  predicate CompletedOn(h: Habit, d: Day)
  {
    exists i :: 0 <= i < |h.completions| && CompletionDay(h.completions[i]) == Some(d)
  }
}

=== FILE: gamification.dfy ===
/** The client-side gamification rules: XP values, the achievement catalogue,
    per-pillar completion totals, the older streak count over habits, the
    daily statistics and the motivational message. The leveling curve they
    share lives in `Leveling`. */
module Gamification {
  import opened Common
  import opened Domain
  import Streak

  /** `XP_VALUES`. */
  const HabitCompleteXP: nat := 10
  const ReadingCompleteXP: nat := 20
  const StreakBonus7XP: nat := 50
  const StreakBonus30XP: nat := 200
  const DailyLoginXP: nat := 5
  const AchievementUnlockXP: nat := 25
  const JournalEntryXP: nat := 15

  /** The achievement keys `checkAchievements` can emit. */
  datatype AchievementKey =
    | Streak3 | Streak7 | Streak30 | Streak100
    | Level5 | Level10 | Level25
    | PhysicalFirst | Physical10 | Physical50
    | MentalFirst | Mental10 | Mental50
    | FiscalFirst | Fiscal10 | Fiscal50
    | ReaderFirst | Reader5
    | Balanced

  /** The keys in the order the checks run. */
  const Catalogue: seq<AchievementKey> := [
    Streak3, Streak7, Streak30, Streak100,
    Level5, Level10, Level25,
    PhysicalFirst, Physical10, Physical50,
    MentalFirst, Mental10, Mental50,
    FiscalFirst, Fiscal10, Fiscal50,
    ReaderFirst, Reader5,
    Balanced
  ]

  /** The position of a key in the catalogue. */
  function CatalogueIndex(k: AchievementKey): (i: nat)
    ensures i < |Catalogue| && Catalogue[i] == k
  {
    match k
    case Streak3 => 0
    case Streak7 => 1
    case Streak30 => 2
    case Streak100 => 3
    case Level5 => 4
    case Level10 => 5
    case Level25 => 6
    case PhysicalFirst => 7
    case Physical10 => 8
    case Physical50 => 9
    case MentalFirst => 10
    case Mental10 => 11
    case Mental50 => 12
    case FiscalFirst => 13
    case Fiscal10 => 14
    case Fiscal50 => 15
    case ReaderFirst => 16
    case Reader5 => 17
    case Balanced => 18
  }

  /** The string key stored for an achievement. */
  function KeyName(k: AchievementKey): string
  {
    match k
    case Streak3 => "streak_3"
    case Streak7 => "streak_7"
    case Streak30 => "streak_30"
    case Streak100 => "streak_100"
    case Level5 => "level_5"
    case Level10 => "level_10"
    case Level25 => "level_25"
    case PhysicalFirst => "physical_first"
    case Physical10 => "physical_10"
    case Physical50 => "physical_50"
    case MentalFirst => "mental_first"
    case Mental10 => "mental_10"
    case Mental50 => "mental_50"
    case FiscalFirst => "fiscal_first"
    case Fiscal10 => "fiscal_10"
    case Fiscal50 => "fiscal_50"
    case ReaderFirst => "reader_first"
    case Reader5 => "reader_5"
    case Balanced => "balanced"
  }

  /** Distinct achievements are stored under distinct string keys. */
  lemma KeyNamesDistinct(a: AchievementKey, b: AchievementKey)
    requires a != b
    ensures KeyName(a) != KeyName(b)
  {
  }

  /** The part of the profile `checkAchievements` reads. */
  datatype ProfileStats = ProfileStats(currentStreak: int, level: int)

  /** `getTotalCompletions`: the number of completions over the habits of
      one pillar. */
  function TotalCompletions(habits: seq<Habit>, p: Pillar): (n: nat)
    ensures n == 0 <==> forall i :: 0 <= i < |habits| && habits[i].pillar == p ==> |habits[i].completions| == 0
    ensures forall i :: 0 <= i < |habits| && habits[i].pillar == p ==> |habits[i].completions| <= n
  {
    if |habits| == 0 then 0
    else
      var last := habits[|habits| - 1];
      assert forall i :: 0 <= i < |habits| - 1 ==> habits[..|habits| - 1][i] == habits[i];
      TotalCompletions(habits[..|habits| - 1], p) + (if last.pillar == p then |last.completions| else 0)
  }

  /** The total over two lists of habits is the sum of their totals: each
      habit contributes its own completions once, wherever it stands. */
  lemma {:induction false} TotalCompletionsConcat(a: seq<Habit>, b: seq<Habit>, p: Pillar)
    ensures TotalCompletions(a + b, p) == TotalCompletions(a, p) + TotalCompletions(b, p)
  {
    if |b| > 0 {
      var init := b[..|b| - 1];
      TotalCompletionsConcat(a, init, p);
      assert (a + b)[..|a + b| - 1] == a + init;
      assert (a + b)[|a + b| - 1] == b[|b| - 1];
    } else {
      assert a + b == a;
    }
  }

  /** Adding a habit adds its completions to its own pillar's total only. */
  lemma TotalCompletionsAppend(habits: seq<Habit>, h: Habit, p: Pillar)
    ensures TotalCompletions(habits + [h], p) ==
      TotalCompletions(habits, p) + (if h.pillar == p then |h.completions| else 0)
  {
    assert (habits + [h])[..|habits|] == habits;
  }

  /** Some habit of pillar `p` has a completion dated `today`. */
  predicate PillarDoneOn(habits: seq<Habit>, p: Pillar, today: Day)
  {
    exists i :: 0 <= i < |habits| && habits[i].pillar == p && CompletedOn(habits[i], today)
  }

  /** Everything the achievement thresholds are checked against. */
  datatype AchievementStats = AchievementStats(
    streak: int, level: int,
    physical: nat, mental: nat, fiscal: nat,
    readings: int,
    balanced: bool)

  function Stats(profile: ProfileStats, habits: seq<Habit>, completedReadings: int, today: Day): AchievementStats
  {
    AchievementStats(
      profile.currentStreak, profile.level,
      TotalCompletions(habits, Physical), TotalCompletions(habits, Mental), TotalCompletions(habits, Fiscal),
      completedReadings,
      PillarDoneOn(habits, Physical, today) && PillarDoneOn(habits, Mental, today) && PillarDoneOn(habits, Fiscal, today))
  }

  /** The threshold each achievement is checked against. */
  predicate Earned(k: AchievementKey, s: AchievementStats)
  {
    match k
    case Streak3 => s.streak >= 3
    case Streak7 => s.streak >= 7
    case Streak30 => s.streak >= 30
    case Streak100 => s.streak >= 100
    case Level5 => s.level >= 5
    case Level10 => s.level >= 10
    case Level25 => s.level >= 25
    case PhysicalFirst => s.physical >= 1
    case Physical10 => s.physical >= 10
    case Physical50 => s.physical >= 50
    case MentalFirst => s.mental >= 1
    case Mental10 => s.mental >= 10
    case Mental50 => s.mental >= 50
    case FiscalFirst => s.fiscal >= 1
    case Fiscal10 => s.fiscal >= 10
    case Fiscal50 => s.fiscal >= 50
    case ReaderFirst => s.readings >= 1
    case Reader5 => s.readings >= 5
    case Balanced => s.balanced
  }

  /** Keys listed in strictly increasing catalogue position. */
  predicate InCatalogueOrder(ks: seq<AchievementKey>)
  {
    forall i, j :: 0 <= i < j < |ks| ==> CatalogueIndex(ks[i]) < CatalogueIndex(ks[j])
  }

  /** In an ordered list every later key comes after the first. */
  lemma OrderedHead(ks: seq<AchievementKey>)
    requires |ks| > 0 && InCatalogueOrder(ks)
    ensures forall k :: k in ks[1..] ==> CatalogueIndex(ks[0]) < CatalogueIndex(k)
  {
    forall k | k in ks[1..]
      ensures CatalogueIndex(ks[0]) < CatalogueIndex(k)
    {
      var t :| 0 <= t < |ks[1..]| && ks[1..][t] == k;
      assert ks[t + 1] == k;
    }
  }

  /** The earned keys of `ks`, in the order of `ks`. */
  function EarnedAmong(ks: seq<AchievementKey>, s: AchievementStats): (r: seq<AchievementKey>)
    ensures forall k :: k in r <==> k in ks && Earned(k, s)
    ensures InCatalogueOrder(ks) ==> InCatalogueOrder(r)
  {
    if |ks| == 0 then []
    else
      var rest := EarnedAmong(ks[1..], s);
      assert forall k :: k in ks <==> k == ks[0] || k in ks[1..];
      if Earned(ks[0], s) then
        if InCatalogueOrder(ks) then
          OrderedHead(ks);
          assert forall m :: 0 <= m < |rest| ==> rest[m] in ks[1..];
          [ks[0]] + rest
        else [ks[0]] + rest
      else rest
  }

  /** Each catalogue entry sits at its own index. */
  lemma CatalogueIndexOfEntry()
    ensures forall i :: 0 <= i < |Catalogue| ==> CatalogueIndex(Catalogue[i]) == i
  {
  }

  lemma CatalogueInOrder()
    ensures InCatalogueOrder(Catalogue)
    ensures forall k: AchievementKey :: k in Catalogue
  {
    CatalogueIndexOfEntry();
    forall k: AchievementKey
      ensures k in Catalogue
    {
      assert Catalogue[CatalogueIndex(k)] == k;
    }
  }

  /** The achievements whose thresholds the statistics meet, in catalogue
      order. */
  function Unlocked(s: AchievementStats): (keys: seq<AchievementKey>)
    ensures forall k :: k in keys <==> Earned(k, s)
    ensures InCatalogueOrder(keys)
  {
    CatalogueInOrder();
    EarnedAmong(Catalogue, s)
  }

  /** `checkAchievements`: every achievement whose threshold is met, in
      catalogue order. It keeps no record of earlier unlocks, so the same
      inputs always give the same list. */
  function CheckAchievements(profile: ProfileStats, habits: seq<Habit>, completedReadings: int, today: Day)
    : (keys: seq<AchievementKey>)
    ensures forall k :: k in keys <==> Earned(k, Stats(profile, habits, completedReadings, today))
    ensures InCatalogueOrder(keys)
  {
    Unlocked(Stats(profile, habits, completedReadings, today))
  }

  /** No key is emitted twice. */
  lemma UnlockedUnique(s: AchievementStats)
    ensures var keys := Unlocked(s);
      forall i, j :: 0 <= i < j < |keys| ==> keys[i] != keys[j]
  {
  }

  /** Higher streak thresholds imply the lower ones. */
  lemma StreakThresholdsNest(s: AchievementStats)
    ensures var keys := Unlocked(s);
      (Streak100 in keys ==> Streak30 in keys) && (Streak30 in keys ==> Streak7 in keys) &&
      (Streak7 in keys ==> Streak3 in keys)
  {
  }

  /** Higher level thresholds imply the lower ones. */
  lemma LevelThresholdsNest(s: AchievementStats)
    ensures var keys := Unlocked(s);
      (Level25 in keys ==> Level10 in keys) && (Level10 in keys ==> Level5 in keys)
  {
  }

  /** Higher completion-count thresholds imply the lower ones, per pillar. */
  lemma PillarThresholdsNest(s: AchievementStats)
    ensures var keys := Unlocked(s);
      (Physical50 in keys ==> Physical10 in keys) && (Physical10 in keys ==> PhysicalFirst in keys) &&
      (Mental50 in keys ==> Mental10 in keys) && (Mental10 in keys ==> MentalFirst in keys) &&
      (Fiscal50 in keys ==> Fiscal10 in keys) && (Fiscal10 in keys ==> FiscalFirst in keys)
  {
  }

  /** Five readings imply the first. */
  lemma ReaderThresholdsNest(s: AchievementStats)
    ensures var keys := Unlocked(s);
      Reader5 in keys ==> ReaderFirst in keys
  {
  }

  /** "balanced" is emitted exactly when each of physical, mental and fiscal
      has a habit with a completion dated today; the other pillars are not
      consulted. */
  lemma BalancedIff(profile: ProfileStats, habits: seq<Habit>, completedReadings: int, today: Day)
    ensures Balanced in CheckAchievements(profile, habits, completedReadings, today) <==>
      PillarDoneOn(habits, Physical, today) && PillarDoneOn(habits, Mental, today) &&
      PillarDoneOn(habits, Fiscal, today)
  {
  }

  /** A habit of any of the five newer pillars never changes the result. */
  lemma {:induction false} OtherPillarsIgnored(profile: ProfileStats, habits: seq<Habit>, h: Habit, completedReadings: int, today: Day)
    requires h.pillar !in OriginalPillars
    ensures CheckAchievements(profile, habits + [h], completedReadings, today) ==
      CheckAchievements(profile, habits, completedReadings, today)
  {
    TotalCompletionsAppend(habits, h, Physical);
    TotalCompletionsAppend(habits, h, Mental);
    TotalCompletionsAppend(habits, h, Fiscal);
    forall p | p in OriginalPillars
      ensures PillarDoneOn(habits + [h], p, today) == PillarDoneOn(habits, p, today)
    {
      if PillarDoneOn(habits + [h], p, today) {
        var i :| 0 <= i < |habits + [h]| && (habits + [h])[i].pillar == p && CompletedOn((habits + [h])[i], today);
        assert i < |habits| && habits[i] == (habits + [h])[i];
      }
      if PillarDoneOn(habits, p, today) {
        var i :| 0 <= i < |habits| && habits[i].pillar == p && CompletedOn(habits[i], today);
        assert (habits + [h])[i] == habits[i];
      }
    }
    assert Stats(profile, habits + [h], completedReadings, today) == Stats(profile, habits, completedReadings, today);
  }

  /** The date keys of a list of completions. */
  function CompletionStamps(cs: seq<Completion>): (stamps: seq<Option<Day>>)
    ensures |stamps| == |cs|
    ensures forall j :: 0 <= j < |cs| ==> stamps[j] == CompletionDay(cs[j])
  {
    if |cs| == 0 then [] else [CompletionDay(cs[0])] + CompletionStamps(cs[1..])
  }

  /** All completion date keys of all habits, habit after habit. */
  function AllStamps(habits: seq<Habit>): (stamps: seq<Option<Day>>)
    ensures forall d :: Some(d) in stamps <==> exists i :: 0 <= i < |habits| && CompletedOn(habits[i], d)
  {
    if |habits| == 0 then []
    else
      var own := CompletionStamps(habits[0].completions);
      var rest := AllStamps(habits[1..]);
      assert forall i :: 0 < i < |habits| ==> habits[1..][i - 1] == habits[i];
      own + rest
  }

  /** `calculateStreak`: the older client-side streak over all habits'
      completions. It lets today be missing just as the server engine does,
      so for any habit list it equals the server's streak over the same
      date keys. */
  method CalculateStreak(habits: seq<Habit>, today: Day) returns (streak: nat)
    ensures |habits| == 0 ==> streak == 0
    ensures streak == Streak.CurrentStreak(Streak.DateKeys(AllStamps(habits)), today)
  {
    if |habits| == 0 {
      return 0;
    }
    var dates := Streak.CollectDays(AllStamps(habits));
    streak := 0;
    var i := 0;
    while i < Streak.ScanDays
      invariant 0 <= i <= Streak.ScanDays
      invariant i == 0 ==> streak == 0
      invariant i >= 1 ==> streak + Streak.CountBack(dates, today - i, Streak.ScanDays - i) == Streak.CurrentStreak(dates, today)
    {
      if today - i in dates {
        streak := streak + 1;
      } else if i > 0 {
        break;
      }
      i := i + 1;
    }
  }

  /** The habits that count for the day: all that are not archived. */
  function ActiveHabits(habits: seq<Habit>): (r: seq<Habit>)
    ensures |r| <= |habits|
    ensures forall h :: h in r <==> h in habits && !h.archived
  {
    if |habits| == 0 then []
    else
      var rest := ActiveHabits(habits[1..]);
      assert forall h :: h in habits <==> h == habits[0] || h in habits[1..];
      if habits[0].archived then rest else [habits[0]] + rest
  }

  /** The habits with a completion dated `d`. */
  function CompletedHabits(habits: seq<Habit>, d: Day): (r: seq<Habit>)
    ensures |r| <= |habits|
    ensures forall h :: h in r <==> h in habits && CompletedOn(h, d)
  {
    if |habits| == 0 then []
    else
      var rest := CompletedHabits(habits[1..], d);
      assert forall h :: h in habits <==> h == habits[0] || h in habits[1..];
      if CompletedOn(habits[0], d) then [habits[0]] + rest else rest
  }

  /** Filtering out archived habits distributes over concatenation. */
  lemma {:induction false} ActiveHabitsConcat(a: seq<Habit>, b: seq<Habit>)
    ensures ActiveHabits(a + b) == ActiveHabits(a) + ActiveHabits(b)
    decreases |a|
  {
    if |a| == 0 {
      assert a + b == b;
    } else {
      assert (a + b)[0] == a[0] && (a + b)[1..] == a[1..] + b;
      ActiveHabitsConcat(a[1..], b);
    }
  }

  /** Filtering by a completion date distributes over concatenation. */
  lemma {:induction false} CompletedHabitsConcat(a: seq<Habit>, b: seq<Habit>, d: Day)
    ensures CompletedHabits(a + b, d) == CompletedHabits(a, d) + CompletedHabits(b, d)
    decreases |a|
  {
    if |a| == 0 {
      assert a + b == b;
    } else {
      assert (a + b)[0] == a[0] && (a + b)[1..] == a[1..] + b;
      CompletedHabitsConcat(a[1..], b, d);
    }
  }

  /** An active habit with a completion dated `d`. */
  predicate DoneOn(h: Habit, d: Day)
  {
    !h.archived && CompletedOn(h, d)
  }

  /** The positions of the active habits. */
  function ActivePositions(habits: seq<Habit>): set<nat>
  {
    set i: nat | i < |habits| && !habits[i].archived
  }

  /** The positions of the active habits completed on `d`. */
  function DonePositions(habits: seq<Habit>, d: Day): set<nat>
  {
    set i: nat | i < |habits| && DoneOn(habits[i], d)
  }

  /** Removing the last habit removes at most its own active position. */
  lemma ActivePositionsSnoc(habits: seq<Habit>)
    requires |habits| > 0
    ensures var last := |habits| - 1;
      var before := ActivePositions(habits[..last]);
      last !in before &&
      ActivePositions(habits) == before + (if !habits[last].archived then {last} else {})
  {
    var last := |habits| - 1;
    var init := habits[..last];
    var before := ActivePositions(init);
    var added: set<nat> := if !habits[last].archived then {last} else {};
    forall i | i in ActivePositions(habits)
      ensures i in before + added
    {
      if i < last { assert init[i] == habits[i]; }
    }
    forall i | i in before + added
      ensures i in ActivePositions(habits)
    {
      if i < last { assert init[i] == habits[i]; }
    }
  }

  /** Removing the last habit removes at most its own done position. */
  lemma DonePositionsSnoc(habits: seq<Habit>, d: Day)
    requires |habits| > 0
    ensures var last := |habits| - 1;
      var before := DonePositions(habits[..last], d);
      last !in before &&
      DonePositions(habits, d) == before + (if DoneOn(habits[last], d) then {last} else {})
  {
    var last := |habits| - 1;
    var init := habits[..last];
    var before := DonePositions(init, d);
    var added: set<nat> := if DoneOn(habits[last], d) then {last} else {};
    forall i | i in DonePositions(habits, d)
      ensures i in before + added
    {
      if i < last { assert init[i] == habits[i]; }
    }
    forall i | i in before + added
      ensures i in DonePositions(habits, d)
    {
      if i < last { assert init[i] == habits[i]; }
    }
  }

  /** The active list holds one entry per non-archived habit. */
  lemma {:induction false} ActiveCountIsCardinality(habits: seq<Habit>)
    ensures |ActiveHabits(habits)| == |ActivePositions(habits)|
  {
    if |habits| > 0 {
      var init, last := habits[..|habits| - 1], habits[|habits| - 1];
      assert habits == init + [last];
      assert [last][1..] == [];
      ActiveHabitsConcat(init, [last]);
      ActiveCountIsCardinality(init);
      ActivePositionsSnoc(habits);
    }
  }

  /** The completed active list holds one entry per non-archived habit with
      a completion dated `d`. */
  lemma {:induction false} DoneCountIsCardinality(habits: seq<Habit>, d: Day)
    ensures |CompletedHabits(ActiveHabits(habits), d)| == |DonePositions(habits, d)|
  {
    if |habits| > 0 {
      var init, last := habits[..|habits| - 1], habits[|habits| - 1];
      assert habits == init + [last];
      assert [last][1..] == [];
      ActiveHabitsConcat(init, [last]);
      CompletedHabitsConcat(ActiveHabits(init), ActiveHabits([last]), d);
      DoneCountIsCardinality(init, d);
      DonePositionsSnoc(habits, d);
    }
  }

  function XPSum(habits: seq<Habit>): int
  {
    if |habits| == 0 then 0 else habits[0].xpReward + XPSum(habits[1..])
  }

  /** The statistics of one day. The completion rate is the exact fraction
      `rateNum / rateDen` percent. */
  datatype DailyStats = DailyStats(
    date: Day,
    habitsCompleted: nat,
    habitsTotal: nat,
    xpEarned: int,
    rateNum: nat,
    rateDen: nat)

  /** `calculateDailyStats`. */
  function CalculateDailyStats(habits: seq<Habit>, date: Day): (s: DailyStats)
    ensures s.date == date
    ensures s.habitsTotal == |ActiveHabits(habits)|
    ensures s.habitsCompleted <= s.habitsTotal
    ensures s.xpEarned == XPSum(CompletedHabits(ActiveHabits(habits), date))
    ensures s.rateDen > 0 && s.rateNum <= 100 * s.rateDen
    ensures s.habitsTotal == 0 ==> s.rateNum == 0
    ensures s.habitsTotal > 0 ==> s.rateNum * s.habitsTotal == 100 * s.habitsCompleted * s.rateDen
    ensures s.habitsTotal == |ActivePositions(habits)|
    ensures s.habitsCompleted == |DonePositions(habits, date)|
  {
    ActiveCountIsCardinality(habits);
    DoneCountIsCardinality(habits, date);
    var active := ActiveHabits(habits);
    var completed := CompletedHabits(active, date);
    var total := |active|;
    DailyStats(date, |completed|, total, XPSum(completed),
      if total > 0 then 100 * |completed| else 0,
      if total > 0 then total else 1)
  }

  /** A day on which every active habit was completed earns the full XP of
      the active habits and a rate of 100%. */
  lemma {:induction false} FullDay(habits: seq<Habit>, date: Day)
    requires forall h :: h in habits && !h.archived ==> CompletedOn(h, date)
    ensures var s := CalculateDailyStats(habits, date);
      s.habitsCompleted == s.habitsTotal && s.xpEarned == XPSum(ActiveHabits(habits))
  {
    AllCompleted(ActiveHabits(habits), date);
  }

  lemma {:induction false} AllCompleted(habits: seq<Habit>, d: Day)
    requires forall h :: h in habits ==> CompletedOn(h, d)
    ensures CompletedHabits(habits, d) == habits
  {
    if |habits| > 0 {
      assert forall h :: h in habits[1..] ==> h in habits;
      AllCompleted(habits[1..], d);
      assert habits == [habits[0]] + habits[1..];
    }
  }

  /** The message shown on the dashboard. */
  datatype Motivation =
    | StartToday | Legendary | PerfectDay | AllDone | OverHalfway | KeepChain(streak: int) | MakeTodayCount

  /** `getMotivationalMessage`, with today's progress as a whole percentage. */
  function MotivationalMessage(streak: int, todayProgress: int): (m: Motivation)
    ensures m == StartToday <==> streak == 0
    ensures m in {Legendary, PerfectDay, AllDone} <==> streak != 0 && todayProgress == 100
    ensures m == Legendary <==> streak != 0 && todayProgress == 100 && streak >= 30
    ensures m == PerfectDay <==> streak != 0 && todayProgress == 100 && 7 <= streak < 30
    ensures m == AllDone <==> streak != 0 && todayProgress == 100 && streak < 7
    ensures m == OverHalfway <==> streak != 0 && todayProgress != 100 && todayProgress >= 50
    ensures m.KeepChain? <==> streak != 0 && todayProgress < 50 && streak >= 7
    ensures m.KeepChain? ==> m.streak == streak
    ensures m == MakeTodayCount <==> streak != 0 && todayProgress < 50 && streak < 7
  {
    if streak == 0 then StartToday
    else if todayProgress == 100 then
      if streak >= 30 then Legendary else if streak >= 7 then PerfectDay else AllDone
    else if todayProgress >= 50 then OverHalfway
    else if streak >= 7 then KeepChain(streak)
    else MakeTodayCount
  }

  function MessageText(m: Motivation): string
  {
    match m
    case StartToday => "Every journey begins with a single step. Start today!"
    case Legendary => "Legendary! You're unstoppable. Keep this momentum!"
    case PerfectDay => "Perfect day! You're building amazing habits."
    case AllDone => "All done for today! Great work staying consistent."
    case OverHalfway => "You're over halfway there! Finish strong."
    case KeepChain(n) => IntToString(n) + "-day streak! Don't break the chain today."
    case MakeTodayCount => "Make today count. Your future self will thank you."
  }
}

=== FILE: habit_completion.dfy ===
/** The habit-completion endpoint as a transition over the three tables it
    touches: habits, habit completions and user profiles. The signed-in
    user, the request body, the clock and the outcome of the insert are
    parameters; everything else is read from and written to the tables. */
module HabitCompletion {
  import opened Common
  import opened Domain
  import Streak
  import Gamification

  /** A row of `habits`, reduced to what the endpoint reads. */
  datatype HabitRecord = HabitRecord(id: string, userId: string, xpReward: int)

  /** A row of `habit_completions`; `completed_at` may be null. */
  datatype CompletionRow = CompletionRow(habitId: string, userId: string, completedAt: Option<Instant>)

  /** The fields of `user_profiles` the endpoint reads or writes. */
  datatype ProfileRow = ProfileRow(currentStreak: nat, longestStreak: nat, xpPoints: int)

  /** The tables; profiles are keyed by user id (one row per user). */
  datatype Db = Db(habits: seq<HabitRecord>, completions: seq<CompletionRow>, profiles: map<string, ProfileRow>)

  /** The endpoint's answers; only `Awarded` is a success. */
  datatype Response =
    | Unauthorized
    | MissingHabitId
    | HabitNotFound
    | AlreadyCompleted
    | InsertFailed
    | Awarded(xpEarned: int, bonusXP: nat, totalXP: int, milestone: Option<string>,
              streak: Streak.StreakUpdate)

  /** The HTTP status of each answer. */
  function Status(r: Response): (code: int)
    ensures code == 200 <==> r.Awarded?
    ensures code == 400 <==> r.MissingHabitId? || r.AlreadyCompleted?
    ensures code == 401 <==> r.Unauthorized?
    ensures code == 404 <==> r.HabitNotFound?
    ensures code == 500 <==> r.InsertFailed?
  {
    match r
    case Unauthorized => 401
    case MissingHabitId => 400
    case HabitNotFound => 404
    case AlreadyCompleted => 400
    case InsertFailed => 500
    case Awarded(_, _, _, _, _) => 200
  }

  /** The user's habits with the given id. */
  function OwnedMatches(hs: seq<HabitRecord>, habitId: string, user: string): (r: seq<HabitRecord>)
    ensures |r| <= |hs|
    ensures forall h :: h in r <==> h in hs && h.id == habitId && h.userId == user
  {
    if |hs| == 0 then []
    else
      var last := hs[|hs| - 1];
      var rest := OwnedMatches(hs[..|hs| - 1], habitId, user);
      assert hs == hs[..|hs| - 1] + [last];
      if last.id == habitId && last.userId == user then rest + [last] else rest
  }

  /** `.single()`: a row only when the query matches exactly one. */
  function Single<T>(rows: seq<T>): (r: Option<T>)
    ensures r.Some? <==> |rows| == 1
    ensures r.Some? ==> r.value == rows[0]
  {
    if |rows| == 1 then Some(rows[0]) else None
  }

  /** The row is a completion of `habitId` by `user` stamped inside the
      query window of `today`. */
  predicate InHabitWindow(row: CompletionRow, habitId: string, user: string, today: Day)
  {
    row.habitId == habitId && row.userId == user && row.completedAt.Some? &&
    InDayWindow(row.completedAt.value, today)
  }

  /** Completions of `habitId` by `user` inside the query window of `today`. */
  function HabitWindowCount(cs: seq<CompletionRow>, habitId: string, user: string, today: Day): (n: nat)
    ensures n <= |cs|
    ensures n == 0 <==> forall i :: 0 <= i < |cs| ==> !InHabitWindow(cs[i], habitId, user, today)
  {
    if |cs| == 0 then 0
    else
      var last := cs[|cs| - 1];
      HabitWindowCount(cs[..|cs| - 1], habitId, user, today) +
        (if InHabitWindow(last, habitId, user, today) then 1 else 0)
  }

  /** The positions of the rows the duplicate check can see. */
  function HabitWindowPositions(cs: seq<CompletionRow>, habitId: string, user: string, today: Day): set<nat>
  {
    set i: nat | i < |cs| && InHabitWindow(cs[i], habitId, user, today)
  }

  /** Removing the last row removes at most its own position. */
  lemma HabitWindowPositionsSnoc(cs: seq<CompletionRow>, habitId: string, user: string, today: Day)
    requires |cs| > 0
    ensures var last := |cs| - 1;
      var before := HabitWindowPositions(cs[..last], habitId, user, today);
      last !in before &&
      HabitWindowPositions(cs, habitId, user, today) ==
        before + (if InHabitWindow(cs[last], habitId, user, today) then {last} else {})
  {
    var last := |cs| - 1;
    var init := cs[..last];
    var before := HabitWindowPositions(init, habitId, user, today);
    var added: set<nat> := if InHabitWindow(cs[last], habitId, user, today) then {last} else {};
    forall i | i in HabitWindowPositions(cs, habitId, user, today)
      ensures i in before + added
    {
      if i < last { assert init[i] == cs[i]; }
    }
    forall i | i in before + added
      ensures i in HabitWindowPositions(cs, habitId, user, today)
    {
      if i < last { assert init[i] == cs[i]; }
    }
  }

  /** The window count is exactly the number of matching rows. */
  lemma {:induction false} HabitWindowCountIsCardinality(cs: seq<CompletionRow>, habitId: string, user: string, today: Day)
    ensures HabitWindowCount(cs, habitId, user, today) == |HabitWindowPositions(cs, habitId, user, today)|
  {
    if |cs| > 0 {
      HabitWindowCountIsCardinality(cs[..|cs| - 1], habitId, user, today);
      HabitWindowPositionsSnoc(cs, habitId, user, today);
    }
  }

  /** The date keys of the user's completions, for the streak engine. */
  function UserDays(cs: seq<CompletionRow>, user: string): (ds: seq<Option<Day>>)
    ensures |ds| <= |cs|
    ensures forall d :: Some(d) in ds <==>
      exists i :: 0 <= i < |cs| && cs[i].userId == user && cs[i].completedAt.Some? && cs[i].completedAt.value.day == d
    ensures None in ds <==> exists i :: 0 <= i < |cs| && cs[i].userId == user && cs[i].completedAt.None?
  {
    if |cs| == 0 then []
    else
      var last := cs[|cs| - 1];
      assert forall i :: 0 <= i < |cs| - 1 ==> cs[..|cs| - 1][i] == cs[i];
      UserDays(cs[..|cs| - 1], user) +
        (if last.userId == user then [if last.completedAt.Some? then Some(last.completedAt.value.day) else None]
         else [])
  }

  /** The timestamps of the user's completions; rows without one never
      satisfy a timestamp range filter. */
  function UserInstants(cs: seq<CompletionRow>, user: string): (ts: seq<Instant>)
    ensures |ts| <= |cs|
    ensures forall t :: t in ts <==> exists i :: 0 <= i < |cs| && cs[i].userId == user && cs[i].completedAt == Some(t)
  {
    if |cs| == 0 then []
    else
      var last := cs[|cs| - 1];
      assert forall i :: 0 <= i < |cs| - 1 ==> cs[..|cs| - 1][i] == cs[i];
      UserInstants(cs[..|cs| - 1], user) +
        (if last.userId == user && last.completedAt.Some? then [last.completedAt.value] else [])
  }

  lemma AppendDrop<T>(s: seq<T>, x: T)
    ensures (s + [x])[..|s|] == s && (s + [x])[|s|] == x
  {
  }

  /** Appending one row extends each derived view by that row's contribution. */
  lemma ViewsAppend(cs: seq<CompletionRow>, row: CompletionRow, habitId: string, user: string, today: Day)
    ensures HabitWindowCount(cs + [row], habitId, user, today) == HabitWindowCount(cs, habitId, user, today) +
      (if InHabitWindow(row, habitId, user, today) then 1 else 0)
    ensures UserDays(cs + [row], user) == UserDays(cs, user) +
      (if row.userId == user then [if row.completedAt.Some? then Some(row.completedAt.value.day) else None] else [])
    ensures UserInstants(cs + [row], user) == UserInstants(cs, user) +
      (if row.userId == user && row.completedAt.Some? then [row.completedAt.value] else [])
  {
    AppendDrop(cs, row);
  }

  /** The profile's streak fields, as the streak engine reads them. */
  function StreakFields(p: Option<ProfileRow>): (row: Option<Streak.StreakRow>)
    ensures row.Some? <==> p.Some?
  {
    if p.Some? then Some(Streak.StreakRow(p.value.currentStreak, p.value.longestStreak)) else None
  }

  /** The bonus on top of the habit's reward: the milestone's XP, plus the
      daily-login XP on the first completion of the day. */
  function BonusXP(milestone: Streak.Bonus, isFirst: bool): (b: nat)
    ensures b >= milestone.xp
  {
    milestone.xp + (if isFirst then Gamification.DailyLoginXP else 0)
  }

  /** `POST /api/habits/complete`: the response and the tables afterwards.
      `user` is the signed-in user, `habitId` the body's field (`""` is as
      falsy as a missing one), `now` the clock and `insertFails` whether the
      database rejects the new row. */
  function Post(db: Db, user: Option<string>, habitId: Option<string>, now: Instant, insertFails: bool)
    : (result: (Response, Db))
    ensures user.None? ==> result.0 == Unauthorized
    ensures user.Some? && (habitId.None? || habitId == Some("")) ==> result.0 == MissingHabitId
    ensures user.Some? && habitId.Some? && habitId.value != "" ==>
      (result.0 == HabitNotFound <==> |OwnedMatches(db.habits, habitId.value, user.value)| != 1)
    ensures !result.0.Awarded? ==> result.1 == db
    ensures user.Some? && habitId.Some? && habitId.value != "" && |OwnedMatches(db.habits, habitId.value, user.value)| == 1 ==>
      (result.0 == AlreadyCompleted <==> HabitWindowCount(db.completions, habitId.value, user.value, now.day) == 1)
    ensures result.0.Awarded? <==> (user.Some? && habitId.Some? && habitId.value != "" && !insertFails &&
      |OwnedMatches(db.habits, habitId.value, user.value)| == 1 &&
      HabitWindowCount(db.completions, habitId.value, user.value, now.day) != 1)
    ensures (user.Some? && habitId.Some? && habitId.value != "" && insertFails &&
      |OwnedMatches(db.habits, habitId.value, user.value)| == 1 &&
      HabitWindowCount(db.completions, habitId.value, user.value, now.day) != 1) ==> result.0 == InsertFailed
  {
    if user.None? then (Unauthorized, db)
    else if habitId.None? || habitId.value == "" then (MissingHabitId, db)
    else
      var uid, hid := user.value, habitId.value;
      match Single(OwnedMatches(db.habits, hid, uid))
      case None => (HabitNotFound, db)
      case Some(habit) =>
        if HabitWindowCount(db.completions, hid, uid, now.day) == 1 then (AlreadyCompleted, db)
        else if insertFails then (InsertFailed, db)
        else
          var profile := if uid in db.profiles then Some(db.profiles[uid]) else None;
          var oldStreak := if profile.Some? then profile.value.currentStreak else 0;
          var completions := db.completions + [CompletionRow(hid, uid, Some(now))];
          var (streak, _) := Streak.UpdateUserStreak(UserDays(completions, uid), now.day, StreakFields(profile));
          var milestone := Streak.GetStreakBonusXP(oldStreak, streak.currentStreak);
          var isFirst := Streak.IsFirstCompletionToday(UserInstants(completions, uid), now.day);
          var bonus := BonusXP(milestone, isFirst);
          var total := habit.xpReward + bonus;
          var profiles :=
            if profile.Some? then
              db.profiles[uid := ProfileRow(streak.currentStreak, streak.longestStreak, profile.value.xpPoints + total)]
            else db.profiles;
          (Awarded(habit.xpReward, bonus, total, milestone.milestone, streak), Db(db.habits, completions, profiles))
  }

  /** The XP arithmetic of a success: the habit's own reward is reported as
      earned, the total adds the bonus, the bonus is the milestone's XP plus
      the daily-login XP exactly on the first completion of the day, and the
      profile's XP grows by the total. */
  lemma AwardedArithmetic(db: Db, user: string, habitId: string, now: Instant, habit: HabitRecord)
    requires OwnedMatches(db.habits, habitId, user) == [habit]
    requires Post(db, Some(user), Some(habitId), now, false).0.Awarded?
    ensures var (r, db') := Post(db, Some(user), Some(habitId), now, false);
      var oldStreak := if user in db.profiles then db.profiles[user].currentStreak else 0;
      var isFirst := Streak.IsFirstCompletionToday(UserInstants(db'.completions, user), now.day);
      r.xpEarned == habit.xpReward && r.totalXP == r.xpEarned + r.bonusXP &&
      r.bonusXP == Streak.GetStreakBonusXP(oldStreak, r.streak.currentStreak).xp +
        (if isFirst then Gamification.DailyLoginXP else 0) &&
      (user in db.profiles ==> user in db'.profiles && db'.profiles[user].xpPoints == db.profiles[user].xpPoints + r.totalXP)
  {
  }

  /** After a success the reported milestone is the caption of the streak
      bonus earned by moving from the stored streak to the new one, and a
      caption is reported exactly when that bonus carries XP. */
  lemma AwardedMilestone(db: Db, user: string, habitId: string, now: Instant)
    requires Post(db, Some(user), Some(habitId), now, false).0.Awarded?
    ensures var r := Post(db, Some(user), Some(habitId), now, false).0;
      var oldStreak := if user in db.profiles then db.profiles[user].currentStreak else 0;
      var bonus := Streak.GetStreakBonusXP(oldStreak, r.streak.currentStreak);
      r.milestone == bonus.milestone && (r.milestone.Some? <==> bonus.xp > 0)
  {
    assert Single(OwnedMatches(db.habits, habitId, user)).Some?;
    assert HabitWindowCount(db.completions, habitId, user, now.day) != 1;
    var oldStreak := if user in db.profiles then db.profiles[user].currentStreak else 0;
    var profile := if user in db.profiles then Some(db.profiles[user]) else None;
    var cs := db.completions + [CompletionRow(habitId, user, Some(now))];
    var streak := Streak.UpdateUserStreak(UserDays(cs, user), now.day, StreakFields(profile)).0;
    assert Post(db, Some(user), Some(habitId), now, false).0.streak == streak;
    Streak.BonusLabelledIffXP(oldStreak, streak.currentStreak);
  }

  /** A success inserts exactly the new completion, stamped now, and writes
      only the caller's own profile: habits, other completions and every
      other user's profile stay as they were. */
  lemma AwardedFrame(db: Db, user: string, habitId: string, now: Instant)
    requires Post(db, Some(user), Some(habitId), now, false).0.Awarded?
    ensures var db' := Post(db, Some(user), Some(habitId), now, false).1;
      db'.habits == db.habits &&
      db'.completions == db.completions + [CompletionRow(habitId, user, Some(now))] &&
      db'.profiles.Keys == db.profiles.Keys &&
      forall u :: u in db.profiles && u != user ==> db'.profiles[u] == db.profiles[u]
  {
    assert Single(OwnedMatches(db.habits, habitId, user)).Some?;
    assert HabitWindowCount(db.completions, habitId, user, now.day) != 1;
  }

  /** After a success the reported streak is the streak engine's result over
      the user's completions including the new row, read against the stored
      profile; it counts today, so it is at least one, and the profile stores
      the reported streak and record. */
  lemma AwardedStreak(db: Db, user: string, habitId: string, now: Instant)
    requires Post(db, Some(user), Some(habitId), now, false).0.Awarded?
    ensures var (r, db') := Post(db, Some(user), Some(habitId), now, false);
      r.streak == Streak.UpdateUserStreak(UserDays(db'.completions, user), now.day,
        StreakFields(if user in db.profiles then Some(db.profiles[user]) else None)).0 &&
      r.streak.currentStreak >= 1 && r.streak.longestStreak >= r.streak.currentStreak &&
      (user in db.profiles ==> (db'.profiles[user].currentStreak == r.streak.currentStreak &&
        db'.profiles[user].longestStreak == r.streak.longestStreak))
  {
    var row := CompletionRow(habitId, user, Some(now));
    var cs := db.completions + [row];
    ViewsAppend(db.completions, row, habitId, user, now.day);
    var days := Streak.DateKeys(UserDays(cs, user));
    assert Some(now.day) in UserDays(cs, user);
    assert now.day in days;
  }

  /** Once a habit has been completed, a second request on the same day is
      refused and changes nothing, provided the first one was stamped
      before the last second of the day and no completion of that habit
      was in today's window before it. */
  lemma SecondCallSameDayRejected(db: Db, user: string, habitId: string, now: Instant, later: Instant, fails: bool)
    requires HabitWindowCount(db.completions, habitId, user, now.day) == 0
    requires now.second < SecondsPerDay - 1 && later.day == now.day
    requires Post(db, Some(user), Some(habitId), now, false).0.Awarded?
    ensures var db1 := Post(db, Some(user), Some(habitId), now, false).1;
      Post(db1, Some(user), Some(habitId), later, fails) == (AlreadyCompleted, db1)
  {
    ViewsAppend(db.completions, CompletionRow(habitId, user, Some(now)), habitId, user, now.day);
  }

  /** The first success of the day earns the daily-login bonus when none of
      the user's completions, of any habit, is in today's window yet. */
  lemma FirstOfDayEarnsLoginBonus(db: Db, user: string, habitId: string, now: Instant)
    requires Streak.WindowCount(UserInstants(db.completions, user), now.day) == 0
    requires now.second < SecondsPerDay - 1
    requires Post(db, Some(user), Some(habitId), now, false).0.Awarded?
    ensures var db' := Post(db, Some(user), Some(habitId), now, false).1;
      Streak.IsFirstCompletionToday(UserInstants(db'.completions, user), now.day)
  {
    var row := CompletionRow(habitId, user, Some(now));
    ViewsAppend(db.completions, row, habitId, user, now.day);
    Streak.WindowCountAppend(UserInstants(db.completions, user), now, now.day);
  }

  /** A completion stamped in the day's final second lies outside the window,
      so a second request that day is not refused. */
  lemma FinalSecondAllowsRepeat(db: Db, user: string, habitId: string, later: Instant)
    requires HabitWindowCount(db.completions, habitId, user, later.day) == 0
    requires Post(db, Some(user), Some(habitId), Instant(later.day, SecondsPerDay - 1), false).0.Awarded?
    ensures var db1 := Post(db, Some(user), Some(habitId), Instant(later.day, SecondsPerDay - 1), false).1;
      Post(db1, Some(user), Some(habitId), later, false).0 != AlreadyCompleted
  {
    var now := Instant(later.day, SecondsPerDay - 1);
    ViewsAppend(db.completions, CompletionRow(habitId, user, Some(now)), habitId, user, now.day);
  }
}

=== FILE: insights.dfy ===
/** The analytics engine: per-pillar wellness scores, the time-of-day
    profile, streak statistics, recommendation synthesis, the assembled
    summary and the per-pillar XP multipliers. Database reads are inputs:
    the user's active habits, the habit ids of the completions in the
    period, completion timestamps, the profile's streak row, and the
    correlation and habit-stack tables as the queries return them. */
module Insights {
  import opened Common
  import opened Domain
  import Streak

  /** The look-back window every caller of the engine uses. */
  const WindowDays: int := 30

  /** An active habit as selected for scoring. */
  datatype HabitRow = HabitRow(id: string, pillar: Pillar)

  datatype PillarScore = PillarScore(pillar: Pillar, score: int, habitCount: nat, completionRate: int)

  /** The habits of one pillar, in order. */
  function PillarHabits(habits: seq<HabitRow>, p: Pillar): (r: seq<HabitRow>)
    ensures |r| <= |habits|
    ensures forall h :: h in r <==> h in habits && h.pillar == p
  {
    if |habits| == 0 then []
    else
      var rest := PillarHabits(habits[1..], p);
      assert forall h :: h in habits <==> h == habits[0] || h in habits[1..];
      if habits[0].pillar == p then [habits[0]] + rest else rest
  }

  predicate HasId(habits: seq<HabitRow>, id: string)
  {
    exists h :: h in habits && h.id == id
  }

  /** How many completions belong to one of the given habits. */
  function CountFor(completions: seq<string>, habits: seq<HabitRow>): (n: nat)
    ensures n <= |completions|
  {
    if |completions| == 0 then 0
    else CountFor(completions[1..], habits) + (if HasId(habits, completions[0]) then 1 else 0)
  }

  /** A completion appended at the end is counted exactly when it belongs
      to one of the habits. */
  lemma {:induction false} CountForAppend(completions: seq<string>, c: string, habits: seq<HabitRow>)
    ensures CountFor(completions + [c], habits) == CountFor(completions, habits) + (if HasId(habits, c) then 1 else 0)
  {
    if |completions| > 0 {
      assert (completions + [c])[1..] == completions[1..] + [c];
      CountForAppend(completions[1..], c, habits);
    }
  }

  /** The score of a pillar from its habit count, its completion count and
      the number of completions expected: the completion rate weighted by
      0.8 plus 20 points for having any habit, rounded and capped at 100;
      the reported rate is rounded but not capped. */
  function ScoreOf(p: Pillar, habitCount: nat, actual: nat, expected: int): (s: PillarScore)
    ensures s.pillar == p && s.habitCount == habitCount
    ensures 0 <= s.score <= 100 && s.completionRate >= 0
    ensures habitCount > 0 ==> s.score >= 20
    ensures habitCount == 0 && expected <= 0 ==> s.score == 0 && s.completionRate == 0
    ensures expected <= 0 ==> s.completionRate == 0 && s.score == (if habitCount > 0 then 20 else 0)
    // the rate is 100 * actual / expected, rounded half up
    ensures expected > 0 ==>
      expected * (2 * s.completionRate - 1) <= 200 * actual < expected * (2 * s.completionRate + 1)
    // below the cap the score is 0.8 * rate + bonus == w / expected, rounded half up
    ensures expected > 0 && s.score < 100 ==>
      var w := 80 * actual + (if habitCount > 0 then 20 * expected else 0);
      expected * (2 * s.score - 1) <= 2 * w < expected * (2 * s.score + 1)
    // the cap is reached exactly when w / expected rounds to 100 or more
    ensures expected > 0 ==>
      var w := 80 * actual + (if habitCount > 0 then 20 * expected else 0);
      (s.score == 100 <==> 2 * w >= 199 * expected)
  {
    var bonus := if habitCount > 0 then 20 else 0;
    if expected > 0 then
      var weighted := 80 * actual + (if habitCount > 0 then 20 * expected else 0);
      RoundDivAtLeast(weighted, expected, bonus);
      RoundDivAtLeast(100 * actual, expected, 0);
      RoundDivAtLeastIff(weighted, expected, 100);
      PillarScore(p, Min(100, RoundDiv(weighted, expected)), habitCount, RoundDiv(100 * actual, expected))
    else
      PillarScore(p, Min(100, bonus), habitCount, 0)
  }

  /** The score of one pillar over the user's habits and the period's
      completions, expecting one completion per habit per day. */
  function ScoreFor(p: Pillar, habits: seq<HabitRow>, completions: seq<string>, days: int): (s: PillarScore)
    ensures s.pillar == p
    ensures 0 <= s.score <= 100
    ensures s.habitCount == 0 ==> s.score == 0 && s.completionRate == 0
    ensures s.habitCount == |PillarHabits(habits, p)|
    ensures var e := |PillarHabits(habits, p)| * days;
      var a := CountFor(completions, PillarHabits(habits, p));
      var w := 80 * a + (if s.habitCount > 0 then 20 * e else 0);
      && (e <= 0 ==> s.completionRate == 0 && s.score == (if s.habitCount > 0 then 20 else 0))
      && (e > 0 ==> e * (2 * s.completionRate - 1) <= 200 * a < e * (2 * s.completionRate + 1))
      && (e > 0 && s.score < 100 ==> e * (2 * s.score - 1) <= 2 * w < e * (2 * s.score + 1))
      && (e > 0 ==> (s.score == 100 <==> 2 * w >= 199 * e))
  {
    var ph := PillarHabits(habits, p);
    ScoreOf(p, |ph|, CountFor(completions, ph), |ph| * days)
  }

  /** The all-zero entry returned for a user without active habits. */
  function ZeroScore(p: Pillar): PillarScore
  {
    PillarScore(p, 0, 0, 0)
  }

  /** `calculatePillarScores`: one entry per pillar, in `AllPillars` order. */
  function CalculatePillarScores(habits: seq<HabitRow>, completions: seq<string>, days: int): (ps: seq<PillarScore>)
    ensures |ps| == |AllPillars|
    ensures forall i :: 0 <= i < |ps| ==> ps[i] == ScoreFor(AllPillars[i], habits, completions, days)
    ensures |habits| == 0 ==> forall i :: 0 <= i < |ps| ==> ps[i] == ZeroScore(AllPillars[i])
  {
    if |habits| == 0 then
      NoneCounted(completions, []);
      seq(|AllPillars|, i requires 0 <= i < |AllPillars| => ZeroScore(AllPillars[i]))
    else
      seq(|AllPillars|, i requires 0 <= i < |AllPillars| => ScoreFor(AllPillars[i], habits, completions, days))
  }

  /** The early return for a user without habits gives exactly what the
      general formula gives. */
  lemma EarlyReturnAgrees(p: Pillar, completions: seq<string>, days: int)
    ensures ScoreFor(p, [], completions, days) == ZeroScore(p)
  {
    NoneCounted(completions, []);
  }

  /** A pillar with one habit and no completions still scores 20. */
  lemma ParticipationFloor(h: HabitRow, completions: seq<string>)
    requires forall c :: c in completions ==> c != h.id
    ensures ScoreFor(h.pillar, [h], completions, WindowDays).score == 20
  {
    assert PillarHabits([h], h.pillar) == [h];
    assert forall c :: c in completions ==> !HasId([h], c);
    NoneCounted(completions, [h]);
  }

  lemma {:induction false} NoneCounted(completions: seq<string>, habits: seq<HabitRow>)
    requires forall c :: c in completions ==> !HasId(habits, c)
    ensures CountFor(completions, habits) == 0
  {
    if |completions| > 0 {
      assert completions[0] in completions;
      assert forall c :: c in completions[1..] ==> c in completions;
      NoneCounted(completions[1..], habits);
    }
  }

  /** More completions never lower a pillar's score or rate. */
  lemma ScoreMonotone(p: Pillar, habitCount: nat, a1: nat, a2: nat, expected: int)
    requires a1 <= a2
    ensures ScoreOf(p, habitCount, a1, expected).score <= ScoreOf(p, habitCount, a2, expected).score
    ensures ScoreOf(p, habitCount, a1, expected).completionRate <= ScoreOf(p, habitCount, a2, expected).completionRate
  {
    if expected > 0 {
      var floor := if habitCount > 0 then 20 * expected else 0;
      RoundDivMonotone(80 * a1 + floor, 80 * a2 + floor, expected);
      RoundDivMonotone(100 * a1, 100 * a2, expected);
    }
  }

  /** Meeting every expected completion scores the full 100 at a 100% rate. */
  lemma FullMarks(p: Pillar, habitCount: nat, expected: int)
    requires habitCount > 0 && expected > 0
    ensures ScoreOf(p, habitCount, expected, expected).score == 100
    ensures ScoreOf(p, habitCount, expected, expected).completionRate == 100
  {
    RoundDivWithin(80 * expected + 20 * expected, expected, 100, 100);
    RoundDivWithin(100 * expected, expected, 100, 100);
  }

  datatype TimeSlot = Morning | Afternoon | Evening

  /** The slot of an hour: [5, 12) morning, [12, 17) afternoon, the rest
      of the day evening. */
  function SlotOf(hour: int): (s: TimeSlot)
    ensures s == Morning <==> 5 <= hour < 12
    ensures s == Afternoon <==> 12 <= hour < 17
  {
    if 5 <= hour < 12 then Morning else if 12 <= hour < 17 then Afternoon else Evening
  }

  datatype SlotCounts = SlotCounts(morning: nat, afternoon: nat, evening: nat)

  /** Tally the completion timestamps by slot. */
  function CountSlots(stamps: seq<Instant>): (c: SlotCounts)
    ensures c.morning + c.afternoon + c.evening == |stamps|
  {
    if |stamps| == 0 then SlotCounts(0, 0, 0)
    else
      var c := CountSlots(stamps[1..]);
      match SlotOf(Hour(stamps[0]))
      case Morning => c.(morning := c.morning + 1)
      case Afternoon => c.(afternoon := c.afternoon + 1)
      case Evening => c.(evening := c.evening + 1)
  }

  /** The number of stamps in one slot, counted from the end of the list. */
  function SlotCount(stamps: seq<Instant>, slot: TimeSlot): (n: nat)
    ensures n <= |stamps|
  {
    if |stamps| == 0 then 0
    else SlotCount(stamps[..|stamps| - 1], slot) + (if SlotOf(Hour(stamps[|stamps| - 1])) == slot then 1 else 0)
  }

  /** Counting a stamp in front of the list adds it to its own slot only. */
  lemma {:induction false} SlotCountCons(x: Instant, stamps: seq<Instant>, slot: TimeSlot)
    ensures SlotCount([x] + stamps, slot) == SlotCount(stamps, slot) + (if SlotOf(Hour(x)) == slot then 1 else 0)
  {
    if |stamps| > 0 {
      var init := stamps[..|stamps| - 1];
      assert ([x] + stamps)[..|stamps|] == [x] + init;
      SlotCountCons(x, init, slot);
    }
  }

  /** The tally puts every stamp into the slot of its hour and nowhere else. */
  lemma {:induction false} CountSlotsBySlot(stamps: seq<Instant>)
    ensures CountSlots(stamps).morning == SlotCount(stamps, Morning)
    ensures CountSlots(stamps).afternoon == SlotCount(stamps, Afternoon)
    ensures CountSlots(stamps).evening == SlotCount(stamps, Evening)
  {
    if |stamps| > 0 {
      assert stamps == [stamps[0]] + stamps[1..];
      CountSlotsBySlot(stamps[1..]);
      SlotCountCons(stamps[0], stamps[1..], Morning);
      SlotCountCons(stamps[0], stamps[1..], Afternoon);
      SlotCountCons(stamps[0], stamps[1..], Evening);
    }
  }

  /** Percent shares of the three slots. */
  datatype TimeShares = TimeShares(morning: int, afternoon: int, evening: int)

  function Share(t: TimeShares, s: TimeSlot): int
  {
    match s
    case Morning => t.morning
    case Afternoon => t.afternoon
    case Evening => t.evening
  }

  /** `analyzeBestTimeOfDay`: the rounded percentage of completions in each
      slot, or 33/33/34 when there are none. */
  function AnalyzeBestTimeOfDay(stamps: seq<Instant>): (t: TimeShares)
    ensures |stamps| == 0 ==> t == TimeShares(33, 33, 34)
    ensures 0 <= t.morning <= 100 && 0 <= t.afternoon <= 100 && 0 <= t.evening <= 100
    ensures 99 <= t.morning + t.afternoon + t.evening <= 101
    ensures |stamps| > 0 ==> t.morning == RoundDiv(100 * SlotCount(stamps, Morning), |stamps|)
    ensures |stamps| > 0 ==> t.afternoon == RoundDiv(100 * SlotCount(stamps, Afternoon), |stamps|)
    ensures |stamps| > 0 ==> t.evening == RoundDiv(100 * SlotCount(stamps, Evening), |stamps|)
  {
    CountSlotsBySlot(stamps);
    var c := CountSlots(stamps);
    var total := c.morning + c.afternoon + c.evening;
    if total > 0 then
      SharesRound(c.morning, c.afternoon, c.evening);
      TimeShares(RoundDiv(100 * c.morning, total), RoundDiv(100 * c.afternoon, total), RoundDiv(100 * c.evening, total))
    else TimeShares(33, 33, 34)
  }

  /** Three rounded percentages of a whole stay within one point of 100. */
  lemma SharesRound(m: nat, a: nat, e: nat)
    requires m + a + e > 0
    ensures var total := m + a + e;
      0 <= RoundDiv(100 * m, total) <= 100 && 0 <= RoundDiv(100 * a, total) <= 100 &&
      0 <= RoundDiv(100 * e, total) <= 100 &&
      99 <= RoundDiv(100 * m, total) + RoundDiv(100 * a, total) + RoundDiv(100 * e, total) <= 101
  {
    var total := m + a + e;
    RoundDivWithin(100 * m, total, 0, 100);
    RoundDivWithin(100 * a, total, 0, 100);
    RoundDivWithin(100 * e, total, 0, 100);
    var rm, ra, re := RoundDiv(100 * m, total), RoundDiv(100 * a, total), RoundDiv(100 * e, total);
    var sum := rm + ra + re;
    // The three rounding bounds add up to total * (2 * sum -/+ 3) around 200 * total.
    MulSum3(total, 2 * rm - 1, 2 * ra - 1, 2 * re - 1);
    MulSum3(total, 2 * rm + 1, 2 * ra + 1, 2 * re + 1);
    assert total * (2 * sum - 3) <= total * 200;
    assert total * 200 < total * (2 * sum + 3);
    MulCancelLe(total, 2 * sum - 3, 200);
    MulCancelLt(total, 200, 2 * sum + 3);
  }

  /** When every completion falls in the morning the morning gets 100%. */
  lemma AllMorning(stamps: seq<Instant>)
    requires |stamps| > 0
    requires forall i :: 0 <= i < |stamps| ==> 5 <= Hour(stamps[i]) < 12
    ensures AnalyzeBestTimeOfDay(stamps).morning == 100
  {
    AllMorningCount(stamps);
    var n := |stamps|;
    RoundDivWithin(100 * n, n, 100, 100);
  }

  lemma {:induction false} AllMorningCount(stamps: seq<Instant>)
    requires forall i :: 0 <= i < |stamps| ==> 5 <= Hour(stamps[i]) < 12
    ensures CountSlots(stamps).morning == |stamps|
  {
    if |stamps| > 0 {
      assert forall i :: 0 <= i < |stamps[1..]| ==> stamps[1..][i] == stamps[i + 1];
      AllMorningCount(stamps[1..]);
    }
  }

  /** The reduce over [morning, afternoon, evening] that keeps the later entry
      unless the earlier one is strictly larger. */
  function BestSlot(t: TimeShares): (s: TimeSlot)
    ensures s == Morning <==> t.morning > t.afternoon && t.morning > t.evening
    ensures s == Afternoon <==> t.afternoon >= t.morning && t.afternoon > t.evening
    ensures s == Evening <==> t.evening >= t.morning && t.evening >= t.afternoon
  {
    var first := if t.morning > t.afternoon then Morning else Afternoon;
    if Share(t, first) > t.evening then first else Evening
  }

  /** The chosen slot holds the largest share. */
  lemma BestSlotIsMaximal(t: TimeShares, other: TimeSlot)
    ensures Share(t, other) <= Share(t, BestSlot(t))
  {
  }

  /** Ties go to the later slot: a full three-way tie picks the evening. */
  lemma TieGoesToLater(x: int)
    ensures BestSlot(TimeShares(x, x, x)) == Evening
    ensures BestSlot(TimeShares(x, x, x - 1)) == Afternoon
  {
  }

  datatype StreakStats = StreakStats(averageLength: int, recoveryRate: int)

  /** `analyzeStreakPatterns`: a missing profile counts as zero streaks. */
  function AnalyzeStreakPatterns(profile: Option<Streak.StreakRow>): (s: StreakStats)
    ensures 0 <= s.recoveryRate <= 100
    ensures profile.None? || profile.value.longestStreak == 0 ==> s.recoveryRate == 0
    ensures profile.Some? && profile.value.currentStreak >= profile.value.longestStreak > 0 ==> s.recoveryRate == 100
    ensures var (c, l) := if profile.Some? then (profile.value.currentStreak, profile.value.longestStreak) else (0, 0);
      Min(c, l) <= s.averageLength <= Max(c, l) &&
      2 * s.averageLength - 1 <= c + l < 2 * s.averageLength + 1
    ensures var (c, l) := if profile.Some? then (profile.value.currentStreak, profile.value.longestStreak) else (0, 0);
      0 <= c < l ==> l * (2 * s.recoveryRate - 1) <= 200 * c < l * (2 * s.recoveryRate + 1)
  {
    var c := if profile.Some? then profile.value.currentStreak else 0;
    var l := if profile.Some? then profile.value.longestStreak else 0;
    RoundDivWithin(c + l, 2, Min(c, l), Max(c, l));
    if l > 0 then
      RoundDivAtLeast(100 * c, l, 0);
      if c >= l then
        RoundDivAtLeast(100 * c, l, 100);
        StreakStats(RoundDiv(c + l, 2), Min(100, RoundDiv(100 * c, l)))
      else
        RoundDivWithin(100 * c, l, 0, 100);
        StreakStats(RoundDiv(c + l, 2), Min(100, RoundDiv(100 * c, l)))
    else StreakStats(RoundDiv(c + l, 2), 0)
  }

  /** A row of the correlation table; strength is in hundredths. */
  datatype Correlation = Correlation(pillarA: Pillar, pillarB: Pillar, strength: int)

  /** A row of the habit-stack table; the completion rate is a percentage. */
  datatype HabitStack = HabitStack(pillarA: Pillar, pillarB: Pillar, completionRate: int)

  datatype RecommendationKind = PillarFocus | HabitStackKind | TimeOptimization

  /** A recommendation by kind, pillars, slot and priority; confidence is in
      hundredths. Titles and descriptions are presentation. */
  datatype Recommendation = Recommendation(
    kind: RecommendationKind,
    primary: Option<Pillar>,
    secondary: Option<Pillar>,
    slot: Option<TimeSlot>,
    confidence: int,
    priority: int)

  /** The entry a stable ascending sort by score puts first: the first of
      the minimal scores. */
  function FirstMinIndex(ps: seq<PillarScore>): (i: nat)
    requires |ps| > 0
    ensures i < |ps|
    ensures forall j :: 0 <= j < |ps| ==> ps[i].score <= ps[j].score
    ensures forall j :: 0 <= j < i ==> ps[j].score > ps[i].score
  {
    if |ps| == 1 then 0
    else
      var k := FirstMinIndex(ps[..|ps| - 1]);
      if ps[|ps| - 1].score < ps[k].score then |ps| - 1 else k
  }

  /** The entry a stable ascending sort by score puts last: the last of the
      maximal scores. */
  function LastMaxIndex(ps: seq<PillarScore>): (i: nat)
    requires |ps| > 0
    ensures i < |ps|
    ensures forall j :: 0 <= j < |ps| ==> ps[j].score <= ps[i].score
    ensures forall j :: i < j < |ps| ==> ps[j].score < ps[i].score
  {
    if |ps| == 1 then 0
    else
      var k := LastMaxIndex(ps[..|ps| - 1]);
      if ps[|ps| - 1].score >= ps[k].score then |ps| - 1 else k
  }

  /** The entry a stable descending sort by score puts first: the first of
      the maximal scores. */
  function FirstMaxIndex(ps: seq<PillarScore>): (i: nat)
    requires |ps| > 0
    ensures i < |ps|
    ensures forall j :: 0 <= j < |ps| ==> ps[j].score <= ps[i].score
    ensures forall j :: 0 <= j < i ==> ps[j].score < ps[i].score
  {
    if |ps| == 1 then 0
    else
      var k := FirstMaxIndex(ps[..|ps| - 1]);
      if ps[|ps| - 1].score > ps[k].score then |ps| - 1 else k
  }

  /** The entry a stable descending sort by score puts last: the last of the
      minimal scores. */
  function LastMinIndex(ps: seq<PillarScore>): (i: nat)
    requires |ps| > 0
    ensures i < |ps|
    ensures forall j :: 0 <= j < |ps| ==> ps[i].score <= ps[j].score
    ensures forall j :: i < j < |ps| ==> ps[i].score < ps[j].score
  {
    if |ps| == 1 then 0
    else
      var k := LastMinIndex(ps[..|ps| - 1]);
      if ps[|ps| - 1].score <= ps[k].score then |ps| - 1 else k
  }

  /** The correlation links the two pillars, in either orientation. */
  predicate Links(c: Correlation, strongest: Pillar, weakest: Pillar)
  {
    (c.pillarA == strongest && c.pillarB == weakest) || (c.pillarB == strongest && c.pillarA == weakest)
  }

  /** `find`: the first correlation linking the two pillars. */
  function FindCorrelation(cs: seq<Correlation>, strongest: Pillar, weakest: Pillar): (r: Option<Correlation>)
    ensures r.None? <==> forall i :: 0 <= i < |cs| ==> !Links(cs[i], strongest, weakest)
    ensures r.Some? ==> exists i :: (0 <= i < |cs| && cs[i] == r.value && Links(r.value, strongest, weakest) &&
      forall j :: 0 <= j < i ==> !Links(cs[j], strongest, weakest))
  {
    if |cs| == 0 then None
    else if Links(cs[0], strongest, weakest) then Some(cs[0])
    else
      var r := FindCorrelation(cs[1..], strongest, weakest);
      assert forall i :: 0 < i < |cs| ==> cs[1..][i - 1] == cs[i];
      r
  }

  function OptionToSeq<T(!new)>(o: Option<T>): (s: seq<T>)
    ensures |s| <= 1
    ensures forall x :: x in s <==> o == Some(x)
  {
    if o.Some? then [o.value] else []
  }

  /** Recommendation 1: focus on the weakest pillar when it scores below 50. */
  function FocusRecommendation(ps: seq<PillarScore>): Option<Recommendation>
  {
    if |ps| > 0 && ps[FirstMinIndex(ps)].score < 50 then
      Some(Recommendation(PillarFocus, Some(ps[FirstMinIndex(ps)].pillar), None, None, 85, 100))
    else None
  }

  /** Recommendation 2: connect the strongest pillar to the weakest when a
      correlation links them. */
  function CorrelationRecommendation(ps: seq<PillarScore>, cs: seq<Correlation>): Option<Recommendation>
  {
    if |ps| == 0 then None
    else
      var strongest := ps[LastMaxIndex(ps)].pillar;
      var weakest := ps[FirstMinIndex(ps)].pillar;
      match FindCorrelation(cs, strongest, weakest)
      case None => None
      case Some(c) => Some(Recommendation(HabitStackKind, Some(strongest), Some(weakest), None, c.strength, 90))
  }

  /** Recommendation 3, always present: schedule around the best slot. */
  function TimeRecommendation(t: TimeShares): Recommendation
  {
    Recommendation(TimeOptimization, None, None, Some(BestSlot(t)), 75, 70)
  }

  /** Recommendation 4: the top habit stack, when there is one. */
  function StackRecommendation(stacks: seq<HabitStack>): Option<Recommendation>
  {
    if |stacks| > 0 then
      Some(Recommendation(HabitStackKind, Some(stacks[0].pillarA), Some(stacks[0].pillarB), None, stacks[0].completionRate, 80))
    else None
  }

  /** Priorities never increase along the list. */
  predicate PriorityDescending(rs: seq<Recommendation>)
  {
    forall i, j :: 0 <= i < j < |rs| ==> rs[i].priority >= rs[j].priority
  }

  predicate PriorityStrictlyDescending(rs: seq<Recommendation>)
  {
    forall i, j :: 0 <= i < j < |rs| ==> rs[i].priority > rs[j].priority
  }

  /** Insert into a descending list after every entry of equal or higher
      priority. The priorities pushed by `GenerateRecommendations` are
      distinct, so no ties arise and the result is the order the source's
      sort produces. */
  function Insert(x: Recommendation, rs: seq<Recommendation>): (r: seq<Recommendation>)
    ensures |r| == |rs| + 1
  {
    if |rs| == 0 then [x]
    else if rs[0].priority >= x.priority then [rs[0]] + Insert(x, rs[1..])
    else [x] + rs
  }

  /** Inserting adds exactly one element. */
  lemma {:induction false} InsertPermutes(x: Recommendation, rs: seq<Recommendation>)
    ensures multiset(Insert(x, rs)) == multiset(rs) + multiset{x}
  {
    if |rs| > 0 {
      assert rs == [rs[0]] + rs[1..];
      if rs[0].priority >= x.priority {
        InsertPermutes(x, rs[1..]);
      }
    }
  }

  /** Inserting keeps a descending list descending. */
  lemma {:induction false} InsertSorted(x: Recommendation, rs: seq<Recommendation>)
    requires PriorityDescending(rs)
    ensures PriorityDescending(Insert(x, rs))
  {
    if |rs| > 0 && rs[0].priority >= x.priority {
      var rest := Insert(x, rs[1..]);
      InsertSorted(x, rs[1..]);
      InsertPermutes(x, rs[1..]);
      forall y | y in rest
        ensures rs[0].priority >= y.priority
      {
        assert y in multiset(rest);
      }
      assert Insert(x, rs) == [rs[0]] + rest;
    }
  }

  /** `sort((a, b) => b.priority - a.priority)`, as an insertion sort; the
      pushed priorities are distinct, so no ties arise. */
  function SortByPriority(rs: seq<Recommendation>): (r: seq<Recommendation>)
    ensures PriorityDescending(r)
    ensures multiset(r) == multiset(rs)
  {
    if |rs| == 0 then []
    else
      assert rs == [rs[0]] + rs[1..];
      InsertSorted(rs[0], SortByPriority(rs[1..]));
      InsertPermutes(rs[0], SortByPriority(rs[1..]));
      Insert(rs[0], SortByPriority(rs[1..]))
  }

  lemma MultisetTail(s: seq<Recommendation>)
    requires |s| > 0
    ensures multiset(s[1..]) == multiset(s) - multiset{s[0]}
  {
    assert s == [s[0]] + s[1..];
  }

  /** A descending list and a strictly descending list with the same
      elements start with the same element. */
  lemma SortedPermutationHead(a: seq<Recommendation>, b: seq<Recommendation>)
    requires PriorityDescending(a) && PriorityStrictlyDescending(b)
    requires multiset(a) == multiset(b) && |a| > 0
    ensures |b| > 0 && a[0] == b[0]
  {
    assert a[0] in multiset(b);
    var k :| 0 <= k < |b| && b[k] == a[0];
    assert b[0] in multiset(a);
    var m :| 0 <= m < |a| && a[m] == b[0];
    if k > 0 {
      assert false;
    }
  }

  /** A descending list and a strictly descending list with the same
      elements are equal. */
  lemma {:induction false} SortedPermutationUnique(a: seq<Recommendation>, b: seq<Recommendation>)
    requires PriorityDescending(a) && PriorityStrictlyDescending(b)
    requires multiset(a) == multiset(b)
    ensures a == b
    decreases |a|
  {
    assert |a| == |multiset(a)| == |multiset(b)| == |b|;
    if |a| > 0 {
      SortedPermutationHead(a, b);
      MultisetTail(a);
      MultisetTail(b);
      SortedPermutationUnique(a[1..], b[1..]);
      assert a == [a[0]] + a[1..] && b == [b[0]] + b[1..];
    }
  }

  /** The recommendations in the order they are pushed. */
  function Pushed(ps: seq<PillarScore>, t: TimeShares, cs: seq<Correlation>, stacks: seq<HabitStack>): seq<Recommendation>
  {
    OptionToSeq(FocusRecommendation(ps)) + OptionToSeq(CorrelationRecommendation(ps, cs)) +
    [TimeRecommendation(t)] + OptionToSeq(StackRecommendation(stacks))
  }

  /** `generateRecommendations`. */
  function GenerateRecommendations(ps: seq<PillarScore>, t: TimeShares, cs: seq<Correlation>, stacks: seq<HabitStack>)
    : (r: seq<Recommendation>)
    ensures PriorityDescending(r)
    ensures multiset(r) == multiset(Pushed(ps, t, cs, stacks))
  {
    SortByPriority(Pushed(ps, t, cs, stacks))
  }

  /** After the sort: focus (100), correlation (90), stack (80), time (70),
      each present or absent exactly as its rule says. */
  lemma RecommendationOrder(ps: seq<PillarScore>, t: TimeShares, cs: seq<Correlation>, stacks: seq<HabitStack>)
    ensures GenerateRecommendations(ps, t, cs, stacks) ==
      OptionToSeq(FocusRecommendation(ps)) + OptionToSeq(CorrelationRecommendation(ps, cs)) +
      OptionToSeq(StackRecommendation(stacks)) + [TimeRecommendation(t)]
  {
    var f, c, s := OptionToSeq(FocusRecommendation(ps)), OptionToSeq(CorrelationRecommendation(ps, cs)),
      OptionToSeq(StackRecommendation(stacks));
    var tr := [TimeRecommendation(t)];
    var expected := f + c + s + tr;
    assert forall x :: x in f ==> x.priority == 100;
    assert forall x :: x in c ==> x.priority == 90;
    assert forall x :: x in s ==> x.priority == 80;
    assert PriorityStrictlyDescending(expected);
    assert multiset(expected) == multiset(Pushed(ps, t, cs, stacks));
    SortedPermutationUnique(GenerateRecommendations(ps, t, cs, stacks), expected);
  }

  /** Time optimisation is always recommended; there are at most four. */
  lemma RecommendationShape(ps: seq<PillarScore>, t: TimeShares, cs: seq<Correlation>, stacks: seq<HabitStack>)
    ensures var r := GenerateRecommendations(ps, t, cs, stacks);
      1 <= |r| <= 4 && r[|r| - 1] == TimeRecommendation(t)
  {
    RecommendationOrder(ps, t, cs, stacks);
  }

  /** The focus item is present exactly when the weakest score is below 50. */
  lemma FocusIff(ps: seq<PillarScore>, t: TimeShares, cs: seq<Correlation>, stacks: seq<HabitStack>)
    ensures (exists x :: x in GenerateRecommendations(ps, t, cs, stacks) && x.kind == PillarFocus) <==>
      |ps| > 0 && ps[FirstMinIndex(ps)].score < 50
  {
    RecommendationOrder(ps, t, cs, stacks);
    FocusKind(ps);
    CorrelationKind(ps, cs);
    StackKind(stacks);
    OnlyHeadFocuses(GenerateRecommendations(ps, t, cs, stacks), FocusRecommendation(ps),
      OptionToSeq(CorrelationRecommendation(ps, cs)), OptionToSeq(StackRecommendation(stacks)), [TimeRecommendation(t)]);
  }

  lemma FocusKind(ps: seq<PillarScore>)
    ensures FocusRecommendation(ps).Some? <==> |ps| > 0 && ps[FirstMinIndex(ps)].score < 50
    ensures FocusRecommendation(ps).Some? ==> FocusRecommendation(ps).value.kind == PillarFocus
  {
  }

  lemma CorrelationKind(ps: seq<PillarScore>, cs: seq<Correlation>)
    ensures forall x :: x in OptionToSeq(CorrelationRecommendation(ps, cs)) ==> x.kind == HabitStackKind
  {
  }

  lemma StackKind(stacks: seq<HabitStack>)
    ensures forall x :: x in OptionToSeq(StackRecommendation(stacks)) ==> x.kind == HabitStackKind
  {
  }

  /** In a list made of an optional focus item followed by items of other
      kinds, a focus item occurs exactly when the optional one is present. */
  lemma OnlyHeadFocuses(r: seq<Recommendation>, f: Option<Recommendation>,
    a: seq<Recommendation>, b: seq<Recommendation>, c: seq<Recommendation>)
    requires r == OptionToSeq(f) + a + b + c
    requires f.Some? ==> f.value.kind == PillarFocus
    requires forall x :: x in a ==> x.kind != PillarFocus
    requires forall x :: x in b ==> x.kind != PillarFocus
    requires forall x :: x in c ==> x.kind != PillarFocus
    ensures (exists x :: x in r && x.kind == PillarFocus) <==> f.Some?
  {
    if f.Some? {
      assert r[0] == f.value;
    }
  }

  /** Sum of the scores. */
  function SumScores(ps: seq<PillarScore>): int
  {
    if |ps| == 0 then 0 else SumScores(ps[..|ps| - 1]) + ps[|ps| - 1].score
  }

  lemma {:induction false} SumScoresBounds(ps: seq<PillarScore>)
    requires forall i :: 0 <= i < |ps| ==> 0 <= ps[i].score <= 100
    ensures 0 <= SumScores(ps) <= 100 * |ps|
    ensures SumScores(ps) == 0 ==> forall i :: 0 <= i < |ps| ==> ps[i].score == 0
  {
    if |ps| > 0 {
      SumScoresBounds(ps[..|ps| - 1]);
    }
  }

  /** The assembled summary (`UserInsights`). */
  datatype UserInsights = UserInsights(
    overallScore: int,
    pillarScores: seq<PillarScore>,
    strongestPillar: Option<Pillar>,
    weakestPillar: Option<Pillar>,
    bestTimeOfDay: Option<TimeSlot>,
    bestDayOfWeek: Option<nat>,
    streakStats: StreakStats,
    recommendations: seq<Recommendation>)

  /** The overall score: the rounded mean of the pillar scores. */
  function OverallScore(ps: seq<PillarScore>): (o: int)
    requires forall i :: 0 <= i < |ps| ==> 0 <= ps[i].score <= 100
    ensures 0 <= o <= 100
    ensures |ps| == 0 ==> o == 0
    ensures |ps| > 0 ==> |ps| * (2 * o - 1) <= 2 * SumScores(ps) < |ps| * (2 * o + 1)
  {
    if |ps| == 0 then 0
    else
      SumScoresBounds(ps);
      RoundDivWithin(SumScores(ps), |ps|, 0, 100);
      RoundDiv(SumScores(ps), |ps|)
  }

  /** The strongest pillar: the first of the maximal scores, reported only
      when it is above zero. */
  function Strongest(ps: seq<PillarScore>): (r: Option<Pillar>)
    requires forall i :: 0 <= i < |ps| ==> 0 <= ps[i].score
    ensures r.None? <==> forall i :: 0 <= i < |ps| ==> ps[i].score == 0
    ensures r.Some? ==> exists i :: (0 <= i < |ps| && ps[i].pillar == r.value &&
      (forall j :: 0 <= j < |ps| ==> ps[j].score <= ps[i].score) &&
      (forall j :: 0 <= j < i ==> ps[j].score < ps[i].score))
  {
    if |ps| == 0 then None
    else
      var i := FirstMaxIndex(ps);
      if ps[i].score > 0 then Some(ps[i].pillar) else None
  }

  /** The weakest pillar: the last of the minimal scores, reported only when
      that pillar has an active habit. */
  function Weakest(ps: seq<PillarScore>): (r: Option<Pillar>)
    ensures r.Some? ==> exists i :: (0 <= i < |ps| && ps[i].pillar == r.value && ps[i].habitCount > 0 &&
      (forall j :: 0 <= j < |ps| ==> ps[i].score <= ps[j].score) &&
      (forall j :: i < j < |ps| ==> ps[i].score < ps[j].score))
    ensures r.None? ==> |ps| == 0 || exists i :: (0 <= i < |ps| && ps[i].habitCount == 0 &&
      (forall j :: 0 <= j < |ps| ==> ps[i].score <= ps[j].score) &&
      (forall j :: i < j < |ps| ==> ps[i].score < ps[j].score))
  {
    if |ps| == 0 then None
    else
      var i := LastMinIndex(ps);
      if ps[i].habitCount > 0 then Some(ps[i].pillar) else None
  }

  /** The best time of day, reported only when it holds more than 40%. */
  function BestTime(t: TimeShares): (r: Option<TimeSlot>)
    ensures r.Some? ==> r.value == BestSlot(t)
    ensures r.Some? ==> Share(t, r.value) > 40 && forall s :: Share(t, s) <= Share(t, r.value)
    ensures r.None? <==> forall s :: Share(t, s) <= 40
  {
    var best := BestSlot(t);
    if Share(t, best) > 40 then Some(best) else None
  }

  /** `getUserInsights`, over the 30-day window. */
  function GetUserInsights(
    habits: seq<HabitRow>, completions: seq<string>, stamps: seq<Instant>,
    profile: Option<Streak.StreakRow>, cs: seq<Correlation>, stacks: seq<HabitStack>): (u: UserInsights)
    ensures u.pillarScores == CalculatePillarScores(habits, completions, WindowDays)
    ensures u.overallScore == OverallScore(u.pillarScores)
    ensures u.strongestPillar == Strongest(u.pillarScores)
    ensures u.weakestPillar == Weakest(u.pillarScores)
    ensures u.bestTimeOfDay == BestTime(AnalyzeBestTimeOfDay(stamps))
    ensures u.bestDayOfWeek.None?
    ensures u.streakStats == AnalyzeStreakPatterns(profile)
    ensures u.recommendations == GenerateRecommendations(u.pillarScores, AnalyzeBestTimeOfDay(stamps), cs, stacks)
  {
    var ps := CalculatePillarScores(habits, completions, WindowDays);
    var t := AnalyzeBestTimeOfDay(stamps);
    UserInsights(OverallScore(ps), ps, Strongest(ps), Weakest(ps), BestTime(t), None,
      AnalyzeStreakPatterns(profile), GenerateRecommendations(ps, t, cs, stacks))
  }

  /** A user without active habits has an overall score of 0, no strongest
      and no weakest pillar. */
  lemma NoHabitsInsights(completions: seq<string>, stamps: seq<Instant>,
    profile: Option<Streak.StreakRow>, cs: seq<Correlation>, stacks: seq<HabitStack>)
    ensures var u := GetUserInsights([], completions, stamps, profile, cs, stacks);
      u.overallScore == 0 && u.strongestPillar.None? && u.weakestPillar.None?
  {
    var ps := CalculatePillarScores([], completions, WindowDays);
    NoScoresNoPillars(ps);
  }

  /** All-zero entries without habits give overall score 0 and neither a
      strongest nor a weakest pillar. */
  lemma NoScoresNoPillars(ps: seq<PillarScore>)
    requires forall i :: 0 <= i < |ps| ==> ps[i].score == 0 && ps[i].habitCount == 0
    ensures OverallScore(ps) == 0 && Strongest(ps).None? && Weakest(ps).None?
  {
    ZeroSum(ps);
    if |ps| > 0 {
      MulCancelLt(|ps|, 2 * OverallScore(ps) - 1, 0);
      MulCancelLt(|ps|, 0, 2 * OverallScore(ps) + 1);
    }
  }

  lemma {:induction false} ZeroSum(ps: seq<PillarScore>)
    requires forall i :: 0 <= i < |ps| ==> ps[i].score == 0
    ensures SumScores(ps) == 0
  {
    if |ps| > 0 {
      ZeroSum(ps[..|ps| - 1]);
    }
  }

  /** XP multiplier tiers, in tenths: below 30 gives 1.5, below 60 gives 1.2,
      otherwise 1.0. */
  function MultiplierTier(score: int): (m: int)
    ensures m == 15 || m == 12 || m == 10
    ensures m == 15 <==> score < 30
    ensures m == 12 <==> 30 <= score < 60
    ensures m == 10 <==> score >= 60
  {
    if score < 30 then 15 else if score < 60 then 12 else 10
  }

  /** Weaker pillars never get a smaller multiplier. */
  lemma MultiplierNonIncreasing(s1: int, s2: int)
    requires s1 <= s2
    ensures MultiplierTier(s1) >= MultiplierTier(s2)
  {
  }

  /** Assign each entry's tier to its pillar, later entries overwriting. */
  function AssignTiers(ps: seq<PillarScore>): (m: map<Pillar, int>)
    ensures forall p :: p in m <==> exists i :: 0 <= i < |ps| && ps[i].pillar == p
  {
    if |ps| == 0 then map[]
    else
      var last := ps[|ps| - 1];
      var m := AssignTiers(ps[..|ps| - 1]);
      assert forall i :: 0 <= i < |ps| - 1 ==> ps[..|ps| - 1][i] == ps[i];
      m[last.pillar := MultiplierTier(last.score)]
  }

  /** An entry that no later entry overwrites decides its pillar's tier. */
  lemma {:induction false} AssignTiersLast(ps: seq<PillarScore>, i: nat)
    requires i < |ps|
    requires forall j :: i < j < |ps| ==> ps[j].pillar != ps[i].pillar
    ensures ps[i].pillar in AssignTiers(ps)
    ensures AssignTiers(ps)[ps[i].pillar] == MultiplierTier(ps[i].score)
  {
    if i < |ps| - 1 {
      var init := ps[..|ps| - 1];
      assert init[i] == ps[i];
      assert forall j :: i < j < |init| ==> init[j] == ps[j];
      AssignTiersLast(init, i);
    }
  }

  /** `getXPMultipliers`: a stored custom table wins verbatim; otherwise the
      tiers of the current pillar scores. */
  function GetXPMultipliers(custom: Option<map<Pillar, int>>, habits: seq<HabitRow>, completions: seq<string>)
    : (m: map<Pillar, int>)
    ensures custom.Some? ==> m == custom.value
    ensures custom.None? ==> m == AssignTiers(CalculatePillarScores(habits, completions, WindowDays))
  {
    if custom.Some? then custom.value
    else AssignTiers(CalculatePillarScores(habits, completions, WindowDays))
  }

  /** Every pillar has exactly one entry in the scores, holding its score. */
  lemma PillarScoresCover(habits: seq<HabitRow>, completions: seq<string>, days: int, p: Pillar)
    returns (i: nat)
    ensures var ps := CalculatePillarScores(habits, completions, days);
      i < |ps| && ps[i] == ScoreFor(p, habits, completions, days) &&
      forall j :: i < j < |ps| ==> ps[j].pillar != p
  {
    var ps := CalculatePillarScores(habits, completions, days);
    AllPillarsListsEachOnce(p);
    i :| 0 <= i < |AllPillars| && AllPillars[i] == p;
    forall j | i < j < |ps|
      ensures ps[j].pillar != p
    {
      assert ps[j].pillar == AllPillars[j];
    }
  }

  /** Without a custom table, every pillar gets the tier of its own score. */
  lemma DynamicMultipliers(habits: seq<HabitRow>, completions: seq<string>, p: Pillar)
    ensures var m := GetXPMultipliers(None, habits, completions);
      p in m && m[p] == MultiplierTier(ScoreFor(p, habits, completions, WindowDays).score)
  {
    var i := PillarScoresCover(habits, completions, WindowDays, p);
    AssignTiersLast(CalculatePillarScores(habits, completions, WindowDays), i);
  }
}

=== FILE: leveling.dfy ===
/** The leveling curve: how many experience points each level costs, and how a
    running XP total maps to a level and the XP already earned inside it. */
module Leveling {
  import opened Common

  /** The curve point for exponent n, with d = 2^n: q is the floor of
      100 * 1.5^n and r the remainder, so q * d + r == 100 * 3^n. Each step
      multiplies by 3/2 exactly, carrying the remainder, so that no rounding
      creeps in and only halving is needed. */
  datatype CurvePoint = CurvePoint(q: nat, r: nat, d: nat)

  /** Multiply the point by 3/2: halve 3q, and fold the odd half plus three
      remainders into the new remainder, carrying one unit when it overflows. */
  function CurveStep(p: CurvePoint): (c: CurvePoint)
    ensures c.q >= p.q + p.q / 2
  {
    var s := 3 * p.r + (if (3 * p.q) % 2 == 1 then p.d else 0);
    if s >= 2 * p.d then CurvePoint(3 * p.q / 2 + 1, s - 2 * p.d, 2 * p.d)
    else CurvePoint(3 * p.q / 2, s, 2 * p.d)
  }

  lemma CurveStepExact(p: CurvePoint)
    requires p.r < p.d
    ensures CurveStep(p).d == 2 * p.d
    ensures CurveStep(p).r < CurveStep(p).d
    ensures CurveStep(p).q * CurveStep(p).d + CurveStep(p).r == 3 * (p.q * p.d + p.r)
  {
    var h := 3 * p.q / 2;
    var c := CurveStep(p);
    var odd := if (3 * p.q) % 2 == 1 then p.d else 0;
    // h * 2d + odd == 3q * d
    MulAssoc(2, h, p.d);
    MulAssoc(3, p.q, p.d);
    if (3 * p.q) % 2 == 1 {
      assert 3 * p.q == 2 * h + 1;
      MulDistrib(2 * h, 1, p.d);
    } else {
      assert 3 * p.q == 2 * h;
    }
    assert h * (2 * p.d) + odd == 3 * (p.q * p.d);
    if c.q == h + 1 {
      MulDistrib(h, 1, 2 * p.d);
    }
  }

  /** The starting point 100 * 1.5^0. */
  const CurveStart: CurvePoint := CurvePoint(100, 0, 1)

  /** Apply `n` steps to `p`. Iterating from a constant start keeps every
      intermediate point a constant whenever `n` is one. */
  function CurveIterate(n: nat, p: CurvePoint): (c: CurvePoint)
    ensures c.q >= p.q
  {
    if n == 0 then p else CurveIterate(n - 1, CurveStep(p))
  }

  /** Iterating once more is the same as stepping the result. */
  lemma {:induction false} CurveIterateLast(n: nat, p: CurvePoint)
    ensures CurveIterate(n + 1, p) == CurveStep(CurveIterate(n, p))
  {
    if n > 0 {
      CurveIterateLast(n - 1, CurveStep(p));
    }
  }

  /** Iterating keeps the exact fraction: from 100 * 3^k / 2^k the point
      after n steps is 100 * 3^(k+n) / 2^(k+n). */
  lemma {:induction false} CurveIterateExact(n: nat, p: CurvePoint, k: nat)
    requires p.d == Pow(2, k) && p.r < p.d && p.q * p.d + p.r == 100 * Pow(3, k)
    ensures CurveIterate(n, p).d == Pow(2, k + n)
    ensures CurveIterate(n, p).r < CurveIterate(n, p).d
    ensures CurveIterate(n, p).q * CurveIterate(n, p).d + CurveIterate(n, p).r == 100 * Pow(3, k + n)
  {
    if n > 0 {
      CurveStepExact(p);
      var c := CurveStep(p);
      assert c.q * c.d + c.r == 100 * Pow(3, k + 1);
      CurveIterateExact(n - 1, c, k + 1);
    }
  }

  /** XP needed to complete `level`: floor(100 * 1.5^(level-1)). */
  function XPForLevel(level: nat): (xp: nat)
    requires level >= 1
    ensures xp >= 100
  {
    CurveIterate(level - 1, CurveStart).q
  }

  /** The curve in closed form: 100 * 3^(level-1) div 2^(level-1). */
  lemma XPForLevelFormula(level: nat)
    requires level >= 1
    ensures Pow(2, level - 1) > 0
    ensures XPForLevel(level) == 100 * Pow(3, level - 1) / Pow(2, level - 1)
  {
    CurveIterateExact(level - 1, CurveStart, 0);
    var c := CurveIterate(level - 1, CurveStart);
    DivUnique(100 * Pow(3, level - 1), c.d, c.q, c.r);
  }

  /** Each level costs at least 50 XP more than the one before it, so the
      curve is strictly increasing. */
  lemma XPForLevelGrows(level: nat)
    requires level >= 1
    ensures XPForLevel(level + 1) >= XPForLevel(level) + 50
  {
    CurveIterateLast(level - 1, CurveStart);
  }

  lemma XPForLevelFirstTwo()
    ensures XPForLevel(1) == 100 && XPForLevel(2) == 150
  {
  }

  /** XP for one level is strictly increasing in the level. */
  lemma {:induction false} XPForLevelStrictlyIncreasing(l1: nat, l2: nat)
    requires 1 <= l1 < l2
    ensures XPForLevel(l1) < XPForLevel(l2)
    decreases l2 - l1
  {
    XPForLevelGrows(l1);
    if l1 + 1 < l2 {
      XPForLevelStrictlyIncreasing(l1 + 1, l2);
    }
  }

  /** Total XP that has to be earned before `level` is reached. */
  function CumulativeXP(level: nat): nat
    requires level >= 1
  {
    if level == 1 then 0 else CumulativeXP(level - 1) + XPForLevel(level - 1)
  }

  /** Reaching a higher level always costs strictly more in total. */
  lemma {:induction false} CumulativeXPGrows(l1: nat, l2: nat)
    requires 1 <= l1 < l2
    ensures CumulativeXP(l1) + XPForLevel(l1) <= CumulativeXP(l2)
    decreases l2 - l1
  {
    if l1 + 1 < l2 {
      CumulativeXPGrows(l1 + 1, l2);
    }
  }

  /** Result of `getLevelFromXP`, without the floating-point `progress`. */
  datatype LevelInfo = LevelInfo(level: nat, currentXP: int, nextLevelXP: nat)

  /** The level loop from `level` on, with `acc` the XP consumed by the levels
      before it: stop at the first level whose cost would overshoot. */
  function LevelFrom(totalXP: int, level: nat, acc: int): (r: LevelInfo)
    requires level >= 1 && acc == CumulativeXP(level)
    requires level > 1 ==> acc <= totalXP
    ensures r.level >= level
    ensures r.nextLevelXP == XPForLevel(r.level)
    ensures totalXP == CumulativeXP(r.level) + r.currentXP
    ensures r.currentXP < r.nextLevelXP
    ensures acc <= totalXP ==> 0 <= r.currentXP
    ensures totalXP < acc ==> r.level == level
    decreases totalXP - acc
  {
    var need := XPForLevel(level);
    if acc + need > totalXP then LevelInfo(level, totalXP - acc, need)
    else LevelFrom(totalXP, level + 1, acc + need)
  }

  /** The level every account starts at. */
  const FirstLevel: nat := 1

  /** `getLevelFromXP`: the level a running XP total has reached. */
  function LevelFromXP(totalXP: int): (r: LevelInfo)
    ensures r.level >= 1
    ensures r.nextLevelXP == XPForLevel(r.level)
    ensures totalXP == CumulativeXP(r.level) + r.currentXP
    ensures r.currentXP < r.nextLevelXP
    ensures totalXP >= 0 ==> 0 <= r.currentXP
    ensures totalXP < 0 ==> r.level == 1
  {
    LevelFrom(totalXP, FirstLevel, 0)
  }

  /** The same computation as the source's `while (true)` loop. */
  method GetLevelFromXP(totalXP: int) returns (r: LevelInfo)
    ensures r == LevelFromXP(totalXP)
    ensures r.level >= 1 && r.currentXP < r.nextLevelXP == XPForLevel(r.level)
    ensures totalXP >= 0 ==> 0 <= r.currentXP && totalXP == CumulativeXP(r.level) + r.currentXP
  {
    var level: nat := 1;
    var acc := 0;
    while true
      invariant level >= 1 && acc == CumulativeXP(level)
      invariant level > 1 ==> acc <= totalXP
      invariant LevelFrom(totalXP, level, acc) == LevelFromXP(totalXP)
      decreases totalXP - acc
    {
      var need := XPForLevel(level);
      if acc + need > totalXP {
        return LevelInfo(level, totalXP - acc, need);
      }
      acc := acc + need;
      level := level + 1;
    }
  }

  /** Started at or below `level`, the level loop runs up to `level` and
      stops there whenever the total lies in that level's band. */
  lemma {:induction false} LevelFromStopsInBand(totalXP: int, from: nat, acc: int, level: nat)
    requires 1 <= from <= level && acc == CumulativeXP(from) && acc <= totalXP
    requires CumulativeXP(level) <= totalXP < CumulativeXP(level) + XPForLevel(level)
    ensures LevelFrom(totalXP, from, acc).level == level
    decreases level - from
  {
    if from < level {
      CumulativeXPGrows(from, level);
      LevelFromStopsInBand(totalXP, from + 1, acc + XPForLevel(from), level);
    }
  }

  /** Left inverse: the XP total that sits `k` points into `level` is reported
      as exactly that level; by `LevelFromXP`'s contract its `currentXP` is
      then `k` and its `nextLevelXP` the level's cost. */
  lemma LevelFromCumulativeXP(level: nat, k: int)
    requires level >= 1
    requires 0 <= k < XPForLevel(level)
    ensures LevelFromXP(CumulativeXP(level) + k).level == level
  {
    var t := CumulativeXP(level) + k;
    assert LevelFrom(t, FirstLevel, 0).level == level by {
      LevelFromStopsInBand(t, FirstLevel, 0, level);
    }
  }

  /** More XP never means a lower level. */
  lemma LevelMonotone(x: int, y: int)
    requires x <= y
    ensures LevelFromXP(x).level <= LevelFromXP(y).level
  {
    var rx, ry := LevelFromXP(x), LevelFromXP(y);
    if rx.level > ry.level {
      CumulativeXPGrows(ry.level, rx.level);
    }
  }

  /** The loop inlined in the client store's `addXP`: subtract each level's
      cost from the remaining XP while it is affordable. */
  function LevelBySubtraction(remaining: int, level: nat): (l: nat)
    requires level >= 1
    decreases remaining
  {
    var need := XPForLevel(level);
    if remaining >= need then LevelBySubtraction(remaining - need, level + 1) else level
  }

  /** The subtracting loop and the accumulating loop stop at the same level. */
  lemma {:induction false} SubtractionMatchesAccumulation(totalXP: int, level: nat, acc: int)
    requires level >= 1 && acc == CumulativeXP(level)
    requires level > 1 ==> acc <= totalXP
    ensures LevelBySubtraction(totalXP - acc, level) == LevelFrom(totalXP, level, acc).level
    decreases totalXP - acc
  {
    var need := XPForLevel(level);
    if acc + need <= totalXP {
      SubtractionMatchesAccumulation(totalXP, level + 1, acc + need);
    }
  }

  /** The store's inlined curve agrees with `getLevelFromXP` for every XP value. */
  lemma StoreCurveAgrees(xp: int)
    ensures LevelBySubtraction(xp, 1) == LevelFromXP(xp).level
  {
    SubtractionMatchesAccumulation(xp, 1, 0);
  }
}

=== FILE: streak.dfy ===
/** The server-side streak engine: the current run of completion days, the
    longest-streak record, the first-completion-of-the-day test and the
    one-off bonus paid for crossing a streak milestone. */
module Streak {
  import opened Common
  import opened Domain

  /** How far back the scan looks, counting today. */
  const ScanDays: nat := 365

  /** The set of date keys among the completions; a completion without a
      timestamp contributes nothing. */
  function DateKeys(stamps: seq<Option<Day>>): (keys: set<Day>)
    ensures forall d :: d in keys <==> Some(d) in stamps
  {
    if |stamps| == 0 then {}
    else
      var rest := DateKeys(stamps[..|stamps| - 1]);
      assert stamps == stamps[..|stamps| - 1] + [stamps[|stamps| - 1]];
      match stamps[|stamps| - 1]
      case None => rest
      case Some(d) => rest + {d}
  }

  /** The number of consecutive days present in `days`, walking back from
      `from`, looking at no more than `budget` days. */
  function CountBack(days: set<Day>, from: Day, budget: nat): (n: nat)
    ensures n <= budget
    ensures forall d :: from - n < d <= from ==> d in days
    ensures n < budget ==> from - n !in days
    decreases budget
  {
    if budget == 0 || from !in days then 0 else 1 + CountBack(days, from - 1, budget - 1)
  }

  /** The day the streak is counted back from: today, or yesterday when
      today has no completion yet (the one-day grace). */
  function StreakEnd(days: set<Day>, today: Day): Day
  {
    if today in days then today else today - 1
  }

  /** How many days the scan can still look at from the streak's end. */
  function StreakBudget(days: set<Day>, today: Day): nat
  {
    if today in days then ScanDays else ScanDays - 1
  }

  /** The run of consecutive completion days ending at `StreakEnd`, within
      the scan window: all days of the run are present and, unless the
      window is exhausted, the day before it is not. */
  function CurrentStreak(days: set<Day>, today: Day): (n: nat)
    ensures n <= StreakBudget(days, today) <= ScanDays
    ensures forall d :: StreakEnd(days, today) - n < d <= StreakEnd(days, today) ==> d in days
    ensures n < StreakBudget(days, today) ==> StreakEnd(days, today) - n !in days
  {
    CountBack(days, StreakEnd(days, today), StreakBudget(days, today))
  }

  /** Gather the date keys of a completion list into a set. */
  method CollectDays(stamps: seq<Option<Day>>) returns (dates: set<Day>)
    ensures dates == DateKeys(stamps)
  {
    dates := {};
    for j := 0 to |stamps|
      invariant dates == DateKeys(stamps[..j])
    {
      assert stamps[..j + 1][..j] == stamps[..j];
      match stamps[j]
      case Some(d) => dates := dates + {d};
      case None =>
    }
    assert stamps[..|stamps|] == stamps;
  }

  /** `calculateCurrentStreak`: collect the date keys, then scan back from
      today, letting today alone be missing. */
  method CalculateCurrentStreak(stamps: seq<Option<Day>>, today: Day) returns (streak: nat)
    ensures streak == CurrentStreak(DateKeys(stamps), today)
    ensures |stamps| == 0 ==> streak == 0
    ensures streak <= ScanDays
  {
    if |stamps| == 0 {
      return 0;
    }
    var dates := CollectDays(stamps);
    streak := 0;
    var i := 0;
    while i < ScanDays
      invariant 0 <= i <= ScanDays
      invariant i == 0 ==> streak == 0
      invariant i >= 1 ==> streak + CountBack(dates, today - i, ScanDays - i) == CurrentStreak(dates, today)
    {
      if today - i in dates {
        streak := streak + 1;
      } else if i == 0 {
        i := i + 1;
        continue;
      } else {
        break;
      }
      i := i + 1;
    }
  }

  /** Several completions on one day count once: appending another
      completion on a day already present changes nothing. */
  lemma {:induction false} RepeatedDayCountsOnce(stamps: seq<Option<Day>>, d: Day, today: Day)
    requires Some(d) in stamps
    ensures CurrentStreak(DateKeys(stamps + [Some(d)]), today) == CurrentStreak(DateKeys(stamps), today)
  {
    assert DateKeys(stamps + [Some(d)]) == DateKeys(stamps);
  }

  /** A completion without a timestamp is ignored. */
  lemma MissingStampIgnored(stamps: seq<Option<Day>>, today: Day)
    ensures CurrentStreak(DateKeys(stamps + [None]), today) == CurrentStreak(DateKeys(stamps), today)
  {
    assert DateKeys(stamps + [None]) == DateKeys(stamps);
  }

  /** A gap before yesterday ends the streak even if older days are full. */
  lemma {:induction false} GapEndsStreak(days: set<Day>, today: Day, gap: Day)
    requires gap < today - 1 && gap !in days
    ensures CurrentStreak(days, today) <= today - gap
  {
  }

  /** Completions yesterday and the day before count 2 while today is still
      open, and 3 once today is completed too. */
  lemma GraceDayExamples(today: Day)
    ensures CurrentStreak({today - 1, today - 2}, today) == 2
    ensures CurrentStreak({today, today - 1, today - 2}, today) == 3
  {
    var open, done := {today - 1, today - 2}, {today, today - 1, today - 2};
    assert today !in open && today - 3 !in open && today - 1 in open && today - 2 in open;
    assert today - 3 !in done && today in done;
  }

  /** The streak fields written back to the profile. */
  datatype StreakRow = StreakRow(currentStreak: nat, longestStreak: nat)

  /** Result of `updateUserStreak`. */
  datatype StreakUpdate = StreakUpdate(currentStreak: nat, longestStreak: nat, isNewRecord: bool)

  /** The record logic of `updateUserStreak`: the previous longest streak is
      0 when there is no profile; a new record means strictly beating it. */
  function RecordStreak(current: nat, profile: Option<StreakRow>): (u: StreakUpdate)
    ensures u.currentStreak == current
    ensures var previous := if profile.Some? then profile.value.longestStreak else 0;
      u.longestStreak >= current && u.longestStreak >= previous &&
      (u.longestStreak == current || u.longestStreak == previous) &&
      (u.isNewRecord <==> current > previous)
  {
    var previous := if profile.Some? then profile.value.longestStreak else 0;
    StreakUpdate(current, Max(current, previous), current > previous)
  }

  /** The profile after the update: a missing profile stays missing. */
  function StoredRow(u: StreakUpdate, profile: Option<StreakRow>): (row: Option<StreakRow>)
    ensures row.Some? <==> profile.Some?
    ensures row.Some? ==> row.value.currentStreak == u.currentStreak && row.value.longestStreak == u.longestStreak
  {
    if profile.Some? then Some(StreakRow(u.currentStreak, u.longestStreak)) else None
  }

  /** `updateUserStreak`: the recomputed streak, the record fields, and the
      profile row as written back. */
  function UpdateUserStreak(stamps: seq<Option<Day>>, today: Day, profile: Option<StreakRow>)
    : (result: (StreakUpdate, Option<StreakRow>))
    ensures result.0 == RecordStreak(CurrentStreak(DateKeys(stamps), today), profile)
    ensures result.1 == StoredRow(result.0, profile)
  {
    var u := RecordStreak(CurrentStreak(DateKeys(stamps), today), profile);
    (u, StoredRow(u, profile))
  }

  /** The longest streak on record never goes down. */
  lemma LongestNeverDecreases(stamps: seq<Option<Day>>, today: Day, row: StreakRow)
    ensures UpdateUserStreak(stamps, today, Some(row)).1.value.longestStreak >= row.longestStreak
  {
  }

  /** Recalculating on an unchanged completion set writes the same row again
      and reports no new record. */
  lemma {:induction false} RecalculationIsStable(stamps: seq<Option<Day>>, today: Day, row: StreakRow)
    ensures var (u1, row1) := UpdateUserStreak(stamps, today, Some(row));
      var (u2, row2) := UpdateUserStreak(stamps, today, row1);
      row2 == row1 && !u2.isNewRecord && u2.currentStreak == u1.currentStreak &&
      u2.longestStreak == u1.longestStreak
  {
  }

  /** Number of timestamps inside the query window of day `d`. */
  function WindowCount(stamps: seq<Instant>, d: Day): (n: nat)
    ensures n <= |stamps|
    ensures n == 0 <==> forall i :: 0 <= i < |stamps| ==> !InDayWindow(stamps[i], d)
  {
    if |stamps| == 0 then 0
    else WindowCount(stamps[..|stamps| - 1], d) + (if InDayWindow(stamps[|stamps| - 1], d) then 1 else 0)
  }

  /** `isFirstCompletionToday`: exactly one of the user's completions lies in
      today's window (the one just inserted). */
  predicate IsFirstCompletionToday(stamps: seq<Instant>, today: Day)
  {
    WindowCount(stamps, today) == 1
  }

  /** The positions of the stamps inside the query window of day `d`. */
  function InWindowPositions(stamps: seq<Instant>, d: Day): set<nat>
  {
    set i: nat | i < |stamps| && InDayWindow(stamps[i], d)
  }

  /** Removing the last stamp removes at most its own position. */
  lemma InWindowPositionsSnoc(stamps: seq<Instant>, d: Day)
    requires |stamps| > 0
    ensures var last := |stamps| - 1;
      var before := InWindowPositions(stamps[..last], d);
      last !in before &&
      InWindowPositions(stamps, d) == before + (if InDayWindow(stamps[last], d) then {last} else {})
  {
    var last := |stamps| - 1;
    var init := stamps[..last];
    var before := InWindowPositions(init, d);
    var added: set<nat> := if InDayWindow(stamps[last], d) then {last} else {};
    forall i | i in InWindowPositions(stamps, d)
      ensures i in before + added
    {
      if i < last { assert init[i] == stamps[i]; }
    }
    forall i | i in before + added
      ensures i in InWindowPositions(stamps, d)
    {
      if i < last { assert init[i] == stamps[i]; }
    }
  }

  /** The window count is exactly the number of stamps inside the window,
      which is what the `count: "exact"` query returns. */
  lemma {:induction false} WindowCountIsCardinality(stamps: seq<Instant>, d: Day)
    ensures WindowCount(stamps, d) == |InWindowPositions(stamps, d)|
  {
    if |stamps| > 0 {
      WindowCountIsCardinality(stamps[..|stamps| - 1], d);
      InWindowPositionsSnoc(stamps, d);
    }
  }

  /** Unfolds the count over an appended stamp. */
  lemma WindowCountAppend(stamps: seq<Instant>, t: Instant, d: Day)
    ensures WindowCount(stamps + [t], d) == WindowCount(stamps, d) + (if InDayWindow(t, d) then 1 else 0)
  {
    assert (stamps + [t])[..|stamps|] == stamps;
  }

  /** The first completion inserted into an empty window is the first of the
      day; a second one is not. */
  lemma FirstThenNotFirst(stamps: seq<Instant>, t1: Instant, t2: Instant, today: Day)
    requires WindowCount(stamps, today) == 0
    requires InDayWindow(t1, today) && InDayWindow(t2, today)
    ensures IsFirstCompletionToday(stamps + [t1], today)
    ensures !IsFirstCompletionToday(stamps + [t1] + [t2], today)
  {
    WindowCountAppend(stamps, t1, today);
    WindowCountAppend(stamps + [t1], t2, today);
  }

  /** A completion stamped in the final second of the day falls outside the
      half-open window, so it is never the first of the day. */
  lemma FinalSecondNotCounted(stamps: seq<Instant>, today: Day)
    requires WindowCount(stamps, today) == 0
    ensures !IsFirstCompletionToday(stamps + [Instant(today, SecondsPerDay - 1)], today)
  {
    WindowCountAppend(stamps, Instant(today, SecondsPerDay - 1), today);
  }

  datatype Milestone = Milestone(days: nat, xp: nat, caption: string)

  /** The streak milestones, in increasing order of days. */
  const Milestones: seq<Milestone> := [
    Milestone(3, 25, "3-day streak!"),
    Milestone(7, 50, "1 week streak!"),
    Milestone(14, 75, "2 week streak!"),
    Milestone(30, 200, "1 month streak!"),
    Milestone(60, 300, "2 month streak!"),
    Milestone(90, 500, "3 month streak!"),
    Milestone(180, 750, "6 month streak!"),
    Milestone(365, 1500, "1 year streak!")
  ]

  lemma MilestonesAscending()
    ensures forall i, j :: 0 <= i < j < |Milestones| ==> Milestones[i].days < Milestones[j].days
  {
  }

  /** The result of `getStreakBonusXP`. */
  datatype Bonus = Bonus(xp: nat, milestone: Option<string>)

  const NoBonus: Bonus := Bonus(0, None)

  /** Going from `oldStreak` to `newStreak` reaches milestone `m`. */
  predicate Crosses(oldStreak: int, newStreak: int, m: Milestone)
  {
    oldStreak < m.days <= newStreak
  }

  /** The first milestone of `ms`, at index `i` or later, that the change
      crosses. */
  function FirstCrossed(oldStreak: int, newStreak: int, ms: seq<Milestone>, i: nat): (b: Bonus)
    requires i <= |ms|
    ensures b.milestone.None? <==> forall j :: i <= j < |ms| ==> !Crosses(oldStreak, newStreak, ms[j])
    ensures b.milestone.None? ==> b == NoBonus
    ensures b.milestone.Some? ==> exists j :: (i <= j < |ms| && Crosses(oldStreak, newStreak, ms[j]) &&
      b == Bonus(ms[j].xp, Some(ms[j].caption)) &&
      forall k :: i <= k < j ==> !Crosses(oldStreak, newStreak, ms[k]))
    decreases |ms| - i
  {
    if i == |ms| then NoBonus
    else if Crosses(oldStreak, newStreak, ms[i]) then Bonus(ms[i].xp, Some(ms[i].caption))
    else FirstCrossed(oldStreak, newStreak, ms, i + 1)
  }

  /** `getStreakBonusXP`: the bonus of the first (smallest) milestone crossed,
      or nothing; at most one bonus is paid even when several are crossed. */
  function GetStreakBonusXP(oldStreak: int, newStreak: int): (b: Bonus)
    ensures b.milestone.None? <==> forall j :: 0 <= j < |Milestones| ==> !Crosses(oldStreak, newStreak, Milestones[j])
    ensures b.milestone.None? ==> b == NoBonus
    ensures b.milestone.Some? ==> exists j :: (0 <= j < |Milestones| && Crosses(oldStreak, newStreak, Milestones[j]) &&
      b == Bonus(Milestones[j].xp, Some(Milestones[j].caption)) &&
      forall k :: 0 <= k < |Milestones| && Crosses(oldStreak, newStreak, Milestones[k]) ==> Milestones[j].days <= Milestones[k].days)
  {
    MilestonesAscending();
    FirstCrossed(oldStreak, newStreak, Milestones, 0)
  }

  /** A bonus carries a caption exactly when it carries XP, since every
      milestone is worth a positive amount. */
  lemma BonusLabelledIffXP(oldStreak: int, newStreak: int)
    ensures GetStreakBonusXP(oldStreak, newStreak).milestone.Some? <==> GetStreakBonusXP(oldStreak, newStreak).xp > 0
  {
    assert forall j :: 0 <= j < |Milestones| ==> Milestones[j].xp > 0;
  }

  /** No bonus when the streak did not grow. */
  lemma NoBonusWithoutGrowth(oldStreak: int, newStreak: int)
    requires newStreak <= oldStreak
    ensures GetStreakBonusXP(oldStreak, newStreak) == NoBonus
  {
  }

  lemma BonusExampleFirstMilestone()
    ensures GetStreakBonusXP(2, 3) == Bonus(25, Some("3-day streak!"))
  {
  }

  lemma BonusExampleBetweenMilestones()
    ensures GetStreakBonusXP(3, 4) == NoBonus
  {
  }

  lemma BonusExampleSkippedDay()
    ensures GetStreakBonusXP(6, 8) == Bonus(50, Some("1 week streak!"))
  {
  }
}

=== FILE: user_store.dfy ===
/** The client-side user store: the profile, the habit list and the
    achievement list, and the reducers that update them. Each reducer is a
    function from the old state to the new one; the store's persistence,
    loading flag, error text, goals and daily statistics are not part of
    this model. */
module UserStore {
  import opened Common
  import opened Domain
  import Leveling

  /** The profile fields the reducers read or write, plus its identity. */
  datatype Profile = Profile(
    id: string,
    userId: string,
    displayName: Option<string>,
    level: int,
    xpPoints: int,
    currentStreak: int,
    longestStreak: int,
    premium: bool)

  /** An achievement as the client lists it; `unlocked` and `unlockedAt`
      are optional in the source and default to locked. */
  datatype Achievement = Achievement(id: string, key: string, xpReward: int, unlocked: bool, unlockedAt: Option<Instant>)

  datatype State = State(profile: Option<Profile>, habits: seq<Habit>, achievements: seq<Achievement>)

  /** `addXP`: add `amount` to the profile's XP and recompute the level with
      the store's own subtracting loop; without a profile nothing changes. */
  function AddXP(s: State, amount: int): (s': State)
    ensures s.profile.None? ==> s' == s
    ensures s.profile.Some? ==> (s'.profile.Some? &&
      s'.profile.value.xpPoints == s.profile.value.xpPoints + amount &&
      s'.profile.value.level == Leveling.LevelFromXP(s.profile.value.xpPoints + amount).level &&
      s'.profile.value.(xpPoints := s.profile.value.xpPoints, level := s.profile.value.level) == s.profile.value)
    ensures s'.habits == s.habits && s'.achievements == s.achievements
  {
    match s.profile
    case None => s
    case Some(p) =>
      var newXP := p.xpPoints + amount;
      Leveling.StoreCurveAgrees(newXP);
      s.(profile := Some(p.(xpPoints := newXP, level := Leveling.LevelBySubtraction(newXP, 1))))
  }

  /** Two awards in a row are the same as one award of their sum: the level
      depends only on the XP total, not on how it was reached. */
  lemma AddXPComposes(s: State, a: int, b: int)
    ensures AddXP(AddXP(s, a), b) == AddXP(s, a + b)
  {
    if s.profile.Some? {
      var p := s.profile.value;
      assert p.xpPoints + a + b == p.xpPoints + (a + b);
    }
  }

  /** A positive award never lowers the level. */
  lemma AddXPNeverLowersLevel(s: State, amount: int)
    requires s.profile.Some? && amount >= 0
    requires s.profile.value.level == Leveling.LevelFromXP(s.profile.value.xpPoints).level
    ensures AddXP(s, amount).profile.value.level >= s.profile.value.level
  {
    Leveling.LevelMonotone(s.profile.value.xpPoints, s.profile.value.xpPoints + amount);
  }

  /** `incrementStreak`: one more day, and the record follows. */
  function IncrementStreak(s: State): (s': State)
    ensures s.profile.None? ==> s' == s
    ensures s.profile.Some? ==> (s'.profile.Some? &&
      s'.profile.value.currentStreak == s.profile.value.currentStreak + 1 &&
      s'.profile.value.longestStreak >= s'.profile.value.currentStreak &&
      s'.profile.value.longestStreak >= s.profile.value.longestStreak &&
      (s'.profile.value.longestStreak == s'.profile.value.currentStreak ||
       s'.profile.value.longestStreak == s.profile.value.longestStreak) &&
      s'.profile.value.(currentStreak := s.profile.value.currentStreak,
        longestStreak := s.profile.value.longestStreak) == s.profile.value)
    ensures s'.habits == s.habits && s'.achievements == s.achievements
  {
    match s.profile
    case None => s
    case Some(p) =>
      var n := p.currentStreak + 1;
      s.(profile := Some(p.(currentStreak := n, longestStreak := Max(n, p.longestStreak))))
  }

  /** `resetStreak`: the current run drops to 0; the record stays. */
  function ResetStreak(s: State): (s': State)
    ensures s.profile.None? ==> s' == s
    ensures s.profile.Some? ==> (s'.profile.Some? && s'.profile.value.currentStreak == 0 &&
      s'.profile.value.(currentStreak := s.profile.value.currentStreak) == s.profile.value)
    ensures s'.habits == s.habits && s'.achievements == s.achievements
  {
    match s.profile
    case None => s
    case Some(p) => s.(profile := Some(p.(currentStreak := 0)))
  }

  /** The record is never below the current run. */
  predicate RecordCoversRun(s: State)
  {
    s.profile.Some? ==> s.profile.value.longestStreak >= s.profile.value.currentStreak
  }

  /** Both streak reducers keep the record at or above the current run, given
      a non-negative run. */
  lemma StreakReducersKeepRecord(s: State)
    requires RecordCoversRun(s)
    requires s.profile.Some? ==> s.profile.value.currentStreak >= 0
    ensures RecordCoversRun(IncrementStreak(s))
    ensures RecordCoversRun(ResetStreak(s))
  {
  }

  /** `addHabit`: append at the end. */
  function AddHabit(s: State, h: Habit): (s': State)
    ensures |s'.habits| == |s.habits| + 1 && s'.habits[|s.habits|] == h
    ensures forall i :: 0 <= i < |s.habits| ==> s'.habits[i] == s.habits[i]
    ensures s'.profile == s.profile && s'.achievements == s.achievements
  {
    s.(habits := s.habits + [h])
  }

  /** `Partial<Habit>`: the fields an update may overwrite. */
  datatype HabitPatch = HabitPatch(
    id: Option<string>,
    pillar: Option<Pillar>,
    name: Option<string>,
    xpReward: Option<int>,
    completions: Option<seq<Completion>>,
    archived: Option<bool>)

  /** The update with no fields. */
  const EmptyPatch: HabitPatch := HabitPatch(None, None, None, None, None, None)

  /** The spread `{ ...h, ...updates }`: present fields win, so the empty
      update leaves the habit as it is. */
  function Patch(h: Habit, u: HabitPatch): (r: Habit)
    ensures u == EmptyPatch ==> r == h
  {
    Habit(
      if u.id.Some? then u.id.value else h.id,
      if u.pillar.Some? then u.pillar.value else h.pillar,
      if u.name.Some? then u.name.value else h.name,
      if u.xpReward.Some? then u.xpReward.value else h.xpReward,
      if u.completions.Some? then u.completions.value else h.completions,
      if u.archived.Some? then u.archived.value else h.archived)
  }

  /** Patching twice with the same update is patching once. */
  lemma PatchIdempotent(h: Habit, u: HabitPatch)
    ensures Patch(Patch(h, u), u) == Patch(h, u)
  {
  }

  /** `updateHabit`: patch every habit with the id, keep the rest. */
  function UpdateHabit(s: State, id: string, u: HabitPatch): (s': State)
    ensures |s'.habits| == |s.habits|
    ensures forall i :: 0 <= i < |s.habits| ==>
      s'.habits[i] == (if s.habits[i].id == id then Patch(s.habits[i], u) else s.habits[i])
    ensures s'.profile == s.profile && s'.achievements == s.achievements
  {
    s.(habits := seq(|s.habits|, i requires 0 <= i < |s.habits| =>
      if s.habits[i].id == id then Patch(s.habits[i], u) else s.habits[i]))
  }

  /** Repeating an update that keeps the habit's id changes nothing more. */
  lemma UpdateHabitIdempotent(s: State, id: string, u: HabitPatch)
    requires u.id.None? || u.id == Some(id)
    ensures UpdateHabit(UpdateHabit(s, id, u), id, u) == UpdateHabit(s, id, u)
  {
    var once := UpdateHabit(s, id, u);
    var twice := UpdateHabit(once, id, u);
    forall i | 0 <= i < |s.habits|
      ensures twice.habits[i] == once.habits[i]
    {
      if s.habits[i].id == id {
        PatchIdempotent(s.habits[i], u);
      }
    }
  }

  /** The habits whose id differs from `id`, in their order. */
  function WithoutId(hs: seq<Habit>, id: string): (r: seq<Habit>)
    ensures |r| <= |hs|
    ensures forall h :: h in r <==> h in hs && h.id != id
  {
    if |hs| == 0 then []
    else
      var rest := WithoutId(hs[..|hs| - 1], id);
      var last := hs[|hs| - 1];
      assert hs == hs[..|hs| - 1] + [last];
      if last.id != id then rest + [last] else rest
  }

  /** Removing from a concatenation removes from each part, so the kept
      habits stay in their original order. */
  lemma {:induction false} WithoutIdConcat(a: seq<Habit>, b: seq<Habit>, id: string)
    ensures WithoutId(a + b, id) == WithoutId(a, id) + WithoutId(b, id)
    decreases |b|
  {
    if |b| > 0 {
      var b' := b[..|b| - 1];
      assert (a + b)[..|a + b| - 1] == a + b';
      WithoutIdConcat(a, b', id);
    } else {
      assert a + b == a;
    }
  }

  /** A list without the id is left as it is. */
  lemma {:induction false} WithoutIdAbsent(hs: seq<Habit>, id: string)
    requires forall i :: 0 <= i < |hs| ==> hs[i].id != id
    ensures WithoutId(hs, id) == hs
  {
    if |hs| > 0 {
      WithoutIdAbsent(hs[..|hs| - 1], id);
      assert hs == hs[..|hs| - 1] + [hs[|hs| - 1]];
    }
  }

  /** `removeHabit`: drop every habit with the id. */
  function RemoveHabit(s: State, id: string): (s': State)
    ensures forall h :: h in s'.habits <==> h in s.habits && h.id != id
    ensures s'.profile == s.profile && s'.achievements == s.achievements
  {
    s.(habits := WithoutId(s.habits, id))
  }

  /** Adding a habit and removing its id drops it together with every
      earlier habit of that id, and keeps the others in order. */
  lemma AddThenRemove(s: State, h: Habit)
    ensures RemoveHabit(AddHabit(s, h), h.id) == RemoveHabit(s, h.id)
  {
    WithoutIdConcat(s.habits, [h], h.id);
    assert [h][..0] == [];
  }

  /** The first habit with the id (`find`). */
  function FindHabit(hs: seq<Habit>, id: string): (r: Option<nat>)
    ensures r.None? <==> forall i :: 0 <= i < |hs| ==> hs[i].id != id
    ensures r.Some? ==> (r.value < |hs| && hs[r.value].id == id &&
      forall j :: 0 <= j < r.value ==> hs[j].id != id)
  {
    if |hs| == 0 then None
    else if hs[0].id == id then Some(0)
    else
      match FindHabit(hs[1..], id)
      case None => None
      case Some(k) => Some(k + 1)
  }

  /** `completeHabit`: award the first matching habit's reward through
      `addXP`; an unknown id changes nothing. */
  function CompleteHabit(s: State, id: string): (s': State)
    ensures FindHabit(s.habits, id).None? ==> s' == s
    ensures FindHabit(s.habits, id).Some? ==> s' == AddXP(s, s.habits[FindHabit(s.habits, id).value].xpReward)
  {
    match FindHabit(s.habits, id)
    case None => s
    case Some(i) => AddXP(s, s.habits[i].xpReward)
  }

  /** Completing a listed habit raises the profile's XP by exactly that
      habit's reward and changes nothing else but the level. */
  lemma CompleteHabitAwardsReward(s: State, i: nat)
    requires i < |s.habits| && s.profile.Some?
    requires forall j :: 0 <= j < i ==> s.habits[j].id != s.habits[i].id
    ensures var s' := CompleteHabit(s, s.habits[i].id);
      s'.profile.Some? && s'.profile.value.xpPoints == s.profile.value.xpPoints + s.habits[i].xpReward &&
      s'.habits == s.habits && s'.achievements == s.achievements
  {
    var f := FindHabit(s.habits, s.habits[i].id);
    assert f.value == i;
  }

  /** `unlockAchievement`: mark every achievement with the id unlocked,
      stamped `now`; the others stay as they were. */
  function UnlockAchievement(s: State, id: string, now: Instant): (s': State)
    ensures |s'.achievements| == |s.achievements|
    ensures forall i :: 0 <= i < |s.achievements| && s.achievements[i].id == id ==>
      s'.achievements[i].unlocked && s'.achievements[i].unlockedAt == Some(now) &&
      s'.achievements[i].(unlocked := s.achievements[i].unlocked, unlockedAt := s.achievements[i].unlockedAt) ==
        s.achievements[i]
    ensures forall i :: 0 <= i < |s.achievements| && s.achievements[i].id != id ==>
      s'.achievements[i] == s.achievements[i]
    ensures s'.profile == s.profile && s'.habits == s.habits
  {
    s.(achievements := seq(|s.achievements|, i requires 0 <= i < |s.achievements| =>
      if s.achievements[i].id == id then s.achievements[i].(unlocked := true, unlockedAt := Some(now))
      else s.achievements[i]))
  }

  /** Unlocking again only moves the timestamp to the later call. */
  lemma UnlockTwice(s: State, id: string, t1: Instant, t2: Instant)
    ensures UnlockAchievement(UnlockAchievement(s, id, t1), id, t2) == UnlockAchievement(s, id, t2)
  {
    var a := UnlockAchievement(UnlockAchievement(s, id, t1), id, t2);
    var b := UnlockAchievement(s, id, t2);
    assert a.achievements == b.achievements;
  }
}

=== FILE: utils.dfy ===
/** The shared helpers: the older streak count without a grace day, the
    second copy of the level curve, and the time-of-day greeting. */
module Utils {
  import opened Common
  import opened Domain
  import Streak
  import Leveling

  /** One entry of the input list: a day and whether it was completed. */
  datatype Entry = Entry(date: Day, completed: bool)

  /** Dates never increase along the list. */
  predicate DateDescending(es: seq<Entry>)
  {
    forall i, j :: 0 <= i < j < |es| ==> es[i].date >= es[j].date
  }

  /** The entries of one date, in list order. */
  function OnDate(es: seq<Entry>, d: Day): (r: seq<Entry>)
    ensures |r| <= |es|
  {
    if |es| == 0 then []
    else (if es[0].date == d then [es[0]] else []) + OnDate(es[1..], d)
  }

  /** Insert `x`, which came earlier in the input than every entry of `es`,
      after the strictly newer entries and before the equal-dated ones. */
  function InsertByDate(x: Entry, es: seq<Entry>): (r: seq<Entry>)
    ensures |r| == |es| + 1
  {
    if |es| == 0 then [x]
    else if es[0].date > x.date then [es[0]] + InsertByDate(x, es[1..])
    else [x] + es
  }

  /** Inserting puts `x` in front of the entries of its own date. */
  lemma {:induction false} InsertByDateStable(x: Entry, es: seq<Entry>, d: Day)
    ensures OnDate(InsertByDate(x, es), d) == (if x.date == d then [x] else []) + OnDate(es, d)
  {
    if |es| > 0 && es[0].date > x.date {
      InsertByDateStable(x, es[1..], d);
      var r := InsertByDate(x, es);
      assert r[0] == es[0] && r[1..] == InsertByDate(x, es[1..]);
    }
  }

  lemma InsertByDateStableAll(x: Entry, es: seq<Entry>)
    ensures forall d :: OnDate(InsertByDate(x, es), d) == (if x.date == d then [x] else []) + OnDate(es, d)
  {
    forall d {
      InsertByDateStable(x, es, d);
    }
  }

  lemma {:induction false} InsertByDatePermutes(x: Entry, es: seq<Entry>)
    ensures multiset(InsertByDate(x, es)) == multiset(es) + multiset{x}
  {
    if |es| > 0 {
      assert es == [es[0]] + es[1..];
      if es[0].date >= x.date {
        InsertByDatePermutes(x, es[1..]);
      }
    }
  }

  lemma {:induction false} InsertByDateSorted(x: Entry, es: seq<Entry>)
    requires DateDescending(es)
    ensures DateDescending(InsertByDate(x, es))
  {
    if |es| > 0 && es[0].date > x.date {
      var rest := InsertByDate(x, es[1..]);
      InsertByDateSorted(x, es[1..]);
      InsertByDatePermutes(x, es[1..]);
      forall y | y in rest
        ensures es[0].date >= y.date
      {
        assert y in multiset(rest);
      }
      assert InsertByDate(x, es) == [es[0]] + rest;
    }
  }

  /** The stable sort by date, newest first: a descending permutation that
      keeps the entries of each date in their input order. */
  function SortByDateDesc(es: seq<Entry>): (r: seq<Entry>)
    ensures DateDescending(r)
    ensures multiset(r) == multiset(es)
    ensures |r| == |es|
    ensures forall d :: OnDate(r, d) == OnDate(es, d)
  {
    if |es| == 0 then []
    else
      assert es == [es[0]] + es[1..];
      InsertByDateSorted(es[0], SortByDateDesc(es[1..]));
      InsertByDatePermutes(es[0], SortByDateDesc(es[1..]));
      InsertByDateStableAll(es[0], SortByDateDesc(es[1..]));
      InsertByDate(es[0], SortByDateDesc(es[1..]))
  }

  /** Entry `i` of the sorted list continues the run: it is dated `i` days
      before today and completed. */
  predicate Continues(sorted: seq<Entry>, today: Day, i: int)
    requires 0 <= i < |sorted|
  {
    sorted[i].date == today - i && sorted[i].completed
  }

  /** The length of the prefix of `sorted`, from `i` on, that continues the
      run day by day. */
  function RunFrom(sorted: seq<Entry>, today: Day, i: nat): (n: nat)
    requires i <= |sorted|
    ensures i + n <= |sorted|
    ensures forall k :: i <= k < i + n ==> Continues(sorted, today, k)
    ensures i + n < |sorted| ==> !Continues(sorted, today, i + n)
    decreases |sorted| - i
  {
    if i < |sorted| && Continues(sorted, today, i) then 1 + RunFrom(sorted, today, i + 1) else 0
  }

  /** The no-grace streak of an entry list. */
  function NoGraceStreak(entries: seq<Entry>, today: Day): (n: nat)
    ensures n <= |entries|
  {
    RunFrom(SortByDateDesc(entries), today, 0)
  }

  /** `calculateStreak`: sort newest first, then count while entry `i` is
      the completed entry of `today - i`. */
  method CalculateStreak(entries: seq<Entry>, today: Day) returns (streak: nat)
    ensures streak == NoGraceStreak(entries, today)
    ensures |entries| == 0 ==> streak == 0
  {
    if |entries| == 0 {
      return 0;
    }
    var sorted := SortByDateDesc(entries);
    streak := 0;
    var i := 0;
    while i < |sorted|
      invariant 0 <= i <= |sorted| && streak == i
      invariant RunFrom(sorted, today, 0) == i + RunFrom(sorted, today, i)
    {
      if sorted[i].date == today - i && sorted[i].completed {
        streak := streak + 1;
      } else {
        break;
      }
      i := i + 1;
    }
  }

  /** There is no grace day: without a completed entry dated today the
      streak is 0. */
  lemma NoEntryTodayGivesZero(entries: seq<Entry>, today: Day)
    requires forall i :: 0 <= i < |entries| ==> !(entries[i].date == today && entries[i].completed)
    ensures NoGraceStreak(entries, today) == 0
  {
    var sorted := SortByDateDesc(entries);
    if |sorted| > 0 {
      assert sorted[0] in multiset(entries);
    }
  }

  /** The days that have a completed entry. */
  predicate CompletedOnDay(entries: seq<Entry>, d: Day)
  {
    exists i :: 0 <= i < |entries| && entries[i].date == d && entries[i].completed
  }

  /** Every day the no-grace streak counts has a completed entry. */
  lemma {:induction false} NoGraceDaysCompleted(entries: seq<Entry>, today: Day, k: int)
    requires 0 <= k < NoGraceStreak(entries, today)
    ensures CompletedOnDay(entries, today - k)
  {
    var sorted := SortByDateDesc(entries);
    assert Continues(sorted, today, k);
    assert sorted[k] in multiset(entries);
    var j :| 0 <= j < |entries| && entries[j] == sorted[k];
  }

  /** A run of `n` present days ending at `from` gives a count of at least
      `n`, up to the budget. */
  lemma {:induction false} CountBackAtLeast(days: set<Day>, from: Day, budget: nat, n: nat)
    requires forall d :: from - n < d <= from ==> d in days
    ensures Streak.CountBack(days, from, budget) >= Min(n, budget)
    decreases budget
  {
    if budget > 0 && n > 0 {
      assert from in days;
      CountBackAtLeast(days, from - 1, budget - 1, n - 1);
    }
  }

  /** The completed entries' days, as the streak engine sees them. */
  function CompletedDays(entries: seq<Entry>): (ds: seq<Option<Day>>)
    ensures |ds| == |entries|
    ensures forall d :: Some(d) in ds <==> CompletedOnDay(entries, d)
  {
    if |entries| == 0 then []
    else
      var last := entries[|entries| - 1];
      var rest := CompletedDays(entries[..|entries| - 1]);
      assert forall i :: 0 <= i < |entries| - 1 ==> entries[..|entries| - 1][i] == entries[i];
      rest + [if last.completed then Some(last.date) else None]
  }

  /** The streak engine, with its grace day, never counts fewer days than the
      no-grace variant, up to its 365-day scan. */
  lemma NoGraceAtMostEngine(entries: seq<Entry>, today: Day)
    ensures Min(NoGraceStreak(entries, today), Streak.ScanDays) <=
      Streak.CurrentStreak(Streak.DateKeys(CompletedDays(entries)), today)
  {
    var n := NoGraceStreak(entries, today);
    var days := Streak.DateKeys(CompletedDays(entries));
    if n > 0 {
      forall d | today - n < d <= today
        ensures d in days
      {
        NoGraceDaysCompleted(entries, today, today - d);
      }
      CountBackAtLeast(days, today, Streak.ScanDays, n);
    }
  }

  /** With only yesterday completed, the engine's grace day keeps a streak of
      one while the no-grace count is already 0. */
  lemma GraceDayDiffers(today: Day)
    ensures NoGraceStreak([Entry(today - 1, true)], today) == 0
    ensures Streak.CurrentStreak(Streak.DateKeys(CompletedDays([Entry(today - 1, true)])), today) == 1
  {
    var days := Streak.DateKeys(CompletedDays([Entry(today - 1, true)]));
    assert Some(today - 1) in CompletedDays([Entry(today - 1, true)]);
    assert today !in days && today - 2 !in days;
  }

  /** Once sorted, an entry that is not completed, or a second entry on the
      same day as the one before it, ends the count. */
  lemma CountStopsAt(entries: seq<Entry>, today: Day, i: nat)
    requires i < |SortByDateDesc(entries)|
    ensures var sorted := SortByDateDesc(entries);
      (!sorted[i].completed ==> NoGraceStreak(entries, today) <= i) &&
      (i > 0 && sorted[i].date == sorted[i - 1].date ==> NoGraceStreak(entries, today) <= i)
  {
    var sorted := SortByDateDesc(entries);
    var n := NoGraceStreak(entries, today);
    if n > i {
      assert Continues(sorted, today, i);
      if i > 0 {
        assert Continues(sorted, today, i - 1);
      }
    }
  }

  /** Equal dates keep their input order: an incomplete entry listed before
      a completed one of the same day ends the count at once. */
  lemma EqualDatesKeepInputOrder(today: Day)
    ensures SortByDateDesc([Entry(today, false), Entry(today, true)]) == [Entry(today, false), Entry(today, true)]
    ensures NoGraceStreak([Entry(today, false), Entry(today, true)], today) == 0
    ensures NoGraceStreak([Entry(today, true), Entry(today, false)], today) == 1
  {
    var es := [Entry(today, false), Entry(today, true)];
    assert es[1..] == [Entry(today, true)];
    assert SortByDateDesc(es[1..]) == [Entry(today, true)];
    var fs := [Entry(today, true), Entry(today, false)];
    assert fs[1..] == [Entry(today, false)];
    assert SortByDateDesc(fs[1..]) == [Entry(today, false)];
    assert SortByDateDesc(fs) == fs;
    assert !Continues(fs, today, 1);
    assert RunFrom(fs, today, 1) == 0;
  }

  /** `getXPForLevel` of this file, in closed form:
      floor(100 * 1.5^(level-1)) == 100 * 3^(level-1) div 2^(level-1). It
      is the same curve as the gamification library's. */
  function XPForLevel(level: nat): (xp: nat)
    requires level >= 1
    ensures xp == Leveling.XPForLevel(level)
  {
    Leveling.XPForLevelFormula(level);
    100 * Pow(3, level - 1) / Pow(2, level - 1)
  }

  /** `getLevelFromXP` of this file: its own `while (true)` loop over its
      own curve, without a `progress` field. It reports the same level,
      XP inside the level and cost of the level as the gamification
      library's `getLevelFromXP` for every XP value. */
  method GetLevelFromXP(xp: int) returns (r: Leveling.LevelInfo)
    ensures r == Leveling.LevelFromXP(xp)
    ensures r.level >= 1 && r.currentXP < r.nextLevelXP == XPForLevel(r.level)
    ensures xp == Leveling.CumulativeXP(r.level) + r.currentXP
    ensures xp >= 0 ==> 0 <= r.currentXP
  {
    var level: nat := 1;
    var totalXP := 0;
    while true
      invariant level >= 1 && totalXP == Leveling.CumulativeXP(level)
      invariant level > 1 ==> totalXP <= xp
      invariant Leveling.LevelFrom(xp, level, totalXP) == Leveling.LevelFromXP(xp)
      decreases xp - totalXP
    {
      var xpForLevel := XPForLevel(level);
      if totalXP + xpForLevel > xp {
        return Leveling.LevelInfo(level, xp - totalXP, xpForLevel);
      }
      totalXP := totalXP + xpForLevel;
      level := level + 1;
    }
  }

  datatype Greeting = GoodMorning | GoodAfternoon | GoodEvening

  function GreetingText(g: Greeting): string
  {
    match g
    case GoodMorning => "Good morning"
    case GoodAfternoon => "Good afternoon"
    case GoodEvening => "Good evening"
  }

  /** `getGreeting`: before noon morning, before five afternoon, else evening. */
  function GetGreeting(hour: int): (g: Greeting)
    ensures g == GoodMorning <==> hour < 12
    ensures g == GoodAfternoon <==> 12 <= hour < 17
    ensures g == GoodEvening <==> hour >= 17
  {
    if hour < 12 then GoodMorning else if hour < 17 then GoodAfternoon else GoodEvening
  }
}
